=== FILE: README.md ===
# alert-engine in Dafny

This project models the alert-engine repository in Dafny. It has two parts.

The first part is the Go alert engine:
- Kubernetes-style log entries arrive from Kafka.
- They are matched against alert rules kept in Redis.
- Per-rule counters are kept in time windows.
- When a count passes its rule's threshold, a Slack alert is sent.
- An HTTP API manages the rules.

The second part is the pair of Python synthetic-log producers:
- a mock log generator that writes pattern bursts;
- a mock log forwarder that wraps each record in a Vector-style envelope and sends it to the broker.

Modelling choices:
- Every component is a set of pure functions over immutable datatypes.
- Redis is a finite map plus the order in which keys were first written (the order `KEYS` returns them in).
- The engine is its store plus its loaded rules.
- A buffer or tracker is a sequence or a map.
- The current time, random draws, environment variables, JSON decoding and RFC 3339 parsing are parameters.
- A Go `panic` or a Python `KeyError` is a result constructor (`Panicked`, `MakePanics`, `None`). It is not hidden by a precondition.

Modules (one per file):
- `Common`: strings, 64-bit wrap-around, Go's truncating division, `strconv.Atoi`/`Itoa`, `strings.Split`/`TrimSpace`.
- `Models`: `pkg/models`.
- `Rules`, `Evaluator`, `Engine`: `internal/alerting`.
- `Storage`: `internal/storage/redis.go`.
- `Notifications`: `internal/notifications/interfaces.go` and `slack.go`.
- `Kafka`: `internal/kafka/consumer.go` and `processor.go`.
- `Api`: `internal/api/handlers.go`.
- `Patterns`: the pattern catalog and continuous-mode schedule shared by both Python scripts.
- `MockGenerator`: `deployments/mock/mock_log_generator.py`.
- `MockForwarder`: `local_e2e/setup/mock_log_forwarder.py`.

`MockForwarder.ConsumedForwardedLog` connects the forwarder to the consumer:
- The forwarder lower-cases the envelope's level.
- The consumer lets a nested level replace only "", "INFO" or "DEFAULT". So the forwarded record's own level (for example "ERROR") never comes back.
- The engine compares levels exactly.

`MockForwarder.ForwardedLogsMissUpperCaseLevels` draws the consequence: no forwarded record matches a rule whose log level has an upper-case letter.

## Model

| member | source | states |
|---|---|---|
| Common.Wrap64 | internal/alerting/evaluator.go:194 | An int64 result equals the mathematical one whenever that is in range, and differs from it by a multiple of 2^64 otherwise |
| Common.Wrap64Add | internal/kafka/processor.go:302-305 | Wrapping after every increment ends where one wrapped addition would |
| Common.GoDiv | internal/alerting/evaluator.go:195 | Go's integer division truncates toward zero: Euclidean division for a non-negative dividend, negated division of the magnitude for a negative one |
| Common.ContainsMiddle | deployments/mock/mock_log_generator.py:283 | A keyword placed between a template's two halves occurs in the resulting message |
| Common.ToUpper | internal/alerting/evaluator.go:126-129 | strings.ToUpper restricted to ASCII: same length, each character mapped on its own, only a-z changed |
| Common.ToLower | internal/alerting/rules.go:310 | strings.ToLower restricted to ASCII: same length, each character mapped on its own, only A-Z changed |
| Common.TrimLeftSpace | internal/storage/redis.go:33 | The result is a suffix of the input that starts with a non-space, and everything dropped is white space |
| Common.TrimRightSpace | internal/storage/redis.go:33 | The result is a prefix of the input that ends with a non-space, and everything dropped is white space |
| Common.TrimSpace | internal/storage/redis.go:33 | strings.TrimSpace: a contiguous slice of the input, with only white space dropped on either side and no white space left at either end |
| Common.TrimSpaceSubset | internal/storage/redis.go:33 | Trimming never introduces a character |
| Common.Split | internal/storage/redis.go:31 | strings.Split on one character: one more piece than separators, no piece holds the separator, and joining the pieces gives the input back |
| Common.UnixSeconds | internal/alerting/engine.go:114 | time.Time.Unix(): the whole number of seconds since the Unix epoch, rounded down, so the instant lies within that second |
| Common.IntToString | internal/notifications/slack.go:484 | %d renders a non-negative number as decimal digits only and a negative one as '-' followed by digits |
| Common.Atoi | internal/api/handlers.go:231 | strconv.Atoi rejects the empty string and accepts only int64 values |
| Common.AtoiIntToString | internal/api/handlers.go:231 | Atoi reads back every int64 that Itoa writes |
| Models.GetNamespace | pkg/models/log.go:38-55 | The namespace is the first non-empty of top-level namespace_name, kubernetes.namespace_name and kubernetes.namespace; it is "" exactly when all three are empty |
| Models.GetPodName | pkg/models/log.go:58-64 | pod_name when set, otherwise the legacy pod field; "" only when both are empty |
| Models.GetContainerName | pkg/models/log.go:67-73 | container_name when set, otherwise the legacy container field; "" only when both are empty |
| Rules.ContainsString | internal/alerting/rules.go:298-305 | The linear scan answers exactly list membership |
| Rules.ValidateRule | internal/alerting/rules.go:22-56 | No error iff ID and name are non-empty, threshold and window positive, operator and severity empty or in their allowed sets; the error reported is the first failing check in the order ID, name, threshold, window, operator, severity |
| Rules.MaxInt | internal/alerting/rules.go:78-83 | The result is one of the two arguments and at least both |
| Rules.StandardRules | internal/alerting/rules.go:86-155 | Exactly three enabled "gt" rules, default-error-alert (ERROR, no keywords, the configured threshold and window, high), default-database-alert (ERROR, database/connection/failed, threshold max(1, t-2), window max(2 min, w/2) truncated, critical) and default-memory-warning (WARN, memory/usage/high, threshold max(5, 2t), window max(10 min, 2w), the configured severity), with int64 wrap-around in t-2, 2t and 2w, empty namespace and service, the configured channel, and both timestamps now |
| Rules.CreateDefaultRulesWithConfig | internal/alerting/rules.go:86-155 | Nothing when disabled, the configured rules unchanged when there are any, else exactly the three standard rules (with all their fields as StandardRules states) |
| Rules.StandardRulesValid | internal/alerting/rules.go:124-144 | All three standard rules validate exactly when the configured threshold, window and severity are acceptable |
| Rules.BuiltinDefaultRulesValid | internal/alerting/rules.go:59-67 | CreateDefaultRules yields three rules that all pass ValidateRule |
| Rules.GetRuleTemplateWithConfig | internal/alerting/rules.go:168-188 | The template carries the configured defaults and fails validation only for its missing ID |
| Rules.TemplateCompletes | internal/alerting/rules.go:168-188 | Giving the template an ID and a name makes it valid exactly when the configured defaults are acceptable |
| Rules.GetRuleStats | internal/alerting/rules.go:212-248 | Total is the rule count and splits into enabled plus disabled; the severity tally covers every rule, with "" counted as "medium"; empty namespaces and services are never counted |
| Rules.EnabledCount | internal/alerting/rules.go:222-228 | The enabled count never exceeds the number of rules |
| Rules.SeverityBag | internal/alerting/rules.go:230-235 | One severity per rule, and "" never appears |
| Rules.FieldBag | internal/alerting/rules.go:237-245 | Only non-empty values are tallied, at most one per rule |
| Rules.FieldBagCounts | internal/alerting/rules.go:237-245 | The tally of a non-empty value is the number of rules carrying it |
| Rules.Tally | internal/alerting/rules.go:237-245 | A single conditional increment never counts "" |
| Rules.FilterRules | internal/alerting/rules.go:251-295 | The result is an order-preserving subsequence of the rules; it holds only rules that pass the filter and every rule that passes |
| Rules.FilterRulesCounts | internal/alerting/rules.go:251-295 | Each rule occurs in the result exactly as often as in the input when it passes the filter, and not at all otherwise |
| Rules.FilterEmptyKeepsAll | internal/alerting/rules.go:251-295 | The empty filter keeps every rule |
| Rules.FilterKeepsMatching | internal/alerting/rules.go:251-295 | A list whose rules all pass is returned unchanged |
| Rules.FilterIdempotent | internal/alerting/rules.go:251-295 | Filtering twice is filtering once |
| Rules.ReplaceChar | internal/alerting/rules.go:308-323 | strings.ReplaceAll of one character replaces exactly its occurrences and keeps the length |
| Rules.KeepSlugChars | internal/alerting/rules.go:308-323 | Only [a-z0-9-] survives the filter loop |
| Rules.GenerateRuleID | internal/alerting/rules.go:308-323 | The ID contains only [a-z0-9-] and is no longer than the name |
| Rules.GenerateRuleIDCharwise | internal/alerting/rules.go:308-323 | The three passes equal the per-character reference: lower-case, ' ' and '_' to '-', anything else outside [a-z0-9-] dropped |
| Rules.SlugOfSlug | internal/alerting/rules.go:308-323 | A string that is already a slug is its own slug |
| Rules.SlugRefAppend | internal/alerting/rules.go:308-323 | The reference slug distributes over concatenation |
| Rules.GenerateRuleIDIdempotent | internal/alerting/rules.go:308-323 | Generating an ID from an ID changes nothing |
| Rules.GenerateRuleIDExample | internal/alerting/rules.go:308-323 | "Alert! @#$% Rule" becomes "alert--rule" |
| Storage.WindowStart | internal/storage/redis.go:126-129 | The window start truncates now: start <= now < start + window |
| Storage.SameWindowSameKey | internal/storage/redis.go:126-129 | Two instants of the same window share one counter key |
| Storage.KeyFamiliesDisjoint | internal/storage/redis.go:56-238 | Rule, status, alert and statistics keys never collide |
| Storage.RuleKeyInjective | internal/storage/redis.go:56-64 | Different rule IDs get different keys |
| Storage.Put | internal/storage/redis.go:56-64 | SET overwrites one key and leaves every other key as it was |
| Storage.Without | internal/storage/redis.go:111-123 | Dropping a key from the key order keeps all other keys and their order |
| Storage.Remove | internal/storage/redis.go:111-123 | DEL removes exactly one key |
| Storage.KeysWithPrefix | internal/storage/redis.go:67-71 | KEYS with a prefix pattern returns exactly the stored keys with that prefix |
| Storage.SaveAlertRule | internal/storage/redis.go:56-64 | Succeeds iff the store is reachable, and then stores the rule under "alert_rule:" + its ID |
| Storage.DecodeRules | internal/storage/redis.go:67-89 | Every rule value under the listed keys is returned, and nothing else; values that do not decode are skipped |
| Storage.GetAlertRules | internal/storage/redis.go:67-89 | On a reachable store, every stored rule is returned and every returned rule is stored |
| Storage.GetAlertRule | internal/storage/redis.go:92-108 | The stored rule for that ID; "not found" exactly when its key is absent |
| Storage.DeleteAlertRule | internal/storage/redis.go:111-123 | Deleting removes only that rule's key; deleting an absent rule is "not found" |
| Storage.SaveThenGetRule | internal/storage/redis.go:56-108 | Saving a rule and reading its ID back returns the rule |
| Storage.SaveKeepsOtherRules | internal/storage/redis.go:56-108 | Saving one rule leaves every other rule readable as before |
| Storage.DeleteThenGetRule | internal/storage/redis.go:92-123 | After a delete the rule reads as "not found" and a second delete fails |
| Storage.IncrementCounter | internal/storage/redis.go:126-141 | INCR of the window's key: succeeds iff the store is up and the key holds an int64 below the maximum; returns the new value |
| Storage.GetCounter | internal/storage/redis.go:144-162 | A missing counter reads as 0; a stored counter reads back as its value, and any other stored value is an error; an unreachable store is an error |
| Storage.RuleKeyReadsBack | internal/storage/redis.go:93 | Storage.RuleKey builds "alert_rule:" followed by the ID, which can be read back from the key |
| Storage.StatusKeyReadsBack | internal/storage/redis.go:171 | Storage.StatusKey builds "alert_status:" followed by the rule ID, which can be read back from the key |
| Storage.AlertKeyReadsBack | internal/storage/redis.go:242 | Storage.AlertKey builds "alert:" followed by the alert ID, which can be read back from the key |
| Storage.CounterKeyReadsBack | internal/storage/redis.go:145-146 | Storage.CounterKey builds "counter:", the rule ID and ':', followed by a non-empty stamp that parses back to the Unix second of the window start (for any int64 second) |
| Storage.IncrKey | internal/storage/redis.go:126-141 | A missing key counts from 0 to 1; an existing counter grows by one |
| Storage.IncrKeyMany | internal/storage/redis.go:126-141 | Repeated INCR returns one reply per call |
| Storage.IncrementsCountUp | internal/storage/redis.go:126-162 | Successive increments of one key return base+1, base+2, ..., base+n |
| Storage.SuccessiveIncrementsInWindow | internal/storage/redis.go:126-162 | Two increments within one window return 1 then 2, and GetCounter anywhere in that window then reads 2 |
| Storage.SetAlertStatus | internal/storage/redis.go:165-173 | Writes only the rule's status key |
| Storage.GetAlertStatus | internal/storage/redis.go:176-192 | Reads back what was set; a missing status is "not found" |
| Storage.SaveLogStats | internal/storage/redis.go:195-203 | Writes only the statistics key |
| Storage.GetLogStats | internal/storage/redis.go:206-227 | Missing statistics read as zero totals with empty maps, stamped now |
| Storage.SaveAlert | internal/storage/redis.go:230-238 | Writes only "alert:" + the alert ID |
| Storage.GetAlert | internal/storage/redis.go:241-257 | Reads back the saved alert; a missing alert is "not found" |
| Storage.DecodeAlerts | internal/storage/redis.go:260-287 | Every alert value under the listed keys is returned, and nothing else |
| Storage.GetRecentAlerts | internal/storage/redis.go:260-287 | As written: the first min(n, limit) decoded alerts in the order the keys are listed, for limit >= 0; a negative limit is an out-of-range slice |
| Storage.NegativeLimitFailsOnEmptyStore | internal/storage/redis.go:281-284 | A negative limit fails even when there are no alerts |
| Storage.GetRecentAlertsClamped | internal/storage/redis.go:260-287 | Corrected: a negative limit asks for nothing, and the result is always a prefix of the stored alerts |
| Storage.ClampedAgreesOnNonNegative | internal/storage/redis.go:260-287 | The corrected and the as-written versions agree on every non-negative limit |
| Storage.GetHealthStatus | internal/storage/redis.go:290-296 | PING answers true iff the store is reachable, and is an error otherwise |
| Storage.TrimAll | internal/storage/redis.go:31-34 | Every cluster address is trimmed, one per input piece |
| Storage.NewRedisStoreWithConfig | internal/storage/redis.go:26-53 | Cluster mode iff it is requested or the address has a ','; then the addresses are exactly the comma-separated pieces, each trimmed, one per piece |
| Storage.ContainsChar | internal/storage/redis.go:26-53 | strings.Contains with a one-character needle is plain membership |
| Evaluator.MatchesKeywords | internal/alerting/evaluator.go:125-135 | True iff every keyword occurs in the message, both upper-cased ASCII letter by letter (so ASCII case is ignored); no keywords always match |
| Evaluator.EvaluateCondition | internal/alerting/evaluator.go:26-52 | Never fails; true iff every non-empty condition field holds (exact level, kubernetes.namespace, the "app" label, keywords ignoring ASCII case); a missing "app" label fails a service condition |
| Evaluator.EmptyConditionMatchesAll | internal/alerting/evaluator.go:26-52 | A condition with every field empty matches every entry |
| Evaluator.OnlyAppLabelMatters | internal/alerting/evaluator.go:38-42 | Changing any label other than "app" never changes the verdict |
| Evaluator.CompareWithThreshold | internal/alerting/evaluator.go:107-122 | gte, lt, lte and eq compare as named; "" and any unknown operator mean gt |
| Evaluator.EvaluateThreshold | internal/alerting/evaluator.go:55-66 | Fails exactly when the counter increment fails, leaving the store unchanged; otherwise the count is the post-increment counter value |
| Evaluator.MatchingLogs | internal/alerting/evaluator.go:79-94 | The samples the condition accepts, in order |
| Evaluator.TestRule | internal/alerting/evaluator.go:69-104 | TotalLogs is the sample count; MatchedLogs equals the number of matches and of matching samples; every match is marked matched and satisfies the condition; WouldTrigger iff MatchedLogs >= threshold, whatever the operator |
| Evaluator.TrackEvaluation | internal/alerting/evaluator.go:184-200 | The rule's evaluation count grows by one and its match count by one iff matched; the total is the previous total (0 for a new rule) plus the time, wrapped to int64; the average is that total divided by the count, truncating toward zero; other rules are untouched |
| Evaluator.TrackKeepsInvariant | internal/alerting/evaluator.go:184-200 | Match count <= evaluation count, and the average is total div count, before and after every call |
| Evaluator.GoDivBounded | internal/alerting/evaluator.go:195 | Go's truncating division by a positive count stays between 0 and the dividend |
| Evaluator.DivLe | internal/alerting/evaluator.go:195 | The same bound for a non-negative dividend |
| Evaluator.CountMatched | internal/alerting/evaluator.go:184-200 | At most one match per evaluation |
| Evaluator.TrackAllCounts | internal/alerting/evaluator.go:184-200 | n evaluations add exactly n to the count, and the number of matched ones to the match count |
| Evaluator.GetRulePerformance | internal/alerting/evaluator.go:208-210 | nil exactly for a rule never tracked |
| Evaluator.Chunks | internal/alerting/evaluator.go:231-243 | For a positive size the slices partition the logs in order, each full except the last; a zero size never terminates and a negative size panics on a non-empty input |
| Evaluator.EvaluateRuleOnLog | internal/alerting/evaluator.go:257-298 | A disabled or non-matching rule, or a failed increment, changes nothing; otherwise the store is the increment's and one alert (rule, entry, count, now) is appended iff the count meets the threshold; an alert is appended iff the rule is enabled, its condition holds, the increment succeeds and the count meets the threshold |
| Evaluator.EvaluateLogAgainst | internal/alerting/evaluator.go:257-298 | One log against the rules keeps earlier alerts, appends at most one alert per rule, and every new alert was raised by an enabled rule whose condition holds for this entry and whose count meets its threshold |
| Evaluator.RaisedByOneOfStep | internal/alerting/evaluator.go:257-298 | Alerts raised by the first rules followed by alerts raised by the next rule were all raised by one of the rules |
| Evaluator.EvaluateLogs | internal/alerting/evaluator.go:257-298 | The store stays well formed through the pass |
| Evaluator.EvaluateLogsAppend | internal/alerting/evaluator.go:257-298 | Evaluating a + b is evaluating a, then b from where a left off |
| Evaluator.EvaluateChunks | internal/alerting/evaluator.go:227-254 | The store stays well formed across chunks |
| Evaluator.EvaluateChunksUntil | internal/alerting/evaluator.go:236-250 | Chunks are evaluated in order and the context is polled after each; the result is cancelled iff the context is done after a chunk that exists |
| Evaluator.EvaluateChunksUntilNever | internal/alerting/evaluator.go:245-250 | A context that is never done evaluates every chunk, exactly as the loop without cancellation |
| Evaluator.EvaluateChunksUntilDone | internal/alerting/evaluator.go:245-250 | A context done after chunk k returns the result of chunks 0..k and nothing of the rest; past the last chunk it changes nothing |
| Evaluator.EvaluateBatch | internal/alerting/evaluator.go:227-254 | No logs: nothing is evaluated and no alert is raised; a negative size panics in the slice; a zero size loops forever unless the context is done after the first (empty) chunk; a positive size either evaluates every log or stops with the alerts so far when the context is done, and always evaluates every log when the context never is |
| Evaluator.EvaluateChunksFlatten | internal/alerting/evaluator.go:227-254 | Evaluating chunk after chunk equals evaluating their concatenation |
| Evaluator.BatchingIsTransparent | internal/alerting/evaluator.go:227-298 | For any positive batch size and a context that is never done, the alerts and the store are those of one pass over all logs |
| Evaluator.CancelledBatchIsPrefix | internal/alerting/evaluator.go:227-250 | When the context is done after chunk k, the returned alerts and store are exactly those of one pass over the first min((k+1) * size, n) logs; if chunk k does not exist, all logs are evaluated |
| Evaluator.ChunkPrefix | internal/alerting/evaluator.go:231-243 | Chunk k exists iff k * size < n, and the first k + 1 chunks concatenate to the first min((k+1) * size, n) logs |
| Engine.MatchesConditions | internal/alerting/engine.go:144-173 | True iff each non-empty field holds: exact level, GetNamespace equal, "app" label equal, all keywords present ignoring ASCII case |
| Engine.MatchesAgreeWithoutNamespaceName | internal/alerting/engine.go:144-173 | When both namespace_name fields are empty, the engine and the evaluator accept the same entries |
| Engine.MatchesDisagreeOnNamespaceName | internal/alerting/engine.go:151 | With only a top-level namespace_name set, the engine matches a namespace condition that the evaluator rejects |
| Engine.ShouldTriggerAlert | internal/alerting/engine.go:182-197 | Exactly the evaluator's operator semantics, unknown operators meaning gt |
| Engine.GetServiceName | internal/alerting/engine.go:245-253 | The "app" label, else the "service" label, else "unknown" |
| Engine.CounterKeyApart | internal/alerting/engine.go:99-141 | The counter key never collides with an alert or status key |
| Engine.AlertKeyApart | internal/alerting/engine.go:256-266 | Alert and status keys never collide |
| Engine.EvaluateRule | internal/alerting/engine.go:99-141 | A disabled or non-matching rule, or a failed increment, leaves the store as it was and raises nothing; a met threshold hands the notifier a "pending" alert carrying the counter value, saved as "sent" or "failed" with the rule's status marked sent; one instant stamps both the counter window and the alert ID |
| Engine.RaisedByAppend | internal/alerting/engine.go:99-141 | Alerts from the first rule followed by alerts from the rest all come from some rule |
| Engine.EvaluateRules | internal/alerting/engine.go:99-141 | At most one alert per rule, and every alert comes from an enabled, matching rule whose count meets its threshold |
| Engine.EvaluateLog | internal/alerting/engine.go:99-141 | One log against the loaded rules keeps the store well formed |
| Engine.DisabledRulesAreInert | internal/alerting/engine.go:100-110 | With no enabled rule, the store is untouched and the notifier is never called |
| Engine.UnavailableStoreRaisesNothing | internal/alerting/engine.go:104-110 | When every increment fails, no alert is raised and nothing is written |
| Engine.LoadRules | internal/alerting/engine.go:269-278 | Succeeds iff the store answers, and then the loaded rules are the store's |
| Engine.NewEngine | internal/alerting/engine.go:64-85 | The rules are the store's, or none when the first load fails |
| Engine.Reload | internal/alerting/engine.go:269-278 | A reload replaces the loaded rules by the store's when the store answers; otherwise the loaded rules are kept and the key-listing error is reported |
| Engine.AddRule | internal/alerting/engine.go:286-295 | Stamps both times with one instant (Go reads the clock twice, nanoseconds apart); a store that is down changes nothing and reports the save error; otherwise the stamped rule is saved under its key, and the reload either succeeds (the loaded rules are the store's and include the rule) or fails, leaving the old loaded rules beside the saved rule and reporting an error; no error iff both the save and the reload reach the store |
| Engine.UpdateRule | internal/alerting/engine.go:298-306 | Stamps only UpdatedAt; otherwise as AddRule: a failed save changes nothing, a failed reload keeps the saved rule and the old loaded rules and reports an error |
| Engine.SaveAndReload | internal/alerting/engine.go:286-306 | Save then reload: the store holds the rule either way once the save succeeds; only when the reload succeeds are the loaded rules the store's, including the saved rule; otherwise the old loaded rules stay |
| Engine.AddRuleKeepsOthers | internal/alerting/engine.go:286-295 | Rules stored before an add are still loaded after it |
| Engine.DeleteRule | internal/alerting/engine.go:309-315 | "not found" iff the store is up without the rule, and then nothing changes; after a successful delete the key is gone even when the reload fails (which keeps the old loaded rules and reports an error); with no error, no loaded rule has that ID |
| Engine.NoRuleAfterDelete | internal/alerting/engine.go:309-315 | In a well-keyed store without the rule's key, no loaded rule has its ID |
| Engine.GetRule | internal/alerting/engine.go:323-325 | Found iff the store is reachable and holds a rule under that ID's key, and then it is that rule; "not found" exactly when the key is absent |
| Engine.PendingAlert | internal/alerting/engine.go:113-124 | The alert copies the rule's ID, name and severity, the log entry and its timestamp and the count, is "pending", and its ID is the rule ID, '-' and a number that parses back to the current Unix second |
| Engine.DeliveryStatus | internal/alerting/engine.go:126-130 | The saved status is "sent" exactly when delivery succeeded and "failed" exactly when it did not |
| Engine.WellKeyedRuleHasId | internal/alerting/engine.go:323-325 | In a well-keyed store, the rule read for an ID has that ID |
| Engine.Sub | internal/alerting/engine.go:343-350 | time.Sub is exact within the int64 range and saturates outside it, never crossing the one-hour bound wrongly |
| Engine.CleanupOldWindows | internal/alerting/engine.go:343-350 | Drops exactly the windows that ended more than an hour before now; the rest are kept unchanged |
| Engine.CleanupIdempotent | internal/alerting/engine.go:343-350 | A second cleanup at the same instant removes nothing more |
| Engine.CleanupMonotone | internal/alerting/engine.go:343-350 | A later cleanup keeps no window that an earlier one dropped |
| Notifications.SetGlobalNotificationConfig | internal/notifications/interfaces.go:168-170 | After a set, the getter answers that configuration |
| Notifications.GetGlobalNotificationConfig | internal/notifications/interfaces.go:173-175 | The getter returns the stored configuration, and before any set both maps are nil |
| Notifications.SetWhatWasGot | internal/notifications/interfaces.go:168-175 | Setting the configuration just read back changes nothing |
| Notifications.LastSetWins | internal/notifications/interfaces.go:168-175 | The last configuration set wins |
| Notifications.DefaultNotificationConfig | internal/notifications/interfaces.go:178-190 | Enabled with deduplication over 5 minutes; 3 retries 5 s apart, 30 s timeout, 60 per minute, batches of 10 sent 1 s apart |
| Notifications.DefaultGlobalNotificationConfig | internal/notifications/interfaces.go:193-210 | Both tables are the built-in ones |
| Notifications.SeverityLookup | internal/notifications/interfaces.go:213-242 | The severity's entry, else "default", else the fixed fallback; the answer is always from the table or the fallback |
| Notifications.GetSeverityEmoji | internal/notifications/interfaces.go:213-226 | A nil global table is replaced by the built-in one, and the lookup chain ends in the white circle |
| Notifications.GetSeverityColor | internal/notifications/interfaces.go:229-242 | A nil global table is replaced by the built-in one, and the lookup chain ends in gray |
| Notifications.BuiltinTablesFallBack | internal/notifications/interfaces.go:213-242 | With nothing set, known severities get their own emoji and colour; any other severity, "" included, gets the "default" entries |
| Notifications.MissingDefaultFallsBack | internal/notifications/interfaces.go:225-241 | A configured table without "default" falls back to the white circle and #808080 |
| Notifications.IsEnabled | internal/notifications/slack.go:354 | Enabled exactly when switched on and the webhook URL is non-empty |
| Notifications.SendAlert | internal/notifications/slack.go:158-169 | Disabled is reported before an empty webhook; only an enabled notifier with a webhook can succeed, and then iff the POST succeeds |
| Notifications.DisabledNeverSends | internal/notifications/slack.go:158-169 | A notifier that is not enabled fails before anything is sent |
| Notifications.Utf8 | internal/notifications/slack.go:396-404 | UTF-8 encodes a code point in one to four bytes |
| Notifications.NotifierSeverityEmojiAsWritten | internal/notifications/slack.go:247-255 | As written: the notifier's chain ends in the mis-encoded circle |
| Notifications.SlackEmojisAreMisdecoded | internal/notifications/slack.go:396-404 | Every emoji in the notifier's default table, and its fallback, is the UTF-8 bytes of the intended emoji read as Windows-1252 |
| Notifications.Cp1252Cons | internal/notifications/slack.go:396-404 | Windows-1252 decoding proceeds byte by byte |
| Notifications.Decode3 | internal/notifications/slack.go:396-404 | Decoding three bytes is decoding each |
| Notifications.Decode4 | internal/notifications/slack.go:396-404 | Decoding four bytes is decoding each |
| Notifications.NotifierFallbackDisagreesWithGlobal | internal/notifications/slack.go:247-255 | As written, an unknown severity gets a different glyph from the notifier than from the package-level lookup |
| Notifications.DefaultSeverityEmojis | internal/notifications/slack.go:396-404 | Corrected: the notifier's default emoji table is the global table, whose entries mis-decode to the literals written in the file |
| Notifications.DefaultSeverityColors | internal/notifications/slack.go:406-414 | The notifier's default colour table is the global one |
| Notifications.NotifierSeverityEmoji | internal/notifications/slack.go:247-255 | Corrected: the answer is from the configured table or the real white circle |
| Notifications.AsWrittenAgreesWhenTableAnswers | internal/notifications/slack.go:247-255 | The lookup as written and the corrected one agree exactly when the table holds the severity or "default"; they differ only in the last resort |
| Notifications.NotifierEmojiAgreesWithGlobal | internal/notifications/slack.go:247-255 | Corrected, the notifier's emoji lookup agrees with the package-level one on every severity when both use the same table |
| Notifications.DefaultNotifierMatchesGlobalDefaults | internal/notifications/slack.go:247-255 | With the default tables the notifier's emoji is the global default emoji |
| Notifications.NotifierSeverityColor | internal/notifications/slack.go:258-266 | The answer is from the configured table or gray |
| Notifications.NotifierColorAgreesWithGlobal | internal/notifications/slack.go:258-266 | The notifier's colour lookup agrees with the package-level one on every severity when both use the same table |
| Notifications.ReplaceAll | internal/notifications/slack.go:276-278 | strings.ReplaceAll of an absent byte changes nothing |
| Notifications.ReplaceAllAppend | internal/notifications/slack.go:276-278 | ReplaceAll distributes over concatenation |
| Notifications.Escape | internal/notifications/slack.go:276-278 | Escaped text has no '<' or '>' and is at least as long as the input |
| Notifications.ThreePassesEscape | internal/notifications/slack.go:276-278 | Because '&' is replaced first, the three passes equal byte-wise escaping and no entity is escaped twice |
| Notifications.UnescapeEscape | internal/notifications/slack.go:276-278 | Unescaping the escaped text returns the message |
| Notifications.UnescapeStep | internal/notifications/slack.go:276-278 | Unescaping consumes exactly one escaped byte at the front |
| Notifications.UnescapeAmp | internal/notifications/slack.go:276 | "&amp;" unescapes to '&' |
| Notifications.UnescapeLt | internal/notifications/slack.go:277 | "&lt;" unescapes to '<' |
| Notifications.UnescapeGt | internal/notifications/slack.go:278 | "&gt;" unescapes to '>' |
| Notifications.UnescapePlain | internal/notifications/slack.go:276-278 | A byte other than '&' unescapes to itself |
| Notifications.FormatLogMessage | internal/notifications/slack.go:269-281 | Over 500 bytes: the first 500 bytes plus "...", unescaped and unfenced; otherwise the escaped message in a code fence |
| Notifications.FormatLogMessageRoundTrip | internal/notifications/slack.go:269-281 | For a short message the fenced body has no angle bracket and unescapes to the message |
| Notifications.LongMessageLength | internal/notifications/slack.go:271-273 | The long form is exactly 503 bytes |
| Notifications.ServiceName | internal/notifications/slack.go:284-292 | The notifier's service name is the engine's: "app" label, "service" label, "unknown" |
| Notifications.ValidateConfig | internal/notifications/slack.go:451-469 | No error iff all four checks pass; the error is the first failing one of: URL present, URL on hooks.slack.com, channel present, channel starts with '#' or '@' |
| Notifications.ValidConfigHasWebhook | internal/notifications/slack.go:354 | A valid, enabled configuration is enabled for sending |
| Notifications.FillCustomMessage | internal/notifications/slack.go:438-449 | Channel, username and icon come from the configuration only where the message leaves them empty; text and attachments are kept |
| Notifications.FillIdempotent | internal/notifications/slack.go:438-449 | With non-empty configuration values, filling twice is filling once |
| Notifications.SendCustomMessage | internal/notifications/slack.go:438-449 | The filled message is posted, and the result is the POST's outcome |
| Notifications.Severities | internal/notifications/slack.go:483-486 | The severities of the alerts, one per alert in order |
| Notifications.Keys | internal/notifications/slack.go:483-486 | The severities a tally names, in order |
| Notifications.Bump | internal/notifications/slack.go:483-486 | Counting an alert keeps the severities in first-seen order, appending a new one at the end |
| Notifications.BumpCounts | internal/notifications/slack.go:483-486 | Counting one alert adds one to its severity's count and leaves every other count |
| Notifications.DistinctAppend | internal/notifications/slack.go:483-486 | Appending a new severity keeps the tally's keys distinct |
| Notifications.TallySeverities | internal/notifications/slack.go:483-486 | One positive entry per distinct severity; each counts that severity's alerts, and the counts sum to the number of alerts |
| Notifications.Title | internal/notifications/slack.go:493-500 | A character is upper-cased (ASCII letters only) exactly when it starts the string or follows a character that is not a word character; every other character is kept; the length is kept |
| Notifications.TitleFrom | internal/notifications/slack.go:493-500 | The same per-character rule from a position whose predecessor status is given: character i is upper-cased iff it is first and the flag is set, or it follows a non-word character |
| Notifications.Clock | internal/notifications/slack.go:503-505 | The "15:04:05" clock is eight characters with colons at 2 and 5; its digits are the hour, minute and second (ClockReadsBack) |
| Notifications.ClockReadsBack | internal/notifications/slack.go:503-505 | For any time built from days, hour, minute, second and nanoseconds, the clock reads back the zero-padded hour, minute and second |
| Notifications.SeverityFields | internal/notifications/slack.go:490-501 | One field per tally entry, in order; each carries the emoji of the notifier's own lookup as written, the title-cased severity, and the count |
| Notifications.CreateAlertSummary | internal/notifications/slack.go:472-526 | No alerts give the empty message; otherwise the text is "n alerts triggered" with one gray attachment holding one field per distinct severity and then the time range from the last alert's clock to the first's |
| Notifications.SummaryCountsAllAlerts | internal/notifications/slack.go:472-526 | The breakdown has one field per distinct severity, each counting that severity's alerts, the counts summing to n |
| Kafka.DefaultConsumerConfig | internal/kafka/consumer.go:372-382 | Broker 127.0.0.1:9094, topic application-logs, group alert-engine-e2e-fresh-20250716, 1 KiB to 1 MiB fetches, 2 s wait, start at the earliest offset |
| Kafka.DefaultConsumerConfigFromEnv | internal/kafka/consumer.go:385-400 | Each of brokers, topic and group is overridden only by a non-empty variable; brokers are split on ','; nothing else changes |
| Kafka.EmptyEnvironmentKeepsDefaults | internal/kafka/consumer.go:385-400 | With none of the three variables set, the defaults are unchanged |
| Kafka.SingleBrokerFromEnv | internal/kafka/consumer.go:388-390 | A broker variable without commas is the one broker |
| Kafka.CountCharAbsent | internal/kafka/consumer.go:388-390 | A string without commas has no commas to split on |
| Kafka.HealthCheck | internal/kafka/consumer.go:359-369 | Healthy iff the reader lags by at most 1000 messages |
| Kafka.HealthMonotone | internal/kafka/consumer.go:359-369 | Less lag never makes a healthy consumer unhealthy |
| Kafka.NewConsumerGroup | internal/kafka/consumer.go:308-319 | count consumers over one configuration, each with its own reader; a negative count panics in make |
| Kafka.GetGroupStats | internal/kafka/consumer.go:348-356 | One statistics entry per consumer, in order |
| Kafka.GroupStatsSize | internal/kafka/consumer.go:308-356 | A group built for k consumers reports k statistics |
| Kafka.StringField | internal/kafka/consumer.go:74-89 | Non-empty exactly when the key holds a non-empty JSON string, and then that string |
| Kafka.ParseMessageField | internal/kafka/consumer.go:61-99 | An empty or non-object message leaves the entry unchanged; only service, level, message and timestamp can change; service and message become the nested string exactly when it is non-empty; level becomes the nested one exactly when that is non-empty and the current one is "", "INFO" or "DEFAULT"; timestamp becomes the parsed nested one exactly when the current one is zero and the nested one parses |
| Kafka.ExplicitLevelWins | internal/kafka/consumer.go:79-84 | A level such as "ERROR" is never replaced by the nested one |
| Kafka.LiftsForwardedRecord | internal/kafka/consumer.go:61-99 | A forwarded payment-service record has its service and message lifted, its envelope level kept, and its raw text unchanged |
| Kafka.ValidateLogEntry | internal/kafka/processor.go:136-154 | Valid iff the message and kubernetes.namespace are non-empty; an empty message is reported first; only the verdict comes back |
| Kafka.ValidationIgnoresNamespaceName | internal/kafka/processor.go:136-154 | An entry with only namespace_name set is rejected although GetNamespace resolves it |
| Kafka.ConsumeMessage | internal/kafka/consumer.go:152-197 | A read failure and an unmarshal failure are reported apart; otherwise the entry the engine evaluates is ParseMessageField applied to the unmarshalled entry carrying the raw message text |
| Kafka.ProcessMessage | internal/kafka/processor.go:102-133 | Succeeds iff the read and unmarshal succeed and the entry validates; the result is the entry with its raw text, not lifted |
| Kafka.NewMessageProcessor | internal/kafka/consumer.go:220-228 | Empty buffer and call log, the given flush interval; a negative batch size panics in make |
| Kafka.BufferMessage | internal/kafka/consumer.go:264-280 | A successful read appends the unmarshalled entry with its raw text, without validation or lifting; a failure changes nothing |
| Kafka.FlushBuffer | internal/kafka/consumer.go:283-299 | The buffer empties into the engine in order; an empty buffer makes no calls |
| Kafka.ProcessBatchStep | internal/kafka/consumer.go:231-261 | A failed read or unmarshal changes nothing; otherwise either nothing reaches the engine or the buffer is flushed empty and the timer re-armed for a minute; what stays buffered is below the batch size |
| Kafka.ProcessBatchStepConserves | internal/kafka/consumer.go:231-261 | What the engine has seen followed by the buffer grows by exactly the entry read, in order |
| Kafka.ProcessBatchStepBounded | internal/kafka/consumer.go:231-261 | The buffer never reaches the batch size between steps |
| Kafka.DefaultProcessorConfig | internal/kafka/processor.go:357-366 | Default consumer, batches of 100 flushed every 5 s, 3 retries 1 s apart, metrics on |
| Kafka.NewLogProcessor | internal/kafka/processor.go:42-68 | Builds its own consumer settings: the given brokers and topic, group log-monitoring-group, latest offset; otherwise the default processor settings and zero metrics |
| Kafka.NewLogProcessorDiffersFromDefaults | internal/kafka/processor.go:42-68 | The stand-alone constructor and the defaults disagree on group and start offset |
| Kafka.CreateProcessor | internal/kafka/processor.go:331-344 | The factory configuration with only brokers and topic replaced, zero metrics and no evaluations |
| Kafka.CreateBatchProcessor | internal/kafka/processor.go:347-354 | Batch size and flush interval come from the factory; a negative batch size panics in make |
| Kafka.ReadAndBuffer | internal/kafka/processor.go:270-292 | Only entries that ProcessMessage accepts are buffered, in arrival order |
| Kafka.EvaluateEach | internal/kafka/processor.go:300-309 | Each entry is evaluated once in order, and MessagesProcessed grows by the count with int64 wrap-around |
| Kafka.FlushBatch | internal/kafka/processor.go:295-316 | The buffer empties into the engine in order and MessagesProcessed grows by its length; an empty buffer changes nothing |
| Kafka.BatchStep | internal/kafka/processor.go:237-267 | A rejected message changes nothing; otherwise either nothing reaches the engine or the buffer is flushed empty, the timer re-armed with the flush interval and lastProcessed set; what stays buffered is below the batch size |
| Kafka.BatchStepConserves | internal/kafka/processor.go:237-267 | Evaluated followed by buffered grows by exactly the accepted entry, and the buffer stays below the batch size |
| Kafka.RetryProcessing | internal/kafka/processor.go:157-173 | Wait k is RetryDelay times k; succeeds iff some attempt up to RetryAttempts succeeds, stopping at the first success; otherwise every attempt is waited out |
| Kafka.RetryFrom | internal/kafka/processor.go:157-173 | The retry loop from attempt k keeps the delay schedule and stops at the first success |
| Kafka.DefaultRetrySchedule | internal/kafka/processor.go:157-173 | With the default configuration the waits are 1, 2 and 3 seconds |
| Api.Health | internal/api/handlers.go:64-86 | 503 with an error iff the store cannot be reached; otherwise 200 with the store's verdict |
| Api.ReachableStoreIsHealthy | internal/api/handlers.go:64-86 | A reachable store is always reported "healthy" |
| Api.GetRule | internal/api/handlers.go:99-115 | 200 with the stored rule, otherwise 404 whatever the engine's error |
| Api.AssignId | internal/api/handlers.go:137-140 | Only the ID may change, and a given ID is kept |
| Api.CreateRule | internal/api/handlers.go:118-156 | 400 for a bad body or an invalid rule; 201 iff the rule is valid and both the save and the reload reach the store, and then the rule reads back under its own ID; when the save succeeds but the reload fails the reply is 500 although the rule is stored; the ID-generation branch is unreachable |
| Api.UpdateRule | internal/api/handlers.go:159-197 | The path ID replaces the body's before validation; 200 iff the rule is valid and both save and reload reach the store; a failed reload answers 500 with the rule already saved; the engine is unchanged whenever the save is not attempted or fails |
| Api.UpdateIgnoresBodyId | internal/api/handlers.go:159-197 | Whatever ID the body carries makes no difference |
| Api.DeleteRule | internal/api/handlers.go:200-215 | 200 iff the store is up, holds the rule and the reload succeeds; every engine error is 404, including a failed reload after the rule was deleted |
| Api.DeleteDuringOutageIsNotFound | internal/api/handlers.go:200-215 | An unreachable store is reported as a missing rule |
| Api.ParseLimit | internal/api/handlers.go:229-234 | An absent or non-numeric limit means 50; otherwise the number Atoi reads |
| Api.ParseLimitRoundTrip | internal/api/handlers.go:229-234 | Every int64 written in decimal is read back as itself |
| Api.GetRecentAlerts | internal/api/handlers.go:229-249 | As written: 500 on a store error, 200 with the store's first alerts otherwise, and a panic for a negative limit on a reachable store |
| Api.NegativeLimitPanics | internal/api/handlers.go:229-249 | "?limit=-1" brings the request down on any reachable store |
| Api.GetRecentAlertsClamped | internal/api/handlers.go:229-249 | Corrected: 200 iff the store is up, with a prefix of the stored alerts, else 500 |
| Api.ClampedHandlerAgrees | internal/api/handlers.go:229-249 | Wherever the handler as written answers, the corrected one answers the same |
| Api.ValidRules | internal/api/handlers.go:358-380 | Exactly the valid rules of the request, in order |
| Api.BulkAddOne | internal/api/handlers.go:358-380 | A valid rule on a reachable store is created; anything else adds one error and the loop continues |
| Api.BulkAdd | internal/api/handlers.go:358-380 | On a reachable store the created rules are exactly the valid ones in order; on an unreachable store nothing is created |
| Api.BulkAddAccountsForEveryRule | internal/api/handlers.go:358-380 | Created plus errors grow by exactly the request size: every rule is either created or reported |
| Api.BulkAddKeepsEarlierErrors | internal/api/handlers.go:358-380 | Errors only accumulate: those already recorded stay in front |
| Api.BulkCreateRules | internal/api/handlers.go:347-396 | 400 for a bad body; otherwise 201 iff there are no errors, else 206; success iff something was created |
| Api.BulkOfValidRulesIsCreated | internal/api/handlers.go:347-396 | On a reachable store a request of valid rules is created in full with 201 |
| Api.AllValid | internal/api/handlers.go:358-380 | A request of valid rules is kept whole |
| Patterns.Choose | deployments/mock/mock_log_generator.py:212 | random.choice returns one of the options |
| Patterns.RandInt | deployments/mock/mock_log_generator.py:348 | random.randint includes both ends |
| Patterns.RandIntCovers | deployments/mock/mock_log_generator.py:348 | Every value in the range can be drawn |
| Patterns.PyMod | deployments/mock/mock_log_generator.py:374 | Python's % takes the divisor's sign, and is zero exactly when the divisor divides |
| Patterns.ThresholdOf | deployments/mock/mock_log_generator.py:347 | The pattern's threshold, 5 when it has none |
| Patterns.LookupPattern | deployments/mock/mock_log_generator.py:338 | self.patterns[name] is found iff the name is in the catalog, and then has that name |
| Patterns.LookupIn | deployments/mock/mock_log_generator.py:338 | Lookup by name in a list finds exactly the listed names |
| Patterns.CatalogWellFormed | deployments/mock/mock_log_generator.py:44-148 | 19 patterns with distinct names; each has a service and a keyword, a threshold of at least 1, and only listed services |
| Patterns.LookupDrawable | deployments/mock/mock_log_generator.py:338 | Every pattern found can be drawn from |
| Patterns.CatalogThresholds | deployments/mock/mock_log_generator.py:52-148 | Every threshold is at least 1 |
| Patterns.CatalogServices | deployments/mock/mock_log_generator.py:44-148 | Every pattern service is one of the 14 listed services |
| Patterns.CatalogDrawable | deployments/mock/mock_log_generator.py:52-148 | Every pattern has a service and a keyword to draw |
| Patterns.CatalogNamesListed | deployments/mock/mock_log_generator.py:52-148 | The catalog's names, in dictionary order |
| Patterns.NamesDistinct | deployments/mock/mock_log_generator.py:52-148 | No name appears twice |
| Patterns.Component | deployments/mock/mock_log_generator.py:194 | The component label is the text before the first '-', or the whole name when it has none |
| Patterns.FirstPieceIsPrefix | deployments/mock/mock_log_generator.py:194 | The first piece of a split is a prefix ending at the first separator |
| Patterns.NormalMessages | deployments/mock/mock_log_generator.py:302-313 | The ten routine messages |
| Patterns.ContinuousTemplatesCoverCatalog | deployments/mock/mock_log_generator.py:261-281 | The continuous-mode templates cover exactly the catalog's names |
| Patterns.MessageFrom | deployments/mock/mock_log_generator.py:283 | The message always contains the keyword, and is "Service log: " + keyword when there is no template |
| Patterns.Normals | deployments/mock/mock_log_generator.py:365-370 | n normal-log events |
| Patterns.Cycle | deployments/mock/mock_log_generator.py:365-378 | Five normal logs, followed by a burst when the cycle counter is due |
| Patterns.Schedule | deployments/mock/mock_log_generator.py:357-385 | Every burst is of a catalog pattern |
| Patterns.CountsAppend | deployments/mock/mock_log_generator.py:357-385 | Counts of events add up over concatenation |
| Patterns.NormalsCount | deployments/mock/mock_log_generator.py:365-370 | n normal events and no burst |
| Patterns.CycleCounts | deployments/mock/mock_log_generator.py:365-378 | A cycle has five normal logs and one burst iff the counter is a multiple of the interval |
| Patterns.ScheduleCounts | deployments/mock/mock_log_generator.py:357-385 | Over n cycles with a positive interval: 5n normal logs and n div interval bursts |
| Patterns.DivStep | deployments/mock/mock_log_generator.py:374 | n div d grows by one exactly at multiples of d |
| Patterns.ZeroIntervalNeverBursts | deployments/mock/mock_log_generator.py:374-384 | With interval 0 the modulo raises, the loop catches it, and no burst ever happens |
| MockGenerator.GenerateBaseLog | deployments/mock/mock_log_generator.py:164-208 | The namespace is one of POD_NAMESPACE (default "mock-logs"), production, staging or development, and is shared by the top level, kubernetes.namespace and namespace_name; app label = container = service; component as defined |
| MockGenerator.SelectLevelAndService | deployments/mock/mock_log_generator.py:212-234 | Service from the pattern, level from its condition or the four drawn levels; in test mode the override table replaces them for four patterns |
| MockGenerator.TestTemplatesCoverE2e | deployments/mock/mock_log_generator.py:245-258 | The test-mode templates cover exactly the twelve e2e patterns |
| MockGenerator.TemplateCoverage | deployments/mock/mock_log_generator.py:243-281 | A template exists iff the name is an e2e pattern (test mode) or a catalog pattern (otherwise) |
| MockGenerator.PatternMessage | deployments/mock/mock_log_generator.py:239-283 | Every pattern message contains the keyword |
| MockGenerator.TestModeFallback | deployments/mock/mock_log_generator.py:283 | In test mode the seven non-e2e patterns get "Service log: " + keyword |
| MockGenerator.WithMessage | deployments/mock/mock_log_generator.py:283-292 | Setting the message attaches a raw record with exactly the outer timestamp, level, message and service, and nothing else changes |
| Patterns.Keyword | deployments/mock/mock_log_generator.py:239 | The keyword is one of the pattern's (the forwarder draws it the same way) |
| MockGenerator.GeneratePatternLog | deployments/mock/mock_log_generator.py:210-294 | Uses the selected level and service on a base log; raw agrees with the outer fields; the message contains the keyword |
| MockGenerator.ContinuousModeFollowsPattern | deployments/mock/mock_log_generator.py:212-218 | Outside test mode the service is the pattern's and the level its condition's, or one of the four |
| MockGenerator.TestModeServiceOutsidePattern | deployments/mock/mock_log_generator.py:221-234 | In test mode high_warn_rate is written by "user-service", which is not among its services |
| MockGenerator.TestModeLevelAgainstCondition | deployments/mock/mock_log_generator.py:221-234 | In test mode database_errors is written at FATAL although its condition asks for ERROR |
| MockGenerator.GenerateNormalLog | deployments/mock/mock_log_generator.py:296-326 | A listed service at INFO or DEBUG with a routine message; raw agrees with the outer fields |
| MockGenerator.BurstSize | deployments/mock/mock_log_generator.py:340-348 | An explicit count as given; else 2 in test mode, and threshold + 1 to threshold + 3 otherwise |
| MockGenerator.GeneratePatternBurst | deployments/mock/mock_log_generator.py:336-355 | KeyError exactly for a name outside the catalog; otherwise max(size, 0) pattern logs of that pattern |
| MockGenerator.BurstLogs | deployments/mock/mock_log_generator.py:352-355 | A burst has exactly n records |
| MockGenerator.BurstLogsCarryKeywords | deployments/mock/mock_log_generator.py:352-355 | Record i of a burst is the pattern log for draw i: it carries one of the pattern's keywords and a raw copy of itself |
| MockGenerator.TestModeBurstsArePairs | deployments/mock/mock_log_generator.py:340-344 | In test mode every catalog pattern bursts as two records |
| MockGenerator.KeepKnown | deployments/mock/mock_log_generator.py:409 | Keeps exactly the listed names found in the catalog |
| MockGenerator.TestAllOrder | deployments/mock/mock_log_generator.py:387-421 | The twelve e2e names first in list order, then the other seven; every catalog pattern exactly once |
| MockGenerator.DistinctConcat | deployments/mock/mock_log_generator.py:387-421 | Two disjoint duplicate-free lists concatenate without duplicates |
| MockGenerator.E2eAllKnown | deployments/mock/mock_log_generator.py:392-412 | Every e2e name is in the catalog, so none is skipped |
| MockGenerator.KeepAll | deployments/mock/mock_log_generator.py:409 | A list of catalog names is kept whole |
| MockGenerator.E2eDistinct | deployments/mock/mock_log_generator.py:392-405 | The e2e list has no duplicates |
| MockGenerator.SameElementsSameLength | deployments/mock/mock_log_generator.py:415 | Two duplicate-free lists with the same elements have the same length |
| MockGenerator.DistinctCard | deployments/mock/mock_log_generator.py:415 | A duplicate-free list has as many elements as its set |
| MockForwarder.GenerateBaseLog | local_e2e/setup/mock_log_forwarder.py:157-183 | Namespace from production/staging/development shared by the top level and kubernetes.namespace; app label = container = service; no namespace_name, message or request fields yet |
| MockForwarder.GeneratePatternLog | local_e2e/setup/mock_log_forwarder.py:185-236 | Service from the pattern's list and a message containing the drawn keyword |
| MockForwarder.PatternLogShape | local_e2e/setup/mock_log_forwarder.py:185-236 | A pattern log keeps the base record's shape: namespace, pod prefix, host prefix and the four labels |
| MockForwarder.PatternLogLevel | local_e2e/setup/mock_log_forwarder.py:189-193 | The level is the condition's level when it names one, otherwise one of the four drawn levels |
| MockForwarder.PatternLogExtras | local_e2e/setup/mock_log_forwarder.py:226-234 | namespace_name equals the namespace, and request, user and session IDs are present |
| MockForwarder.NoFallbackForCatalog | local_e2e/setup/mock_log_forwarder.py:201-224 | Every catalog pattern has its own template |
| MockForwarder.GenerateNormalLog | local_e2e/setup/mock_log_forwarder.py:238-260 | A listed service at INFO or DEBUG with a routine message and a request ID, and no namespace_name |
| MockForwarder.SendLog | local_e2e/setup/mock_log_forwarder.py:262-285 | Topic as configured, key service + "-" + original level, message the record's JSON, level lower-cased letter by letter, constant stream, tag and source type |
| MockForwarder.DecodedRecord | local_e2e/setup/mock_log_forwarder.py:271 | The consumer's decoder sees the record's level, service, timestamp and message as strings |
| MockForwarder.LowerLevelNotOverridable | local_e2e/setup/mock_log_forwarder.py:273 | A lower-cased level is never one the consumer lets a nested level replace |
| MockForwarder.ConsumedForwardedLog | local_e2e/setup/mock_log_forwarder.py:262-285 | The consumer accepts a forwarded record, keeps the lower-cased level, lifts service and message, and parses a non-empty timestamp |
| MockForwarder.ForwardedLogsMissUpperCaseLevels | local_e2e/setup/mock_log_forwarder.py:273 | No forwarded record matches an engine rule whose log level contains an upper-case letter |
| MockForwarder.GeneratePatternBurst | local_e2e/setup/mock_log_forwarder.py:287-295 | KeyError exactly for an unknown name; otherwise exactly max(count, 0) pattern logs |
| MockForwarder.BurstLogs | local_e2e/setup/mock_log_forwarder.py:292-295 | A burst has exactly n records |
| MockForwarder.BurstLogsFollowPattern | local_e2e/setup/mock_log_forwarder.py:292-295 | Record i of a burst is the pattern log for draw i: one of the pattern's services and keywords |
| MockForwarder.ContinuousBurstSize | local_e2e/setup/mock_log_forwarder.py:318-319 | threshold + 1 to threshold + 5 |
| MockForwarder.ContinuousBurstExceedsThreshold | local_e2e/setup/mock_log_forwarder.py:312-321 | A continuous-mode burst always exceeds its pattern's threshold |
| MockForwarder.TestAllPlan | local_e2e/setup/mock_log_forwarder.py:326-340 | Every pattern in catalog order, each with threshold + 2 records |
| MockForwarder.TestAllPlanCoversCatalog | local_e2e/setup/mock_log_forwarder.py:326-340 | Each catalog pattern exactly once, each burst at least three records |

## Left out

- HTTP, Kafka and Redis I/O: sending, TLS, gin routing and CORS, the reader, pipelines and transactions. Each is a parameter (`delivered`, `read`, `up`) or absent.
- Redis TTLs, `CleanupExpiredData`, `GetInfo`, `GetMetrics`, `Transaction`, `BulkSaveAlertRules` and `Search`. They are store administration with no decision logic.
- The blocking loops with timers and context cancellation: `Consumer.Start`, `ConsumerGroup.Start`, `LogProcessor.ProcessLogs`, and the `select` of both `ProcessBatch` methods. One pass of the default branch is modelled instead (`ProcessBatchStepConserves`, `BatchStepConserves`). `EvaluateBatch`'s poll of the context is modelled: `doneAfter` names the chunk after which the context is first seen done.
- Concurrency: goroutines, mutexes and the engine's `cleanupRoutine` ticker. `CleanupOldWindows` takes `now` instead.
- `text/template` rendering: `compileTemplates`, `buildSlackMessage`, `prepareTemplateData`, `renderTemplate` and `Engine.buildAlertMessage`. The rendered text is a parameter.
- JSON encoding and decoding, and RFC 3339 parsing. They are parameters. The generator's `raw` field is a structured record rather than its JSON text.
- Floating point: `updateErrorRate`, the processor's `HealthCheck` (error rate above 0.1), `TestRule`'s match rate, and notification success rates.
- Kafka.HealthCheck takes the reader's lag as an input rather than reading the reader's statistics.
- Wall-clock time, sleeps and randomness:
  - `now` is an integer parameter.
  - Each `random` call is an explicit draw.
  - The continuous schedule's pattern pick is `pick(k)`.
  - `time.sleep`, signal handlers, `argparse` and the `start()` dispatch are not modelled.
- The generators' `__init__` environment parsing, `setup_logging`, `output_log` (printing) and `connect_kafka`. The forwarder's producer is reduced to the record it is given (`SendLog`).
- Handlers `GetRules`, `GetRuleStats`, `GetLogStats`, `GetMetrics`, `TestRule`, `GetRuleTemplate`, `GetDefaultRules`, `ReloadRules` and `FilterRules`. Each only wraps a modelled operation in a 200 reply.
- Slack `SetEnabled`, `SetChannel`, `UpdateConfig`, `GetConfig`, `SendSimpleMessage`, `SendRichMessage`, `TestConnection` and `DefaultTemplateConfig`. They are setters, getters or HTTP calls.
- Engine `UpdateConfig`, `GetConfig`, `DefaultAlertEngineConfig` and `Stop`. They are plain field access.
- `recordAlertSent`'s map update is folded into the status write of `Engine.EvaluateRule`.
- `pkg/models/alert.go` is transcribed as datatypes only.
- `LogEntry` carries a `service` field although `pkg/models/log.go` declares none, because the consumer writes and reads `logEntry.Service` (internal/kafka/consumer.go:75 and 178); the model follows the consumer.
- Storage.IncrementCounter: the key's expiry (twice the window) is not modelled, because the store has no clock.
- Storage.GetAlertRules: Redis returns `KEYS` in no particular order. The model fixes insertion order and states only order-independent facts about the rules returned.
- Storage.GetRecentAlerts: the alerts kept under a limit are the first in the model's fixed key order; Redis would return the keys in any order, so which alerts survive the limit is not determined by the source.
- Storage.GetRecentAlertsClamped: the same fixed key order decides which alerts form the returned prefix.
- Evaluator.MatchesKeywords: case mapping is ASCII only, whereas Go's strings.ToUpper maps every Unicode letter. "café error" with keyword "CAFÉ" matches in Go but not in the model; the Kelvin sign (U+212A) is another letter Go maps and the model does not.
- Evaluator.EvaluateCondition: inherits the ASCII-only keyword comparison of MatchesKeywords.
- Engine.MatchesConditions: the keyword comparison is ASCII-only in the same way as MatchesKeywords.
- Rules.GenerateRuleID: strings.ToLower is ASCII-only here; Go lower-cases "É" to "é" (then dropped as a non-slug character either way) and the Kelvin sign to "k", which the model drops instead of keeping.
- MockForwarder.SendLog: Python's str.lower() is ASCII-only here; a level with a non-ASCII capital letter would be lower-cased by Python and kept by the model.
- Common.ToUpper: ASCII only, unlike Go's Unicode strings.ToUpper.
- Common.ToLower: ASCII only, unlike Go's strings.ToLower and Python's str.lower().
- Notifications.CreateAlertSummary: Go ranges over a map to build the severity fields, so their order is unspecified; the model fixes first-seen order. The time range is formatted in UTC, whereas Go formats each timestamp in its own location.
- Notifications.SeverityFields: the field order is the model's first-seen order, not Go's map order.
- Notifications.Clock: the clock is read in UTC; Go's Format uses the time's own location.
- Api.BulkCreateRules: the store's availability is fixed for the whole request, so a reload that fails after a successful save (which Engine.AddRule models) does not occur inside the bulk loop.
- Api.BulkAddOne: the same fixed availability; the save and the reload of one rule both see the store's state at the start.
- Kafka.RetryProcessing: the `case <-ctx.Done(): return ctx.Err()` branch of the wait between attempts is not modelled; the context is taken never to be done, so every scheduled wait runs out.
- Engine.EvaluateRule: one `now` stamps both the counter window and the alert ID. Go reads the clock twice: IncrementCounter calls time.Now() in redis.go, and engine.go:114 calls time.Now().Unix(). The two readings can fall in different seconds, or even in different windows.
- Engine.AddRule: createdAt and updatedAt are the same instant; Go reads the clock twice, so they can differ by nanoseconds.
- Engine.Sub: only the one-hour comparison is stated beyond the int64 range.
- Notifications.Title: only ASCII letters are title-cased, whereas Go's strings.Title also maps non-ASCII letters ('é' to 'É'); and every character from U+0080 up counts as a word character, whereas Go's isSeparator treats Unicode spaces such as U+00A0 and U+3000 as separators.
- Evaluator.EvaluateLogs: only well-formedness is stated on its own. Its meaning is carried by `EvaluateLogsAppend` and `BatchingIsTransparent`.
- MockGenerator.TestAllOrder: Python's iteration order over a set is unspecified, so the last seven names are any enumeration of the remaining set.

## Findings

| source | as written | input that shows it | evidently intended | confidence | as-written member | corrected member |
|---|---|---|---|---|---|---|
| internal/storage/redis.go:260-287 and internal/api/handlers.go:229-249 | the limit is used in `alerts[:limit]` behind the guard `len(alerts) > limit`, which any negative limit passes, and the handler passes any parsed integer | `GET /alerts/recent?limit=-1` on a reachable store | a negative limit returns no alerts (or is rejected) instead of panicking | not executed | Storage.GetRecentAlerts, Storage.NegativeLimitFailsOnEmptyStore, Api.GetRecentAlerts, Api.NegativeLimitPanics | Storage.GetRecentAlertsClamped, Storage.ClampedAgreesOnNonNegative, Api.GetRecentAlertsClamped, Api.ClampedHandlerAgrees |
| internal/notifications/slack.go:247-255 and 396-404 | the emoji literals are the UTF-8 bytes of the intended emoji re-read as Windows-1252 text (for example "âšª" for a white circle) | `getSeverityEmoji("unknown")` with an empty table | the notifier's emoji agree with the package-level table in interfaces.go | not executed | Notifications.NotifierSeverityEmojiAsWritten, Notifications.SlackEmojisAreMisdecoded, Notifications.NotifierFallbackDisagreesWithGlobal | Notifications.NotifierSeverityEmoji, Notifications.DefaultSeverityEmojis, Notifications.NotifierEmojiAgreesWithGlobal |

=== FILE: api.dfy ===
/** The decision logic of the HTTP handlers (internal/api/handlers.go): each
    handler maps its request and the engine's or store's outcome to a status
    code and an APIResponse. The handlers' store is the engine's store.
    Request bodies arrive already bound: `Err(msg)` stands for a body that
    ShouldBindJSON rejected with message `msg`. */
module Api {
  import opened Common
  import opened Models
  import Rules
  import Storage
  import Engine

  const StatusOK := 200
  const StatusCreated := 201
  const StatusPartialContent := 206
  const StatusBadRequest := 400
  const StatusNotFound := 404
  const StatusInternalServerError := 500
  const StatusServiceUnavailable := 503

  /** The `Data` field, by the shape each handler puts there. */
  datatype ResponseData =
    | NoData
    | HealthData(status: string, timestamp: Time)
    | RuleData(rule: AlertRule)
    | AlertsData(alerts: seq<Alert>)
    | BulkData(created: seq<AlertRule>, errors: seq<string>)

  datatype APIResponse = APIResponse(success: bool, message: string, data: ResponseData, error: string)

  datatype Reply = Reply(status: int, body: APIResponse)

  /** A reply and the engine as the handler leaves it. */
  datatype Handled = Handled(reply: Reply, engine: Engine.EngineState)

  /** A failed request: no data, the error text. */
  function Failure(status: int, error: string): Reply
  {
    Reply(status, APIResponse(false, "", NoData, error))
  }

  /** A successful request: the message and the data, no error text. */
  function Success(status: int, message: string, data: ResponseData): Reply
  {
    Reply(status, APIResponse(true, message, data, ""))
  }

  // ---------------------------------------------------------------------
  // Health
  // ---------------------------------------------------------------------

  /** Health: 503 when the store cannot be reached, otherwise 200 with the
      store's verdict. */
  function Health(store: Storage.Store, now: Time): (r: Reply)
    ensures r.status == StatusServiceUnavailable <==> !store.up
    ensures r.status == StatusServiceUnavailable ==> !r.body.success && r.body.error != ""
    ensures r.status != StatusServiceUnavailable ==>
      && r.status == StatusOK && r.body.success
      && r.body.data.HealthData? && r.body.data.timestamp == now
      && r.body.data.status in {"healthy", "unhealthy"}
  {
    match Storage.GetHealthStatus(store)
    case Err(err) => Failure(StatusServiceUnavailable, Storage.StoreErrorMessage(err))
    case Ok(healthy) =>
      Success(StatusOK, "", HealthData(if healthy then "healthy" else "unhealthy", now))
  }

  /** A store that answers is always reported healthy: PING either fails or
      says yes, so "unhealthy" is never sent. */
  lemma ReachableStoreIsHealthy(store: Storage.Store, now: Time)
    requires store.up
    ensures Health(store, now) == Success(StatusOK, "", HealthData("healthy", now))
  {
  }

  // ---------------------------------------------------------------------
  // Single-rule handlers
  // ---------------------------------------------------------------------

  /** GetRule: every engine error, whatever its cause, is answered 404. */
  function GetRule(e: Engine.EngineState, id: string): (r: Reply)
    ensures r.status == StatusOK <==> Storage.GetAlertRule(e.store, id).Ok?
    ensures r.status != StatusOK ==> r.status == StatusNotFound && !r.body.success
    ensures r.status == StatusOK ==> r.body.success && r.body.data == RuleData(Storage.GetAlertRule(e.store, id).value)
  {
    match Engine.GetRule(e, id)
    case Err(err) => Failure(StatusNotFound, Storage.StoreErrorMessage(err))
    case Ok(rule) => Success(StatusOK, "", RuleData(rule))
  }

  /** The ID a created rule is stored under: the given one, or a slug of the
      name when it is empty. */
  function AssignId(rule: AlertRule): (r: AlertRule)
    ensures r.(id := rule.id) == rule
    ensures rule.id != "" ==> r == rule
  {
    if rule.id == "" then rule.(id := Rules.GenerateRuleID(rule.name)) else rule
  }

  /** CreateRule: 400 for an unreadable or invalid body, 500 when the engine
      reports an error, 201 with the rule as sent otherwise. Validation
      already rejects an empty ID, so the rule is always stored under the ID
      given. `reloadUp` says whether the store still answers when the engine
      reloads after saving: when it does not, the rule is saved although the
      reply is 500. */
  function CreateRule(e: Engine.EngineState, body: Result<AlertRule, string>, now: Time, reloadUp: bool): (h: Handled)
    requires e.store.Valid()
    ensures h.reply.status in {StatusCreated, StatusBadRequest, StatusInternalServerError}
    ensures body.Err? ==> h == Handled(Failure(StatusBadRequest, "Invalid JSON: " + body.error), e)
    ensures body.Ok? && !Rules.IsValidRule(body.value) ==>
      h == Handled(Failure(StatusBadRequest,
                           "Validation failed: " + Rules.ErrorMessage(Rules.ValidateRule(body.value).value)), e)
    ensures body.Ok? && Rules.IsValidRule(body.value) && !e.store.up ==>
      h.reply.status == StatusInternalServerError && h.engine == e
    ensures h.reply.status == StatusCreated <==> body.Ok? && Rules.IsValidRule(body.value) && e.store.up && reloadUp
    ensures body.Ok? && Rules.IsValidRule(body.value) && e.store.up ==>
      h.engine.store.data == e.store.data[Storage.RuleKey(body.value.id) := Storage.RuleValue(body.value.(createdAt := now, updatedAt := now))]
    ensures h.reply.status == StatusCreated ==>
      && h.reply.body.data == RuleData(body.value)
      && h.engine.store.Valid() && h.engine.store.up
      && Storage.GetAlertRule(h.engine.store, body.value.id) == Ok(body.value.(createdAt := now, updatedAt := now))
  {
    match body
    case Err(msg) => Handled(Failure(StatusBadRequest, "Invalid JSON: " + msg), e)
    case Ok(given) =>
      match Rules.ValidateRule(given)
      case Some(err) => Handled(Failure(StatusBadRequest, "Validation failed: " + Rules.ErrorMessage(err)), e)
      case None =>
        var rule := AssignId(given);
        var change := Engine.AddRule(e, rule, now, reloadUp);
        match change.error
        case Some(err) => Handled(Failure(StatusInternalServerError, "Failed to create rule: " + Storage.StoreErrorMessage(err)), change.engine)
        case None => Handled(Success(StatusCreated, "Rule created successfully", RuleData(rule)), change.engine)
  }

  /** UpdateRule: the ID in the path replaces the body's before validation;
      400 / 500 / 200 as for creation, and as there a failed reload answers
      500 after the rule was saved. */
  function UpdateRule(e: Engine.EngineState, id: string, body: Result<AlertRule, string>, now: Time, reloadUp: bool): (h: Handled)
    requires e.store.Valid()
    ensures h.reply.status in {StatusOK, StatusBadRequest, StatusInternalServerError}
    ensures body.Err? ==> h == Handled(Failure(StatusBadRequest, "Invalid JSON: " + body.error), e)
    ensures h.reply.status == StatusOK <==>
      body.Ok? && Rules.IsValidRule(body.value.(id := id)) && e.store.up && reloadUp
    ensures h.reply.status != StatusOK ==> !h.reply.body.success
    ensures !(body.Ok? && Rules.IsValidRule(body.value.(id := id)) && e.store.up) ==> h.engine == e
    ensures body.Ok? && Rules.IsValidRule(body.value.(id := id)) && e.store.up ==>
      h.engine.store.data == e.store.data[Storage.RuleKey(id) := Storage.RuleValue(body.value.(id := id, updatedAt := now))]
    ensures h.reply.status == StatusOK ==>
      && h.reply.body.data == RuleData(body.value.(id := id))
      && h.engine.store.Valid()
      && Storage.GetAlertRule(h.engine.store, id) == Ok(body.value.(id := id, updatedAt := now))
  {
    match body
    case Err(msg) => Handled(Failure(StatusBadRequest, "Invalid JSON: " + msg), e)
    case Ok(given) =>
      var rule := given.(id := id);
      match Rules.ValidateRule(rule)
      case Some(err) => Handled(Failure(StatusBadRequest, "Validation failed: " + Rules.ErrorMessage(err)), e)
      case None =>
        var change := Engine.UpdateRule(e, rule, now, reloadUp);
        match change.error
        case Some(err) => Handled(Failure(StatusInternalServerError, "Failed to update rule: " + Storage.StoreErrorMessage(err)), change.engine)
        case None => Handled(Success(StatusOK, "Rule updated successfully", RuleData(rule)), change.engine)
  }

  /** Whatever ID the body carries is ignored. */
  lemma UpdateIgnoresBodyId(e: Engine.EngineState, id: string, rule: AlertRule, other: string, now: Time, reloadUp: bool)
    requires e.store.Valid()
    ensures UpdateRule(e, id, Ok(rule), now, reloadUp) == UpdateRule(e, id, Ok(rule.(id := other)), now, reloadUp)
  {
    assert rule.(id := id) == rule.(id := other).(id := id);
  }

  /** DeleteRule: any engine error, including an unreachable store, is 404.
      A delete whose reload fails is answered 404 too, although the rule is
      gone from the store. */
  function DeleteRule(e: Engine.EngineState, id: string, reloadUp: bool): (h: Handled)
    requires e.store.Valid()
    ensures h.reply.status in {StatusOK, StatusNotFound}
    ensures h.reply.status == StatusOK <==> e.store.up && Storage.RuleKey(id) in e.store.data && reloadUp
    ensures h.reply.status == StatusNotFound ==> !h.reply.body.success
    ensures !(e.store.up && Storage.RuleKey(id) in e.store.data) ==> h.engine == e
    ensures e.store.up && Storage.RuleKey(id) in e.store.data ==>
      h.engine.store.data == e.store.data - {Storage.RuleKey(id)}
    ensures h.reply.status == StatusOK ==>
      && h.reply.body.success && h.reply.body.message == "Rule deleted successfully"
      && h.engine.store.Valid()
      && Storage.GetAlertRule(h.engine.store, id) == Err(Storage.NotFound("alert rule", id))
  {
    var change := Engine.DeleteRule(e, id, reloadUp);
    match change.error
    case Some(err) => Handled(Failure(StatusNotFound, Storage.StoreErrorMessage(err)), change.engine)
    case None => Handled(Success(StatusOK, "Rule deleted successfully", NoData), change.engine)
  }

  /** An outage is reported as a missing rule. */
  lemma DeleteDuringOutageIsNotFound(e: Engine.EngineState, id: string, reloadUp: bool)
    requires e.store.Valid() && !e.store.up
    ensures DeleteRule(e, id, reloadUp).reply.status == StatusNotFound
    ensures DeleteRule(e, id, reloadUp).reply.body.error == Storage.StoreErrorMessage(Storage.Unavailable("delete alert rule"))
  {
  }

  // ---------------------------------------------------------------------
  // Recent alerts
  // ---------------------------------------------------------------------

  const DefaultAlertLimit := 50

  /** The `limit` query parameter: absent means "50", and anything Atoi
      rejects also means 50. */
  function ParseLimit(param: Option<string>): (limit: int)
    ensures param.None? ==> limit == DefaultAlertLimit
    ensures param.Some? && Atoi(param.value).None? ==> limit == DefaultAlertLimit
    ensures param.Some? && Atoi(param.value).Some? ==> limit == Atoi(param.value).value
    ensures MinInt64 <= limit <= MaxInt64
  {
    var text := if param.Some? then param.value else "50";
    DefaultLimitText();
    match Atoi(text)
    case Some(n) => n
    case None => DefaultAlertLimit
  }

  /** The handler's default query text "50" parses to the default limit, so
      an absent limit and "?limit=50" are served alike. */
  lemma DefaultLimitText()
    ensures Atoi("50") == Some(DefaultAlertLimit)
  {
    assert NatToString(50) == NatToString(5) + [DigitChar(0)];
    assert IntToString(50) == "50";
    AtoiIntToString(50);
  }

  /** Every int64 limit written in decimal is read back as itself. */
  lemma ParseLimitRoundTrip(n: int)
    requires MinInt64 <= n <= MaxInt64
    ensures ParseLimit(Some(IntToString(n))) == n
  {
    AtoiIntToString(n);
  }

  /** A handler either replies or panics out of the request. */
  datatype Served = Served(reply: Reply) | Panicked

  /** GetRecentAlerts over the store as written: a store error is 500, and a
      negative limit reaches the store's slice expression and panics. */
  function GetRecentAlerts(store: Storage.Store, param: Option<string>): (r: Served)
    requires store.Valid()
    ensures r.Panicked? <==> store.up && ParseLimit(param) < 0
    ensures r.Served? && !store.up ==> r.reply.status == StatusInternalServerError
    ensures r.Served? && store.up ==>
      && r.reply.status == StatusOK
      && r.reply.body.data == AlertsData(Storage.GetRecentAlerts(store, ParseLimit(param)).value)
  {
    match Storage.GetRecentAlerts(store, ParseLimit(param))
    case Err(failure) =>
      if failure.SliceOutOfRange? then Panicked
      else Served(Failure(StatusInternalServerError, Storage.StoreErrorMessage(failure.error)))
    case Ok(alerts) => Served(Success(StatusOK, "", AlertsData(alerts)))
  }

  /** `?limit=-1` brings the request down, on any reachable store. */
  lemma NegativeLimitPanics(store: Storage.Store)
    requires store.Valid() && store.up
    ensures GetRecentAlerts(store, Some("-1")) == Panicked
  {
    assert Atoi("-1") == Some(-1) by {
      assert "-1"[1..] == "1";
      assert DigitsValue("1") == 1 by { assert "1"[..0] == ""; }
    }
  }

  /** The same handler over the store with the limit clamped at zero. */
  function GetRecentAlertsClamped(store: Storage.Store, param: Option<string>): (r: Reply)
    requires store.Valid()
    ensures r.status == StatusOK <==> store.up
    ensures r.status != StatusOK ==> r.status == StatusInternalServerError
    ensures r.status == StatusOK ==>
      && r.body.data.AlertsData?
      && |r.body.data.alerts| <= (if ParseLimit(param) < 0 then 0 else ParseLimit(param))
  {
    match Storage.GetRecentAlertsClamped(store, ParseLimit(param))
    case Err(err) => Failure(StatusInternalServerError, Storage.StoreErrorMessage(err))
    case Ok(alerts) => Success(StatusOK, "", AlertsData(alerts))
  }

  /** Where the handler as written answers, the clamped one answers the same. */
  lemma ClampedHandlerAgrees(store: Storage.Store, param: Option<string>)
    requires store.Valid() && GetRecentAlerts(store, param).Served?
    ensures GetRecentAlerts(store, param).reply == GetRecentAlertsClamped(store, param)
  {
    if store.up {
      Storage.ClampedAgreesOnNonNegative(store, ParseLimit(param));
    }
  }

  // ---------------------------------------------------------------------
  // Bulk creation
  // ---------------------------------------------------------------------

  /** The valid rules of a request, in order: what a reachable store ends up creating. */
  function ValidRules(rules: seq<AlertRule>): (vs: seq<AlertRule>)
    ensures |vs| <= |rules|
    ensures forall i :: 0 <= i < |vs| ==> Rules.IsValidRule(vs[i]) && vs[i] in rules
    ensures forall i :: 0 <= i < |rules| && Rules.IsValidRule(rules[i]) ==> rules[i] in vs
  {
    if |rules| == 0 then []
    else
      var rest := ValidRules(rules[1..]);
      if Rules.IsValidRule(rules[0]) then [rules[0]] + rest else rest
  }

  datatype BulkState = BulkState(engine: Engine.EngineState, created: seq<AlertRule>, errors: seq<string>)

  function RuleFailure(id: string, message: string): string
  {
    "Rule " + id + ": " + message
  }

  /** One pass of the BulkCreateRules loop: a rule is validated and added on
      its own, and a failure is recorded without stopping the loop. */
  function BulkAddOne(s: BulkState, rule: AlertRule, now: Time): (r: BulkState)
    requires s.engine.store.Valid()
    ensures r.engine.store.Valid() && r.engine.store.up == s.engine.store.up
    ensures s.engine.store.up && Rules.IsValidRule(rule) ==> r.created == s.created + [rule] && r.errors == s.errors
    ensures !(s.engine.store.up && Rules.IsValidRule(rule)) ==>
      r.created == s.created && r.engine == s.engine && |r.errors| == |s.errors| + 1 && r.errors[..|s.errors|] == s.errors
  {
    match Rules.ValidateRule(rule)
    case Some(err) => s.(errors := s.errors + [RuleFailure(rule.id, Rules.ErrorMessage(err))])
    case None =>
      var rule := AssignId(rule);
      var change := Engine.AddRule(s.engine, rule, now, s.engine.store.up);
      match change.error
      case Some(err) => s.(errors := s.errors + [RuleFailure(rule.id, Storage.StoreErrorMessage(err))])
      case None => s.(engine := change.engine, created := s.created + [rule])
  }

  /** The loop of BulkCreateRules over the whole request. */
  function BulkAdd(s: BulkState, rules: seq<AlertRule>, now: Time): (r: BulkState)
    requires s.engine.store.Valid()
    ensures r.engine.store.Valid() && r.engine.store.up == s.engine.store.up
    ensures s.engine.store.up ==> r.created == s.created + ValidRules(rules)
    ensures !s.engine.store.up ==> r.created == s.created && r.engine == s.engine
    decreases |rules|
  {
    if |rules| == 0 then s
    else
      var next := BulkAddOne(s, rules[0], now);
      var r := BulkAdd(next, rules[1..], now);
      var valid := Rules.IsValidRule(rules[0]);
      assert ValidRules(rules) == if valid then [rules[0]] + ValidRules(rules[1..]) else ValidRules(rules[1..]);
      AppendAssoc(s.created, [rules[0]], ValidRules(rules[1..]));
      r
  }

  /** Every rule of the request ends up either created or reported. */
  lemma {:induction false} BulkAddAccountsForEveryRule(s: BulkState, rules: seq<AlertRule>, now: Time)
    requires s.engine.store.Valid()
    ensures var r := BulkAdd(s, rules, now);
      |r.created| + |r.errors| == |s.created| + |s.errors| + |rules|
    decreases |rules|
  {
    if |rules| > 0 {
      BulkAddAccountsForEveryRule(BulkAddOne(s, rules[0], now), rules[1..], now);
    }
  }

  /** The errors already recorded stay in front of the new ones. */
  lemma {:induction false} BulkAddKeepsEarlierErrors(s: BulkState, rules: seq<AlertRule>, now: Time)
    requires s.engine.store.Valid()
    ensures s.errors <= BulkAdd(s, rules, now).errors
    decreases |rules|
  {
    if |rules| > 0 {
      var next := BulkAddOne(s, rules[0], now);
      BulkAddKeepsEarlierErrors(next, rules[1..], now);
      assert s.errors <= next.errors;
    }
  }

  lemma AppendAssoc<T>(a: seq<T>, b: seq<T>, c: seq<T>)
    ensures a + b + c == a + (b + c)
  {
  }

  /** BulkCreateRules: 400 for an unreadable body; otherwise 201 when every
      rule was created and 206 when any failed, with Success meaning "at least
      one was created". */
  function BulkCreateRules(e: Engine.EngineState, body: Result<seq<AlertRule>, string>, now: Time): (h: Handled)
    requires e.store.Valid()
    ensures body.Err? ==> h == Handled(Failure(StatusBadRequest, "Invalid JSON: " + body.error), e)
    ensures body.Ok? ==>
      && h.reply.body.data.BulkData?
      && var created := h.reply.body.data.created;
         var errors := h.reply.body.data.errors;
         && |created| + |errors| == |body.value|
         && (h.reply.status == StatusCreated <==> errors == [])
         && (h.reply.status != StatusCreated ==> h.reply.status == StatusPartialContent)
         && (h.reply.body.success <==> created != [])
         && h.reply.body.message == "Created " + IntToString(|created|) + " rules, " + IntToString(|errors|) + " errors"
         && (e.store.up ==> created == ValidRules(body.value))
         && (!e.store.up ==> created == [] && h.engine == e)
  {
    match body
    case Err(msg) => Handled(Failure(StatusBadRequest, "Invalid JSON: " + msg), e)
    case Ok(rules) =>
      var r := BulkAdd(BulkState(e, [], []), rules, now);
      BulkAddAccountsForEveryRule(BulkState(e, [], []), rules, now);
      var status := if |r.errors| > 0 then StatusPartialContent else StatusCreated;
      var message := "Created " + IntToString(|r.created|) + " rules, " + IntToString(|r.errors|) + " errors";
      Handled(Reply(status, APIResponse(|r.created| > 0, message, BulkData(r.created, r.errors), "")), r.engine)
  }

  /** On a reachable store a request of valid rules is created in full. */
  lemma BulkOfValidRulesIsCreated(e: Engine.EngineState, rules: seq<AlertRule>, now: Time)
    requires e.store.Valid() && e.store.up
    requires forall i :: 0 <= i < |rules| ==> Rules.IsValidRule(rules[i])
    ensures BulkCreateRules(e, Ok(rules), now).reply.status == StatusCreated
  {
    AllValid(rules);
  }

  lemma {:induction false} AllValid(rules: seq<AlertRule>)
    requires forall i :: 0 <= i < |rules| ==> Rules.IsValidRule(rules[i])
    ensures ValidRules(rules) == rules
    decreases |rules|
  {
    if |rules| > 0 {
      AllValid(rules[1..]);
    }
  }
}

=== FILE: common.dfy ===
/** Shared vocabulary of the model: results, Go's 64-bit integers and the
    handful of `strings`/`strconv` operations the alert engine relies on.
    Case mapping is ASCII only: Go's strings.ToUpper/ToLower and Python's
    str.lower() also map non-ASCII letters ('É' to 'é', the Kelvin sign to
    'k'), which ToUpper/ToLower here leave unchanged. README lists each
    member that inherits this under "Left out". */
module Common {

  datatype Option<+T> = None | Some(value: T)

  datatype Result<+T, +E> = Ok(value: T) | Err(error: E)

  // ---------------------------------------------------------------------
  // Go's int / int64 / time.Duration
  // ---------------------------------------------------------------------

  const MinInt64: int := -0x8000_0000_0000_0000
  const MaxInt64: int := 0x7FFF_FFFF_FFFF_FFFF
  const TwoTo64: int := 0x1_0000_0000_0000_0000

  type Int64 = x: int | MinInt64 <= x <= MaxInt64

  /** Two's-complement wrap-around of a mathematical result into int64. */
  function Wrap64(x: int): (r: Int64)
    ensures MinInt64 <= x <= MaxInt64 ==> r == x
    ensures (x - r) % TwoTo64 == 0
  {
    (x - MinInt64) % TwoTo64 + MinInt64
  }

  /** Wrapping before or after an addition gives the same int64: a counter
      bumped one step at a time ends where one big addition would. */
  lemma Wrap64Add(x: int, k: int)
    ensures Wrap64(Wrap64(x) + k) == Wrap64(x + k)
  {
    var a := x + k - MinInt64;
    var q := (x - MinInt64) / TwoTo64;
    assert Wrap64(x) == x - q * TwoTo64;
    assert Wrap64(x) + k - MinInt64 == a - q * TwoTo64;
    DivUnique(a - q * TwoTo64, TwoTo64, a / TwoTo64 - q, a % TwoTo64);
  }

  /** Go's `/` on integers truncates toward zero (Dafny's is Euclidean). */
  function GoDiv(a: int, b: int): (q: int)
    requires b > 0
    ensures a >= 0 ==> q == a / b
    ensures a < 0 ==> q == -((-a) / b)
  {
    if a >= 0 then a / b else -((-a) / b)
  }

  lemma MulLt(a: int, b: int, d: int)
    requires a < b && d >= 0
    ensures a * d + d <= b * d
  {
    var k := b - a - 1;
    assert b * d == a * d + d + k * d;
  }

  /** Quotient and remainder are unique: a == q * d + r with 0 <= r < d fixes q. */
  lemma DivUnique(a: int, d: int, q: int, r: int)
    requires d > 0 && 0 <= r < d && a == q * d + r
    ensures a / d == q && a % d == r
  {
    var q' := a / d;
    var r' := a % d;
    assert a == q' * d + r';
    if q' > q {
      MulLt(q, q', d);
      assert false;
    } else if q' < q {
      MulLt(q', q, d);
      assert false;
    }
  }

  // Time is a count of nanoseconds since Go's zero time (January 1, year 1, UTC).
  type Time = int
  type Duration = int

  const Nanosecond: Duration := 1
  const Second: Duration := 1_000_000_000
  const Minute: Duration := 60 * Second
  const Hour: Duration := 60 * Minute

  /** Seconds between Go's zero time and the Unix epoch. */
  const UnixToInternal: int := 62135596800

  /** time.Time.Unix(): whole seconds since the Unix epoch, rounded down. */
  function UnixSeconds(t: Time): (r: int)
    ensures (r + UnixToInternal) * Second <= t < (r + UnixToInternal + 1) * Second
  {
    t / Second - UnixToInternal
  }

  // ---------------------------------------------------------------------
  // Sequences
  // ---------------------------------------------------------------------

  predicate HasPrefix<T(==)>(s: seq<T>, p: seq<T>)
  {
    |p| <= |s| && s[..|p|] == p
  }

  /** strings.Contains: `sub` occurs somewhere in `s` (the empty string occurs everywhere). */
  predicate Contains<T(==)>(s: seq<T>, sub: seq<T>)
    decreases |s|
  {
    HasPrefix(s, sub) || (|s| > 0 && Contains(s[1..], sub))
  }

  lemma {:induction false} ContainsMiddle<T>(a: seq<T>, k: seq<T>, b: seq<T>)
    ensures Contains(a + k + b, k)
    decreases |a|
  {
    if |a| == 0 {
      assert a + k + b == k + b;
      assert (k + b)[..|k|] == k;
    } else {
      assert (a + k + b)[1..] == a[1..] + k + b;
      ContainsMiddle(a[1..], k, b);
    }
  }

  // ---------------------------------------------------------------------
  // Characters and strings
  // ---------------------------------------------------------------------

  predicate IsLowerAscii(c: char) { 'a' <= c <= 'z' }
  predicate IsUpperAscii(c: char) { 'A' <= c <= 'Z' }
  predicate IsDigit(c: char) { '0' <= c <= '9' }

  function UpperChar(c: char): char
  {
    if IsLowerAscii(c) then (c as int - 32) as char else c
  }

  function LowerChar(c: char): char
  {
    if IsUpperAscii(c) then (c as int + 32) as char else c
  }

  /** strings.ToUpper, restricted to ASCII letters. */
  function ToUpper(s: string): (r: string)
    ensures |r| == |s|
    ensures forall i :: 0 <= i < |s| ==> r[i] == UpperChar(s[i])
  {
    seq(|s|, i requires 0 <= i < |s| => UpperChar(s[i]))
  }

  /** strings.ToLower, restricted to ASCII letters. */
  function ToLower(s: string): (r: string)
    ensures |r| == |s|
    ensures forall i :: 0 <= i < |s| ==> r[i] == LowerChar(s[i])
  {
    seq(|s|, i requires 0 <= i < |s| => LowerChar(s[i]))
  }

  /** unicode.IsSpace, as used by strings.TrimSpace. */
  predicate IsSpace(c: char)
  {
    || c == ' ' || c == '\t' || c == '\n' || c == '\r'
    || c == '\U{B}' || c == '\U{C}' || c == '\U{85}' || c == '\U{A0}'
    || c == '\U{1680}' || ('\U{2000}' <= c <= '\U{200A}')
    || c == '\U{2028}' || c == '\U{2029}' || c == '\U{202F}'
    || c == '\U{205F}' || c == '\U{3000}'
  }

  function TrimLeftSpace(s: string): (r: string)
    ensures |r| <= |s| && r == s[|s| - |r|..]
    ensures |r| > 0 ==> !IsSpace(r[0])
    ensures forall i :: 0 <= i < |s| - |r| ==> IsSpace(s[i])
    decreases |s|
  {
    if |s| > 0 && IsSpace(s[0]) then TrimLeftSpace(s[1..]) else s
  }

  function TrimRightSpace(s: string): (r: string)
    ensures |r| <= |s| && r == s[..|r|]
    ensures |r| > 0 ==> !IsSpace(r[|r| - 1])
    ensures forall i :: |r| <= i < |s| ==> IsSpace(s[i])
    decreases |s|
  {
    if |s| > 0 && IsSpace(s[|s| - 1]) then TrimRightSpace(s[..|s| - 1]) else s
  }

  /** strings.TrimSpace: `s` with leading and trailing white space removed. */
  function TrimSpace(s: string): (r: string)
    ensures var a := |s| - |TrimLeftSpace(s)|;
      && a + |r| <= |s| && r == s[a..a + |r|]
      && (forall i :: 0 <= i < a ==> IsSpace(s[i]))
      && (forall i :: a + |r| <= i < |s| ==> IsSpace(s[i]))
    ensures |r| > 0 ==> !IsSpace(r[0]) && !IsSpace(r[|r| - 1])
  {
    var l := TrimLeftSpace(s);
    var r := TrimRightSpace(l);
    assert r == s[|s| - |l|..|s| - |l| + |r|];
    r
  }

  /** Trimming only removes characters. */
  lemma TrimSpaceSubset(s: string, c: char)
    requires c !in s
    ensures c !in TrimSpace(s)
  {
    var r := TrimSpace(s);
    var a := |s| - |TrimLeftSpace(s)|;
    assert r == s[a..a + |r|];
    forall i | 0 <= i < |r|
      ensures r[i] != c
    {
      assert r[i] == s[a + i];
    }
  }

  /** strings.Join with a one-character separator. */
  function Join(parts: seq<string>, sep: char): string
  {
    if |parts| == 0 then ""
    else if |parts| == 1 then parts[0]
    else parts[0] + [sep] + Join(parts[1..], sep)
  }

  function CountChar(s: string, c: char): nat
  {
    if |s| == 0 then 0 else (if s[0] == c then 1 else 0) + CountChar(s[1..], c)
  }

  /** strings.Split with a one-character separator: never empty, the pieces
      hold no separator, there is one more piece than separators, and joining
      them back gives the input. */
  function Split(s: string, sep: char): (parts: seq<string>)
    ensures |parts| == CountChar(s, sep) + 1
    ensures forall i :: 0 <= i < |parts| ==> sep !in parts[i]
    ensures Join(parts, sep) == s
    decreases |s|
  {
    if |s| == 0 then [""]
    else
      var rest := Split(s[1..], sep);
      if s[0] == sep then
        assert s == [sep] + s[1..];
        [""] + rest
      else
        var parts := [[s[0]] + rest[0]] + rest[1..];
        assert parts[1..] == rest[1..];
        assert s == [s[0]] + s[1..];
        parts
  }

  // ---------------------------------------------------------------------
  // Decimal numbers (strconv.Itoa / strconv.Atoi)
  // ---------------------------------------------------------------------

  function DigitChar(d: nat): char
    requires d < 10
  {
    ('0' as int + d) as char
  }

  function DigitValue(c: char): nat
    requires IsDigit(c)
  {
    c as int - '0' as int
  }

  predicate AllDigits(s: string)
  {
    forall i :: 0 <= i < |s| ==> IsDigit(s[i])
  }

  function NatToString(n: nat): (r: string)
    ensures |r| > 0 && AllDigits(r)
    decreases n
  {
    if n < 10 then [DigitChar(n)] else NatToString(n / 10) + [DigitChar(n % 10)]
  }

  /** strconv.Itoa. */
  function IntToString(n: int): (r: string)
    ensures |r| > 0
    ensures n >= 0 ==> AllDigits(r)
    ensures n < 0 ==> |r| > 1 && r[0] == '-' && AllDigits(r[1..])
  {
    if n < 0 then "-" + NatToString(-n) else NatToString(n)
  }

  function DigitsValue(s: string): nat
    requires AllDigits(s)
  {
    if |s| == 0 then 0 else DigitsValue(s[..|s| - 1]) * 10 + DigitValue(s[|s| - 1])
  }

  /** strconv.Atoi: an optional sign and at least one decimal digit, in int64 range. */
  function Atoi(s: string): (r: Option<int>)
    ensures r.Some? ==> MinInt64 <= r.value <= MaxInt64
    ensures |s| == 0 ==> r.None?
  {
    if |s| == 0 then None
    else
      var body := if s[0] == '+' || s[0] == '-' then s[1..] else s;
      if |body| == 0 || !AllDigits(body) then None
      else
        var d: int := DigitsValue(body);
        var v: int := if s[0] == '-' then 0 - d else d;
        if MinInt64 <= v <= MaxInt64 then Some(v) else None
  }

  lemma {:induction false} NatToStringValue(n: nat)
    ensures DigitsValue(NatToString(n)) == n
    decreases n
  {
    if n >= 10 {
      var a := NatToString(n / 10);
      var s := a + [DigitChar(n % 10)];
      assert s[..|s| - 1] == a;
      NatToStringValue(n / 10);
    }
  }

  /** Atoi reads back exactly what Itoa writes, for every int64. */
  lemma AtoiIntToString(n: int)
    requires MinInt64 <= n <= MaxInt64
    ensures Atoi(IntToString(n)) == Some(n)
  {
    if n < 0 {
      var s := "-" + NatToString(-n);
      assert s[1..] == NatToString(-n);
      NatToStringValue(-n);
    } else {
      NatToStringValue(n);
    }
  }

  /** Two-digit zero-padded rendering used by clock formats. */
  function Pad2(n: nat): (r: string)
    requires n < 100
    ensures |r| == 2 && AllDigits(r)
  {
    [DigitChar(n / 10), DigitChar(n % 10)]
  }
}

=== FILE: engine.dfy ===
/** The alert engine (internal/alerting/engine.go): rule matching, the
    per-log evaluation step over the state store and the notifier, rule
    management with reload, and the cleanup of stale windows.

    The notifier is a parameter `deliver` that says whether SendAlert
    succeeded for an alert; message rendering is a parameter `render`
    standing for the text/template execution. */
module Engine {
  import opened Common
  import opened Models
  import Storage
  import Evaluator

  // ---------------------------------------------------------------------
  // Matching
  // ---------------------------------------------------------------------

  /** The engine's condition check: like the evaluator's, but the namespace
      is read through GetNamespace. */
  function MatchesConditions(le: LogEntry, c: AlertConditions): (b: bool)
    ensures b <==>
      && (c.logLevel == "" || le.level == c.logLevel)
      && (c.namespace == "" || GetNamespace(le) == c.namespace)
      && (c.service == "" || Evaluator.AppLabelIs(le, c.service))
      && (forall i :: 0 <= i < |c.keywords| ==> Contains(ToUpper(le.message), ToUpper(c.keywords[i])))
  {
    if c.logLevel != "" && le.level != c.logLevel then false
    else if c.namespace != "" && GetNamespace(le) != c.namespace then false
    else if c.service != "" && !("app" in le.kubernetes.labels && le.kubernetes.labels["app"] == c.service) then false
    else if |c.keywords| > 0 && !Evaluator.MatchesKeywords(le.message, c.keywords) then false
    else true
  }

  /** When neither namespace_name field is set, the engine and the evaluator
      accept the same entries. */
  lemma MatchesAgreeWithoutNamespaceName(le: LogEntry, c: AlertConditions)
    requires le.namespaceName == "" && le.kubernetes.namespaceName == ""
    ensures MatchesConditions(le, c) == Evaluator.EvaluateCondition(le, c).value
  {
  }

  /** They differ once namespace_name is set: an entry carrying only the
      top-level namespace_name matches the engine's namespace condition but
      not the evaluator's. */
  lemma MatchesDisagreeOnNamespaceName(le: LogEntry, c: AlertConditions)
    requires le == EmptyEntry.(namespaceName := "production")
    requires c == AlertConditions("", "production", "", [], 1, Minute, "gt")
    ensures MatchesConditions(le, c)
    ensures !Evaluator.EvaluateCondition(le, c).value
  {
  }

  /** shouldTriggerAlert has exactly the evaluator's operator semantics. */
  function ShouldTriggerAlert(rule: AlertRule, count: int): (b: bool)
    ensures b == Evaluator.CompareWithThreshold(count, rule.conditions.threshold, rule.conditions.operator)
  {
    var t := rule.conditions.threshold;
    match rule.conditions.operator
    case "gt" => count > t
    case "" => count > t
    case "gte" => count >= t
    case "lt" => count < t
    case "lte" => count <= t
    case "eq" => count == t
    case _ => count > t
  }

  /** The service shown in alert messages: the "app" label, else the
      "service" label, else "unknown". */
  function GetServiceName(le: LogEntry): (name: string)
    ensures "app" in le.kubernetes.labels ==> name == le.kubernetes.labels["app"]
    ensures "app" !in le.kubernetes.labels && "service" in le.kubernetes.labels ==> name == le.kubernetes.labels["service"]
    ensures name == "unknown" <==>
      ("app" !in le.kubernetes.labels && "service" !in le.kubernetes.labels)
      || ("app" in le.kubernetes.labels && le.kubernetes.labels["app"] == "unknown")
      || ("app" !in le.kubernetes.labels && "service" in le.kubernetes.labels && le.kubernetes.labels["service"] == "unknown")
  {
    if "app" in le.kubernetes.labels then le.kubernetes.labels["app"]
    else if "service" in le.kubernetes.labels then le.kubernetes.labels["service"]
    else "unknown"
  }

  // ---------------------------------------------------------------------
  // Evaluating one log
  // ---------------------------------------------------------------------

  /** The engine's state: the store it persists to and the rules last loaded. */
  datatype EngineState = EngineState(store: Storage.Store, rules: seq<AlertRule>)

  /** What one rule does with one log: the store afterwards and the alert
      handed to the notifier, if any. */
  datatype RuleOutcome = RuleOutcome(store: Storage.Store, notified: Option<Alert>)

  /** The alert raised for a rule, as the notifier receives it. */
  function PendingAlert(rule: AlertRule, le: LogEntry, count: int, now: Time, render: (AlertRule, LogEntry, int) -> string): (a: Alert)
    ensures a.ruleId == rule.id && a.ruleName == rule.name && a.logEntry == le && a.timestamp == le.timestamp
    ensures a.severity == rule.actions.severity && a.status == "pending" && a.count == count
    ensures a.message == render(rule, le, count)
    ensures HasPrefix(a.id, rule.id + "-")
    ensures MinInt64 <= UnixSeconds(now) <= MaxInt64 ==> Atoi(a.id[|rule.id| + 1..]) == Some(UnixSeconds(now))
  {
    var head := rule.id + "-";
    var id := head + IntToString(UnixSeconds(now));
    assert id[|head|..] == IntToString(UnixSeconds(now));
    var a := Alert(id, rule.id, rule.name, le, le.timestamp,
                   rule.actions.severity, "pending", render(rule, le, count), count);
    if MinInt64 <= UnixSeconds(now) <= MaxInt64 then AtoiIntToString(UnixSeconds(now)); a else a
  }

  /** The status the alert is saved with. */
  function DeliveryStatus(delivered: bool): (s: string)
    ensures s == "sent" <==> delivered
    ensures s == "failed" <==> !delivered
  {
    if delivered then "sent" else "failed"
  }

  /** Neither the alert nor the status key can collide with a counter key. */
  lemma CounterKeyApart(ruleId: string, window: Duration, now: Time, alertId: string, statusRule: string)
    ensures Storage.CounterKey(ruleId, window, now) != Storage.AlertKey(alertId)
    ensures Storage.CounterKey(ruleId, window, now) != Storage.StatusKey(statusRule)
  {
    assert Storage.CounterKey(ruleId, window, now)[0] == 'c';
    assert Storage.AlertKey(alertId)[0] == 'a';
    assert Storage.StatusKey(statusRule)[0] == 'a';
  }

  /** Alert and status keys never collide. */
  lemma AlertKeyApart(alertId: string, statusRule: string)
    ensures Storage.AlertKey(alertId) != Storage.StatusKey(statusRule)
  {
    Storage.KeyFamiliesDisjoint("", statusRule, alertId);
  }

  /** One iteration of EvaluateLog's loop. A disabled or unmatched rule, or a
      failed counter increment, leaves everything as it was. A met threshold
      hands a "pending" alert carrying the counter value to the notifier,
      saves it as "sent" or "failed" by the delivery outcome, and records the
      rule's status as "sent" either way. */
  function EvaluateRule(store: Storage.Store, rule: AlertRule, le: LogEntry, now: Time,
                        deliver: Alert -> bool, render: (AlertRule, LogEntry, int) -> string): (r: RuleOutcome)
    requires store.Valid()
    ensures r.store.Valid()
    ensures !rule.enabled || !MatchesConditions(le, rule.conditions) ==> r == RuleOutcome(store, None)
    ensures Storage.IncrementCounter(store, rule.id, rule.conditions.timeWindow, now).Err? ==> r == RuleOutcome(store, None)
    ensures var inc := Storage.IncrementCounter(store, rule.id, rule.conditions.timeWindow, now);
      rule.enabled && MatchesConditions(le, rule.conditions) && inc.Ok? ==>
        (r.notified.Some? <==> ShouldTriggerAlert(rule, inc.value.1))
        && (r.notified.None? ==> r.store == inc.value.0)
        && Storage.GetCounter(r.store, rule.id, rule.conditions.timeWindow, now) == Ok(inc.value.1)
    ensures r.notified.Some? ==> var a := r.notified.value;
      && a == PendingAlert(rule, le, a.count, now, render)
      && a.status == "pending"
      && Storage.AlertKey(a.id) in r.store.data
      && r.store.data[Storage.AlertKey(a.id)] == Storage.AlertValue(a.(status := DeliveryStatus(deliver(a))))
      && Storage.StatusKey(rule.id) in r.store.data
      && r.store.data[Storage.StatusKey(rule.id)] == Storage.StatusValue(AlertStatus(rule.id, le.timestamp, 0, "sent"))
  {
    if !rule.enabled || !MatchesConditions(le, rule.conditions) then RuleOutcome(store, None)
    else
      match Storage.IncrementCounter(store, rule.id, rule.conditions.timeWindow, now)
      case Err(_) => RuleOutcome(store, None)
      case Ok((counted, count)) =>
        if !ShouldTriggerAlert(rule, count) then RuleOutcome(counted, None)
        else
          var alert := PendingAlert(rule, le, count, now, render);
          var saved := alert.(status := DeliveryStatus(deliver(alert)));
          // Errors of SaveAlert and SetAlertStatus are only logged.
          var s1 := match Storage.SaveAlert(counted, saved)
                    case Ok(t) => t
                    case Err(_) => counted;
          var s2 := match Storage.SetAlertStatus(s1, rule.id, AlertStatus(rule.id, le.timestamp, 0, "sent"))
                    case Ok(t) => t
                    case Err(_) => s1;
          CounterKeyApart(rule.id, rule.conditions.timeWindow, now, alert.id, rule.id);
          AlertKeyApart(alert.id, rule.id);
          RuleOutcome(s2, Some(alert))
  }

  /** The result of EvaluateLog: the store afterwards and the alerts handed
      to the notifier, in rule order. */
  datatype LogOutcome = LogOutcome(store: Storage.Store, notified: seq<Alert>)

  /** The alert `a` is one that `rule` raises for `le`. */
  predicate RaisedBy(a: Alert, rule: AlertRule, le: LogEntry)
  {
    && rule.enabled && a.ruleId == rule.id && a.status == "pending" && a.logEntry == le
    && MatchesConditions(le, rule.conditions) && ShouldTriggerAlert(rule, a.count)
  }

  /** Some rule of `rules` raises `a` for `le`. */
  predicate RaisedByOneOf(a: Alert, rules: seq<AlertRule>, le: LogEntry)
  {
    exists j :: 0 <= j < |rules| && RaisedBy(a, rules[j], le)
  }

  lemma RaisedByAppend(head: seq<Alert>, rest: seq<Alert>, all: seq<Alert>, rules: seq<AlertRule>, le: LogEntry)
    requires |rules| > 0 && all == head + rest
    requires forall i :: 0 <= i < |head| ==> RaisedBy(head[i], rules[0], le)
    requires forall i :: 0 <= i < |rest| ==> RaisedByOneOf(rest[i], rules[1..], le)
    ensures forall i :: 0 <= i < |all| ==> RaisedByOneOf(all[i], rules, le)
  {
    forall i | 0 <= i < |all|
      ensures RaisedByOneOf(all[i], rules, le)
    {
      if i < |head| {
        assert all[i] == head[i];
        assert 0 <= 0 < |rules| && RaisedBy(all[i], rules[0], le);
      } else {
        assert all[i] == rest[i - |head|];
        var j :| 0 <= j < |rules[1..]| && RaisedBy(rest[i - |head|], rules[1..][j], le);
        assert rules[1..][j] == rules[j + 1];
        assert 0 <= j + 1 < |rules| && RaisedBy(all[i], rules[j + 1], le);
      }
    }
  }

  /** EvaluateLog over the rules in order: every alert handed to the notifier
      comes from an enabled, matching rule whose threshold its count meets. */
  function EvaluateRules(store: Storage.Store, rules: seq<AlertRule>, le: LogEntry, now: Time,
                         deliver: Alert -> bool, render: (AlertRule, LogEntry, int) -> string): (r: LogOutcome)
    requires store.Valid()
    ensures r.store.Valid()
    ensures |r.notified| <= |rules|
    ensures forall i :: 0 <= i < |r.notified| ==> RaisedByOneOf(r.notified[i], rules, le)
    decreases |rules|
  {
    if |rules| == 0 then LogOutcome(store, [])
    else
      var first := EvaluateRule(store, rules[0], le, now, deliver, render);
      var rest := EvaluateRules(first.store, rules[1..], le, now, deliver, render);
      var head := if first.notified.Some? then [first.notified.value] else [];
      assert forall i :: 0 <= i < |head| ==> RaisedBy(head[i], rules[0], le);
      var notified := head + rest.notified;
      RaisedByAppend(head, rest.notified, notified, rules, le);
      LogOutcome(rest.store, notified)
  }

  function EvaluateLog(e: EngineState, le: LogEntry, now: Time,
                       deliver: Alert -> bool, render: (AlertRule, LogEntry, int) -> string): (r: LogOutcome)
    requires e.store.Valid()
    ensures r.store.Valid()
  {
    EvaluateRules(e.store, e.rules, le, now, deliver, render)
  }

  /** Disabled rules are inert: with no enabled rule, the store is untouched
      and the notifier is never called. */
  lemma {:induction false} DisabledRulesAreInert(store: Storage.Store, rules: seq<AlertRule>, le: LogEntry, now: Time,
                                                 deliver: Alert -> bool, render: (AlertRule, LogEntry, int) -> string)
    requires store.Valid()
    requires forall i :: 0 <= i < |rules| ==> !rules[i].enabled
    ensures EvaluateRules(store, rules, le, now, deliver, render) == LogOutcome(store, [])
    decreases |rules|
  {
    if |rules| > 0 {
      DisabledRulesAreInert(store, rules[1..], le, now, deliver, render);
    }
  }

  /** When the store is unreachable every counter increment fails, so no
      alert is raised and nothing is written. */
  lemma {:induction false} UnavailableStoreRaisesNothing(store: Storage.Store, rules: seq<AlertRule>, le: LogEntry, now: Time,
                                                         deliver: Alert -> bool, render: (AlertRule, LogEntry, int) -> string)
    requires store.Valid() && !store.up
    ensures EvaluateRules(store, rules, le, now, deliver, render) == LogOutcome(store, [])
    decreases |rules|
  {
    if |rules| > 0 {
      UnavailableStoreRaisesNothing(store, rules[1..], le, now, deliver, render);
    }
  }

  // ---------------------------------------------------------------------
  // Rule management
  // ---------------------------------------------------------------------

  /** loadRules: on failure the previous rules stay. */
  function LoadRules(e: EngineState): (r: Result<EngineState, Storage.StoreError>)
    requires e.store.Valid()
    ensures r.Ok? <==> e.store.up
    ensures r.Ok? ==> r.value.store == e.store && Storage.GetAlertRules(e.store) == Ok(r.value.rules)
  {
    match Storage.GetAlertRules(e.store)
    case Ok(rules) => Ok(e.(rules := rules))
    case Err(err) => Err(err)
  }

  /** NewEngine: a failed initial load leaves the engine without rules. */
  function NewEngine(store: Storage.Store): (e: EngineState)
    requires store.Valid()
    ensures e.store == store
    ensures store.up ==> Storage.GetAlertRules(store) == Ok(e.rules)
    ensures !store.up ==> e.rules == []
  {
    match LoadRules(EngineState(store, []))
    case Ok(loaded) => loaded
    case Err(_) => EngineState(store, [])
  }

  /** What a rule change leaves: the engine, and the error Go returns,
      from the write or from the reload after it. A failed reload follows a
      write that did happen, so the store has changed while the loaded rules
      are the old ones. */
  datatype Change = Change(engine: EngineState, error: Option<Storage.StoreError>)

  /** The store as the reload after a write finds it: the same data, and
      reachable or not. The store can go away between two commands. */
  function AtReload(s: Storage.Store, reloadUp: bool): (t: Storage.Store)
    ensures t.data == s.data && t.order == s.order && t.up == reloadUp
  {
    s.(up := reloadUp)
  }

  /** The reload after a successful write: on failure the previous rules stay
      loaded next to the written store. */
  function Reload(e: EngineState, written: Storage.Store): (r: Change)
    requires written.Valid()
    ensures r.engine.store == written
    ensures r.error.None? <==> written.up
    ensures r.error.None? ==> Storage.GetAlertRules(written) == Ok(r.engine.rules)
    ensures r.error.Some? ==> r.engine.rules == e.rules && r.error == Some(Storage.Unavailable("get alert rule keys"))
  {
    match LoadRules(e.(store := written))
    case Ok(loaded) => Change(loaded, None)
    case Err(err) => Change(e.(store := written), Some(err))
  }

  /** AddRule stamps both timestamps with `now`, saves and reloads. A save
      error changes nothing. After a save the rule is in the store whatever
      the reload does; only a successful reload answers no error, with the
      rules read back from the store and the stamped rule among them. */
  function AddRule(e: EngineState, rule: AlertRule, now: Time, reloadUp: bool): (r: Change)
    requires e.store.Valid()
    ensures r.engine.store.Valid()
    ensures r.error.None? <==> e.store.up && reloadUp
    ensures !e.store.up ==> r == Change(e, Some(Storage.Unavailable("save alert rule")))
    ensures e.store.up ==> var stamped := rule.(createdAt := now, updatedAt := now);
      && r.engine.store.up == reloadUp
      && r.engine.store.data == e.store.data[Storage.RuleKey(rule.id) := Storage.RuleValue(stamped)]
    ensures e.store.up && !reloadUp ==> r.engine.rules == e.rules
    ensures r.error.None? ==> var stamped := rule.(createdAt := now, updatedAt := now);
      && Storage.GetAlertRules(r.engine.store) == Ok(r.engine.rules)
      && stamped in r.engine.rules
      && Storage.GetAlertRule(r.engine.store, rule.id) == Ok(stamped)
  {
    SaveAndReload(e, rule.(createdAt := now, updatedAt := now), reloadUp)
  }

  /** UpdateRule stamps only UpdatedAt; CreatedAt is whatever the caller sent. */
  function UpdateRule(e: EngineState, rule: AlertRule, now: Time, reloadUp: bool): (r: Change)
    requires e.store.Valid()
    ensures r.engine.store.Valid()
    ensures r.error.None? <==> e.store.up && reloadUp
    ensures !e.store.up ==> r == Change(e, Some(Storage.Unavailable("save alert rule")))
    ensures e.store.up ==> var stamped := rule.(updatedAt := now);
      && r.engine.store.up == reloadUp
      && r.engine.store.data == e.store.data[Storage.RuleKey(rule.id) := Storage.RuleValue(stamped)]
      && stamped.createdAt == rule.createdAt
    ensures e.store.up && !reloadUp ==> r.engine.rules == e.rules
    ensures r.error.None? ==> var stamped := rule.(updatedAt := now);
      && Storage.GetAlertRules(r.engine.store) == Ok(r.engine.rules)
      && stamped in r.engine.rules
      && Storage.GetAlertRule(r.engine.store, rule.id) == Ok(stamped)
  {
    SaveAndReload(e, rule.(updatedAt := now), reloadUp)
  }

  /** The shared save-then-reload step of AddRule and UpdateRule. */
  function SaveAndReload(e: EngineState, rule: AlertRule, reloadUp: bool): (r: Change)
    requires e.store.Valid()
    ensures r.engine.store.Valid()
    ensures r.error.None? <==> e.store.up && reloadUp
    ensures !e.store.up ==> r == Change(e, Some(Storage.Unavailable("save alert rule")))
    ensures e.store.up ==> (r.engine.store.up == reloadUp
      && r.engine.store.data == e.store.data[Storage.RuleKey(rule.id) := Storage.RuleValue(rule)])
    ensures e.store.up && !reloadUp ==> r.engine.rules == e.rules
    ensures r.error.None? ==> (Storage.GetAlertRules(r.engine.store) == Ok(r.engine.rules)
      && rule in r.engine.rules
      && Storage.GetAlertRule(r.engine.store, rule.id) == Ok(rule))
  {
    match Storage.SaveAlertRule(e.store, rule)
    case Err(err) => Change(e, Some(err))
    case Ok(saved) =>
      Storage.SaveThenGetRule(e.store, rule);
      Reload(e, AtReload(saved, reloadUp))
  }

  /** Rules the store held before a save are still loaded afterwards. */
  lemma AddRuleKeepsOthers(e: EngineState, rule: AlertRule, now: Time, other: string)
    requires e.store.Valid() && e.store.up
    requires other != rule.id
    requires Storage.RuleKey(other) in e.store.data && e.store.data[Storage.RuleKey(other)].RuleValue?
    ensures AddRule(e, rule, now, true).error.None?
    ensures e.store.data[Storage.RuleKey(other)].rule in AddRule(e, rule, now, true).engine.rules
  {
    Storage.SaveKeepsOtherRules(e.store, rule.(createdAt := now, updatedAt := now), other);
  }

  /** DeleteRule: deleting an absent rule is "not found" and changes
      nothing, and so does an unreachable store. After a delete the rule is
      gone from the store whatever the reload does; after a successful reload
      no loaded rule has that ID. */
  function DeleteRule(e: EngineState, ruleId: string, reloadUp: bool): (r: Change)
    requires e.store.Valid()
    ensures r.engine.store.Valid()
    ensures r.error.None? <==> e.store.up && Storage.RuleKey(ruleId) in e.store.data && reloadUp
    ensures r.error == Some(Storage.NotFound("alert rule", ruleId)) <==> e.store.up && Storage.RuleKey(ruleId) !in e.store.data
    ensures !(e.store.up && Storage.RuleKey(ruleId) in e.store.data) ==> r.engine == e && r.error.Some?
    ensures e.store.up && Storage.RuleKey(ruleId) in e.store.data ==>
      r.engine.store.up == reloadUp && r.engine.store.data == e.store.data - {Storage.RuleKey(ruleId)}
    ensures e.store.up && Storage.RuleKey(ruleId) in e.store.data && !reloadUp ==> r.engine.rules == e.rules
    ensures r.error.None? ==> (Storage.GetAlertRules(r.engine.store) == Ok(r.engine.rules)
      && Storage.GetAlertRule(r.engine.store, ruleId) == Err(Storage.NotFound("alert rule", ruleId)))
    ensures r.error.None? && Storage.RulesWellKeyed(e.store) ==>
      forall i :: 0 <= i < |r.engine.rules| ==> r.engine.rules[i].id != ruleId
  {
    match Storage.DeleteAlertRule(e.store, ruleId)
    case Err(err) => Change(e, Some(err))
    case Ok(deleted) =>
      var r := Reload(e, AtReload(deleted, reloadUp));
      if reloadUp then
        NoRuleAfterDelete(AtReload(deleted, reloadUp), r.engine.rules, ruleId);
        r
      else r
  }

  /** In a well-keyed store without the rule's key, no loaded rule has its ID. */
  lemma NoRuleAfterDelete(s: Storage.Store, rules: seq<AlertRule>, ruleId: string)
    requires s.Valid() && Storage.RuleKey(ruleId) !in s.data
    requires Storage.GetAlertRules(s) == Ok(rules)
    ensures Storage.RulesWellKeyed(s) ==> forall i :: 0 <= i < |rules| ==> rules[i].id != ruleId
  {
    forall i | 0 <= i < |rules| && Storage.RulesWellKeyed(s)
      ensures rules[i].id != ruleId
    {
      var k :| k in s.data && HasPrefix(k, Storage.RulePrefix) && s.data[k] == Storage.RuleValue(rules[i]);
      assert k == Storage.RuleKey(rules[i].id);
    }
  }

  /** GetRules answers the rules last loaded; GetRule asks the store. */
  function GetRule(e: EngineState, ruleId: string): (r: Result<AlertRule, Storage.StoreError>)
    ensures r.Ok? ==> r.value.id == ruleId || !Storage.RulesWellKeyed(e.store)
    ensures r.Ok? ==> Storage.RuleKey(ruleId) in e.store.data
    ensures r.Ok? <==> e.store.up && Storage.RuleKey(ruleId) in e.store.data && e.store.data[Storage.RuleKey(ruleId)].RuleValue?
    ensures r.Ok? ==> e.store.data[Storage.RuleKey(ruleId)] == Storage.RuleValue(r.value)
    ensures r == Err(Storage.NotFound("alert rule", ruleId)) <==> e.store.up && Storage.RuleKey(ruleId) !in e.store.data
  {
    var r := Storage.GetAlertRule(e.store, ruleId);
    if r.Ok? then
      WellKeyedRuleHasId(e.store, ruleId);
      r
    else r
  }

  lemma WellKeyedRuleHasId(s: Storage.Store, ruleId: string)
    requires Storage.GetAlertRule(s, ruleId).Ok?
    ensures Storage.RulesWellKeyed(s) ==> Storage.GetAlertRule(s, ruleId).value.id == ruleId
  {
    if Storage.RulesWellKeyed(s) {
      Storage.RuleKeyInjective(ruleId, Storage.GetAlertRule(s, ruleId).value.id);
    }
  }

  // ---------------------------------------------------------------------
  // Window cleanup
  // ---------------------------------------------------------------------

  /** An in-memory counting window of the engine. */
  datatype EngineWindow = EngineWindow(ruleId: string, startTime: Time, endTime: Time, count: Int64, events: seq<Time>)

  /** time.Time.Sub: the difference, saturated to the int64 Duration range. */
  function Sub(t: Time, u: Time): (d: Int64)
    ensures MinInt64 <= t - u <= MaxInt64 ==> d == t - u
    ensures d > Hour <==> t - u > Hour
  {
    if t - u > MaxInt64 then MaxInt64
    else if t - u < MinInt64 then MinInt64
    else t - u
  }

  /** cleanupOldWindows: drops exactly the windows that ended more than an
      hour before `now`; the rest are kept as they are. */
  function CleanupOldWindows(windows: map<string, EngineWindow>, now: Time): (r: map<string, EngineWindow>)
    ensures forall id :: id in r ==> id in windows && r[id] == windows[id]
    ensures forall id :: id in windows ==> (id in r <==> now - windows[id].endTime <= Hour)
  {
    map id | id in windows && Sub(now, windows[id].endTime) <= Hour :: windows[id]
  }

  /** A second cleanup at the same instant removes nothing more. */
  lemma CleanupIdempotent(windows: map<string, EngineWindow>, now: Time)
    ensures CleanupOldWindows(CleanupOldWindows(windows, now), now) == CleanupOldWindows(windows, now)
  {
  }

  /** Cleanup at a later instant removes at least as much. */
  lemma CleanupMonotone(windows: map<string, EngineWindow>, t1: Time, t2: Time)
    requires t1 <= t2
    ensures CleanupOldWindows(windows, t2).Keys <= CleanupOldWindows(windows, t1).Keys
  {
  }
}

=== FILE: evaluator.dfy ===
/** Rule evaluation outside the engine (internal/alerting/evaluator.go):
    condition matching, thresholds, rule dry-runs, the performance tracker and
    batched evaluation. The state store is the map of module Storage. */
module Evaluator {
  import opened Common
  import opened Models
  import Storage

  // ---------------------------------------------------------------------
  // Conditions
  // ---------------------------------------------------------------------

  /** Every keyword occurs in the message, ignoring case; no keywords always match. */
  function MatchesKeywords(message: string, keywords: seq<string>): (b: bool)
    ensures b <==> forall i :: 0 <= i < |keywords| ==> Contains(ToUpper(message), ToUpper(keywords[i]))
  {
    if |keywords| == 0 then true
    else Contains(ToUpper(message), ToUpper(keywords[0])) && MatchesKeywords(message, keywords[1..])
  }

  /** The service condition reads only the "app" label; a missing label never matches. */
  predicate AppLabelIs(le: LogEntry, service: string)
  {
    "app" in le.kubernetes.labels && le.kubernetes.labels["app"] == service
  }

  /** Reference definition: each non-empty field of the condition holds. The
      namespace compared is kubernetes.namespace. */
  predicate ConditionHolds(le: LogEntry, c: AlertConditions)
  {
    && (c.logLevel == "" || le.level == c.logLevel)
    && (c.namespace == "" || le.kubernetes.namespace == c.namespace)
    && (c.service == "" || AppLabelIs(le, c.service))
    && MatchesKeywords(le.message, c.keywords)
  }

  /** EvaluateCondition never fails; it answers whether the entry meets every
      non-empty field of the condition. */
  function EvaluateCondition(le: LogEntry, c: AlertConditions): (r: Result<bool, string>)
    ensures r.Ok?
    ensures r.value <==> ConditionHolds(le, c)
    ensures c.service != "" && "app" !in le.kubernetes.labels ==> !r.value
  {
    if c.logLevel != "" && le.level != c.logLevel then Ok(false)
    else if c.namespace != "" && le.kubernetes.namespace != c.namespace then Ok(false)
    else if c.service != "" && !("app" in le.kubernetes.labels && le.kubernetes.labels["app"] == c.service) then Ok(false)
    else if |c.keywords| > 0 && !MatchesKeywords(le.message, c.keywords) then Ok(false)
    else Ok(true)
  }

  /** A condition with every field empty matches every entry. */
  lemma EmptyConditionMatchesAll(le: LogEntry, threshold: Int64, window: Int64, op: string)
    ensures EvaluateCondition(le, AlertConditions("", "", "", [], threshold, window, op)) == Ok(true)
  {
  }

  /** Labels other than "app" never influence the service check. */
  lemma OnlyAppLabelMatters(le: LogEntry, c: AlertConditions, key: string, v: string)
    requires key != "app"
    ensures var le' := le.(kubernetes := le.kubernetes.(labels := le.kubernetes.labels[key := v]));
      EvaluateCondition(le', c) == EvaluateCondition(le, c)
  {
  }

  // ---------------------------------------------------------------------
  // Thresholds
  // ---------------------------------------------------------------------

  /** The comparison an operator names; "" and any unknown operator mean "gt". */
  function CompareWithThreshold(count: int, threshold: int, op: string): (b: bool)
    ensures op == "gte" ==> (b <==> count >= threshold)
    ensures op == "lt" ==> (b <==> count < threshold)
    ensures op == "lte" ==> (b <==> count <= threshold)
    ensures op == "eq" ==> (b <==> count == threshold)
    ensures op !in {"gte", "lt", "lte", "eq"} ==> (b <==> count > threshold)
  {
    match op
    case "gt" => count > threshold
    case "" => count > threshold
    case "gte" => count >= threshold
    case "lt" => count < threshold
    case "lte" => count <= threshold
    case "eq" => count == threshold
    case _ => count > threshold
  }

  datatype ThresholdResult = ThresholdResult(store: Storage.Store, met: bool, count: int)

  /** Bumps the rule's window counter and compares the new count. A failed
      increment is an error and leaves the store as it was. */
  function EvaluateThreshold(store: Storage.Store, ruleId: string, c: AlertConditions, now: Time): (r: Result<ThresholdResult, Storage.StoreError>)
    requires store.Valid()
    ensures r.Ok? <==> Storage.IncrementCounter(store, ruleId, c.timeWindow, now).Ok?
    ensures !store.up ==> r.Err?
    ensures r.Ok? ==> (r.value.store.Valid()
      && Storage.GetCounter(r.value.store, ruleId, c.timeWindow, now) == Ok(r.value.count)
      && (r.value.met <==> CompareWithThreshold(r.value.count, c.threshold, c.operator)))
    ensures r.Ok? && Storage.CounterKey(ruleId, c.timeWindow, now) !in store.data ==> r.value.count == 1
  {
    match Storage.IncrementCounter(store, ruleId, c.timeWindow, now)
    case Err(e) => Err(e)
    case Ok((t, n)) => Ok(ThresholdResult(t, CompareWithThreshold(n, c.threshold, c.operator), n))
  }

  // ---------------------------------------------------------------------
  // Dry runs
  // ---------------------------------------------------------------------

  datatype LogMatch = LogMatch(logEntry: LogEntry, matched: bool, timestamp: Time)

  /** The match rate (a float, NaN on no samples) is not modelled. */
  datatype TestSummary = TestSummary(totalLogs: int, matchedLogs: int, wouldTrigger: bool)

  datatype RuleTestResult = RuleTestResult(
    ruleId: string,
    ruleName: string,
    testTime: Time,
    matches: seq<LogMatch>,
    summary: TestSummary)

  /** Reference definition: the samples the condition accepts, in order. */
  function MatchingLogs(samples: seq<LogEntry>, c: AlertConditions): (ms: seq<LogEntry>)
    ensures |ms| <= |samples|
    ensures forall i :: 0 <= i < |ms| ==> ConditionHolds(ms[i], c) && ms[i] in samples
  {
    if |samples| == 0 then []
    else
      var init := MatchingLogs(samples[..|samples| - 1], c);
      var last := samples[|samples| - 1];
      if ConditionHolds(last, c) then init + [last] else init
  }

  function AsMatch(le: LogEntry): LogMatch { LogMatch(le, true, le.timestamp) }

  /** TestRule: one LogMatch per matching sample, in order; the trigger verdict
      compares the match count with the threshold by >=, whatever the rule's
      operator says. */
  method TestRule(rule: AlertRule, samples: seq<LogEntry>, now: Time) returns (r: RuleTestResult)
    ensures r.ruleId == rule.id && r.ruleName == rule.name && r.testTime == now
    ensures r.summary.totalLogs == |samples|
    ensures r.summary.matchedLogs == |r.matches| == |MatchingLogs(samples, rule.conditions)|
    ensures forall i :: 0 <= i < |r.matches| ==>
      r.matches[i] == AsMatch(MatchingLogs(samples, rule.conditions)[i])
    ensures forall i :: 0 <= i < |r.matches| ==> r.matches[i].matched && ConditionHolds(r.matches[i].logEntry, rule.conditions)
    ensures r.summary.wouldTrigger <==> r.summary.matchedLogs >= rule.conditions.threshold
  {
    var matches: seq<LogMatch> := [];
    var matchCount := 0;
    for i := 0 to |samples|
      invariant matchCount == |matches| == |MatchingLogs(samples[..i], rule.conditions)|
      invariant forall j :: 0 <= j < |matches| ==> matches[j] == AsMatch(MatchingLogs(samples[..i], rule.conditions)[j])
    {
      assert samples[..i + 1][..i] == samples[..i];
      var ok := EvaluateCondition(samples[i], rule.conditions);
      if ok.value {
        matchCount := matchCount + 1;
        matches := matches + [AsMatch(samples[i])];
      }
    }
    assert samples[..|samples|] == samples;
    r := RuleTestResult(rule.id, rule.name, now, matches,
                        TestSummary(|samples|, matchCount, matchCount >= rule.conditions.threshold));
  }

  // ---------------------------------------------------------------------
  // Performance tracking
  // ---------------------------------------------------------------------

  datatype RulePerformance = RulePerformance(
    ruleId: string,
    evaluationCount: nat,
    matchCount: nat,
    lastEvaluation: Time,
    averageEvalTime: Int64,
    totalEvalTime: Int64)

  type Tracker = map<string, RulePerformance>

  /** What every tracked entry satisfies: it is filed under its own rule, has
      been evaluated at least once, matched at most as often, and its average
      is the truncating quotient of total by count. */
  ghost predicate TrackerInvariant(t: Tracker)
  {
    forall id :: id in t ==>
      && t[id].ruleId == id
      && 0 <= t[id].matchCount <= t[id].evaluationCount
      && t[id].evaluationCount >= 1
      && t[id].averageEvalTime == GoDiv(t[id].totalEvalTime, t[id].evaluationCount)
  }

  /** Records one evaluation. Durations are 64-bit, so the running total wraps
      as Go's does. */
  function TrackEvaluation(t: Tracker, ruleId: string, evalTime: Int64, matched: bool, now: Time): (t': Tracker)
    ensures ruleId in t'
    ensures forall id :: id != ruleId ==> (id in t' <==> id in t)
    ensures forall id :: id in t && id != ruleId ==> t'[id] == t[id]
    ensures var before := if ruleId in t then t[ruleId].evaluationCount else 0;
      t'[ruleId].evaluationCount == before + 1
    ensures var before := if ruleId in t then t[ruleId].matchCount else 0;
      t'[ruleId].matchCount == before + (if matched then 1 else 0)
    ensures t'[ruleId].lastEvaluation == now
    ensures var before := if ruleId in t then t[ruleId].totalEvalTime else 0;
      t'[ruleId].totalEvalTime == Wrap64(before + evalTime)
    ensures t'[ruleId].averageEvalTime == GoDiv(t'[ruleId].totalEvalTime, t'[ruleId].evaluationCount)
  {
    var m := if ruleId in t then t[ruleId] else RulePerformance(ruleId, 0, 0, 0, 0, 0);
    var count := m.evaluationCount + 1;
    var total := Wrap64(m.totalEvalTime + evalTime);
    var avg := GoDiv(total, count);
    assert MinInt64 <= avg <= MaxInt64 by { GoDivBounded(total, count); }
    t[ruleId := m.(evaluationCount := count,
                   lastEvaluation := now,
                   totalEvalTime := total,
                   averageEvalTime := avg,
                   matchCount := m.matchCount + (if matched then 1 else 0))]
  }

  /** Dividing by a positive count never leaves the dividend's range. */
  lemma GoDivBounded(a: int, b: int)
    requires b > 0
    ensures a >= 0 ==> 0 <= GoDiv(a, b) <= a
    ensures a < 0 ==> a <= GoDiv(a, b) <= 0
  {
    if a >= 0 {
      DivLe(a, b);
    } else {
      DivLe(-a, b);
    }
  }

  lemma DivLe(a: int, b: int)
    requires a >= 0 && b > 0
    ensures 0 <= a / b <= a
  {
    var q := a / b;
    assert a == q * b + a % b;
    if q > a {
      MulLt(a, q, b);
      assert false;
    }
  }

  /** TrackEvaluation keeps the tracker invariant. */
  lemma TrackKeepsInvariant(t: Tracker, ruleId: string, evalTime: Int64, matched: bool, now: Time)
    requires TrackerInvariant(t)
    ensures TrackerInvariant(TrackEvaluation(t, ruleId, evalTime, matched, now))
  {
    var t' := TrackEvaluation(t, ruleId, evalTime, matched, now);
    assert t'[ruleId].averageEvalTime == GoDiv(t'[ruleId].totalEvalTime, t'[ruleId].evaluationCount);
  }

  /** Tracks a sequence of (duration, matched) evaluations of one rule. */
  function TrackAll(t: Tracker, ruleId: string, evals: seq<(Int64, bool)>, now: Time): Tracker
    decreases |evals|
  {
    if |evals| == 0 then t
    else TrackAll(TrackEvaluation(t, ruleId, evals[0].0, evals[0].1, now), ruleId, evals[1..], now)
  }

  function CountMatched(evals: seq<(Int64, bool)>): (n: nat)
    ensures n <= |evals|
  {
    if |evals| == 0 then 0 else (if evals[0].1 then 1 else 0) + CountMatched(evals[1..])
  }

  /** Starting untracked, n evaluations leave a count of n and a match count
      equal to the number of matched ones. */
  lemma {:induction false} TrackAllCounts(t: Tracker, ruleId: string, evals: seq<(Int64, bool)>, now: Time, base: nat, matchBase: nat)
    requires |evals| > 0
    requires ruleId in t ==> t[ruleId].evaluationCount == base && t[ruleId].matchCount == matchBase
    requires ruleId !in t ==> base == 0 && matchBase == 0
    ensures ruleId in TrackAll(t, ruleId, evals, now)
    ensures TrackAll(t, ruleId, evals, now)[ruleId].evaluationCount == base + |evals|
    ensures TrackAll(t, ruleId, evals, now)[ruleId].matchCount == matchBase + CountMatched(evals)
    decreases |evals|
  {
    var t1 := TrackEvaluation(t, ruleId, evals[0].0, evals[0].1, now);
    if |evals| > 1 {
      TrackAllCounts(t1, ruleId, evals[1..], now, base + 1, matchBase + (if evals[0].1 then 1 else 0));
    }
  }

  /** GetRulePerformance: nil for a rule never tracked. */
  function GetRulePerformance(t: Tracker, ruleId: string): (r: Option<RulePerformance>)
    ensures r.None? <==> ruleId !in t
    ensures r.Some? ==> r.value == t[ruleId]
  {
    if ruleId in t then Some(t[ruleId]) else None
  }

  // ---------------------------------------------------------------------
  // Batched evaluation
  // ---------------------------------------------------------------------

  /** How the batching loop ends: normally, never (a batch size of 0 makes no
      progress) or with a slice panic (a negative batch size). */
  datatype BatchOutcome<T> = Completed(value: T) | NeverTerminates | Panics

  /** How EvaluateBatch returns: with every alert and no error, with the
      alerts so far and the context's error (the context was seen done after
      a chunk), never (a batch size of 0 on a context that is never done) or
      with a slice panic (a negative batch size). */
  datatype BatchReturn = AllEvaluated(state: BatchState) | Cancelled(state: BatchState) | Spins | SlicePanics

  /** Concatenation of a sequence of sequences. */
  function Flatten<T>(xss: seq<seq<T>>): seq<T>
  {
    if |xss| == 0 then [] else xss[0] + Flatten(xss[1..])
  }

  /** The slices logs[i:min(i+size, n)] for i = 0, size, 2*size, ... */
  function Chunks(logs: seq<LogEntry>, size: int): (r: BatchOutcome<seq<seq<LogEntry>>>)
    ensures |logs| == 0 ==> r == Completed([])
    ensures |logs| > 0 && size == 0 ==> r.NeverTerminates?
    ensures |logs| > 0 && size < 0 ==> r.Panics?
    ensures size > 0 ==> r.Completed?
    ensures r.Completed? ==> (Flatten(r.value) == logs
      && forall i :: 0 <= i < |r.value| ==> 0 < |r.value[i]| <= size)
    ensures r.Completed? ==> forall i :: 0 <= i < |r.value| - 1 ==> |r.value[i]| == size
    decreases |logs|
  {
    if |logs| == 0 then Completed([])
    else if size == 0 then NeverTerminates
    else if size < 0 then Panics
    else if |logs| <= size then
      assert Flatten([logs]) == logs + Flatten([]);
      Completed([logs])
    else
      var rest := Chunks(logs[size..], size);
      var r := [logs[..size]] + rest.value;
      assert r[1..] == rest.value;
      assert logs == logs[..size] + logs[size..];
      Completed(r)
  }

  datatype BatchState = BatchState(store: Storage.Store, alerts: seq<Alert>)

  /** The alert a batch evaluation raises; its ID is "<rule>-<unix seconds>". */
  function BatchAlert(rule: AlertRule, le: LogEntry, count: int, now: Time): Alert
  {
    Alert(rule.id + "-" + IntToString(UnixSeconds(now)), rule.id, rule.name, le, le.timestamp,
          rule.actions.severity, "pending", "", count)
  }

  /** `a` is the alert `rule` raises for `le`: the rule is enabled and
      matches, and the alert's count meets its threshold. */
  predicate BatchRaisedBy(a: Alert, rule: AlertRule, le: LogEntry, now: Time)
  {
    && a == BatchAlert(rule, le, a.count, now)
    && rule.enabled && ConditionHolds(le, rule.conditions)
    && CompareWithThreshold(a.count, rule.conditions.threshold, rule.conditions.operator)
  }

  /** Some rule of `rules` raises `a` for `le`. */
  predicate BatchRaisedByOneOf(a: Alert, rules: seq<AlertRule>, le: LogEntry, now: Time)
  {
    exists j :: 0 <= j < |rules| && BatchRaisedBy(a, rules[j], le, now)
  }

  /** One rule against one log: a disabled or unmatched rule is skipped, a
      failed counter increment skips the rule, and otherwise the store is the
      one the increment left, with a pending alert added exactly when the
      threshold is met. */
  function EvaluateRuleOnLog(st: BatchState, le: LogEntry, rule: AlertRule, now: Time): (r: BatchState)
    requires st.store.Valid()
    ensures r.store.Valid()
    ensures !rule.enabled || !ConditionHolds(le, rule.conditions) ==> r == st
    ensures var tr := EvaluateThreshold(st.store, rule.id, rule.conditions, now);
      rule.enabled && ConditionHolds(le, rule.conditions) ==>
        && (tr.Err? ==> r == st)
        && (tr.Ok? ==> r.store == tr.value.store)
        && (tr.Ok? ==> r.alerts == st.alerts + (if tr.value.met then [BatchAlert(rule, le, tr.value.count, now)] else []))
    ensures |r.alerts| == |st.alerts| + 1 <==>
      && rule.enabled && ConditionHolds(le, rule.conditions)
      && EvaluateThreshold(st.store, rule.id, rule.conditions, now).Ok?
      && EvaluateThreshold(st.store, rule.id, rule.conditions, now).value.met
    ensures |r.alerts| != |st.alerts| + 1 ==> r.alerts == st.alerts
    ensures |r.alerts| == |st.alerts| + 1 ==>
      r.alerts[..|st.alerts|] == st.alerts && BatchRaisedBy(r.alerts[|st.alerts|], rule, le, now)
  {
    if !rule.enabled || !EvaluateCondition(le, rule.conditions).value then st
    else
      match EvaluateThreshold(st.store, rule.id, rule.conditions, now)
      case Err(_) => st
      case Ok(tr) =>
        var alerts := st.alerts + (if tr.met then [BatchAlert(rule, le, tr.count, now)] else []);
        assert alerts[..|st.alerts|] == st.alerts;
        BatchState(tr.store, alerts)
  }

  /** One log against every rule in order: the earlier alerts stay in front,
      at most one alert per rule is added, and each new alert is raised by
      one of the rules. */
  function EvaluateLogAgainst(st: BatchState, le: LogEntry, rules: seq<AlertRule>, now: Time): (r: BatchState)
    requires st.store.Valid()
    ensures r.store.Valid()
    ensures |st.alerts| <= |r.alerts| <= |st.alerts| + |rules| && r.alerts[..|st.alerts|] == st.alerts
    ensures forall i :: |st.alerts| <= i < |r.alerts| ==> BatchRaisedByOneOf(r.alerts[i], rules, le, now)
    decreases |rules|
  {
    if |rules| == 0 then st
    else
      var next := EvaluateRuleOnLog(st, le, rules[0], now);
      var r := EvaluateLogAgainst(next, le, rules[1..], now);
      assert r.alerts[..|st.alerts|] == r.alerts[..|next.alerts|][..|st.alerts|];
      RaisedByOneOfStep(st.alerts, next.alerts, r.alerts, rules, le, now);
      r
  }

  /** The provenance step of EvaluateLogAgainst: the first rule's alert and
      the alerts of the remaining rules are all raised by one of `rules`. */
  lemma RaisedByOneOfStep(before: seq<Alert>, mid: seq<Alert>, after: seq<Alert>, rules: seq<AlertRule>, le: LogEntry, now: Time)
    requires |rules| > 0
    requires |before| <= |mid| <= |before| + 1 && |mid| <= |after|
    requires |mid| == |before| + 1 ==> BatchRaisedBy(mid[|before|], rules[0], le, now)
    requires after[..|mid|] == mid
    requires forall i :: |mid| <= i < |after| ==> BatchRaisedByOneOf(after[i], rules[1..], le, now)
    ensures forall i :: |before| <= i < |after| ==> BatchRaisedByOneOf(after[i], rules, le, now)
  {
    forall i | |before| <= i < |after|
      ensures BatchRaisedByOneOf(after[i], rules, le, now)
    {
      if i < |mid| {
        assert after[i] == mid[i];
        assert BatchRaisedBy(after[i], rules[0], le, now);
      } else {
        var j :| 0 <= j < |rules[1..]| && BatchRaisedBy(after[i], rules[1..][j], le, now);
        assert rules[1..][j] == rules[j + 1];
        assert BatchRaisedBy(after[i], rules[j + 1], le, now);
      }
    }
  }

  /** evaluateBatch: each log in turn against every rule. */
  function EvaluateLogs(st: BatchState, logs: seq<LogEntry>, rules: seq<AlertRule>, now: Time): (r: BatchState)
    requires st.store.Valid()
    ensures r.store.Valid()
    decreases |logs|
  {
    if |logs| == 0 then st
    else EvaluateLogs(EvaluateLogAgainst(st, logs[0], rules, now), logs[1..], rules, now)
  }

  /** Evaluating a + b is evaluating a, then b from where a left off. */
  lemma {:induction false} EvaluateLogsAppend(st: BatchState, a: seq<LogEntry>, b: seq<LogEntry>, rules: seq<AlertRule>, now: Time)
    requires st.store.Valid()
    ensures EvaluateLogs(st, a + b, rules, now) == EvaluateLogs(EvaluateLogs(st, a, rules, now), b, rules, now)
    decreases |a|
  {
    if |a| == 0 {
      assert a + b == b;
    } else {
      assert (a + b)[0] == a[0];
      assert (a + b)[1..] == a[1..] + b;
      EvaluateLogsAppend(EvaluateLogAgainst(st, a[0], rules, now), a[1..], b, rules, now);
    }
  }

  function EvaluateChunks(st: BatchState, chunks: seq<seq<LogEntry>>, rules: seq<AlertRule>, now: Time): (r: BatchState)
    requires st.store.Valid()
    ensures r.store.Valid()
    decreases |chunks|
  {
    if |chunks| == 0 then st
    else EvaluateChunks(EvaluateLogs(st, chunks[0], rules, now), chunks[1..], rules, now)
  }

  /** The chunk loop of EvaluateBatch, polling the context after each
      chunk. `doneAfter` says when the context is first seen done: `None`
      never, `Some(k)` at the poll after chunk k (counting from 0). */
  function EvaluateChunksUntil(st: BatchState, chunks: seq<seq<LogEntry>>, rules: seq<AlertRule>, now: Time,
                               doneAfter: Option<nat>): (r: BatchReturn)
    requires st.store.Valid()
    ensures r.AllEvaluated? || r.Cancelled?
    ensures r.state.store.Valid()
    ensures r.Cancelled? <==> doneAfter.Some? && doneAfter.value < |chunks|
    decreases |chunks|
  {
    if |chunks| == 0 then AllEvaluated(st)
    else
      var next := EvaluateLogs(st, chunks[0], rules, now);
      if doneAfter == Some(0) then Cancelled(next)
      else
        var later := if doneAfter.Some? then Some(doneAfter.value - 1) else None;
        EvaluateChunksUntil(next, chunks[1..], rules, now, later)
  }

  /** EvaluateBatch: the logs in chunks of `batchSize`, in order, stopping
      with the alerts so far once the context is seen done. With no logs the
      loop never runs; a batch size of 0 evaluates empty chunks until the
      context is done; a negative one panics on the first slice. */
  function EvaluateBatch(store: Storage.Store, logs: seq<LogEntry>, rules: seq<AlertRule>, batchSize: int, now: Time,
                         doneAfter: Option<nat>): (r: BatchReturn)
    requires store.Valid()
    ensures |logs| == 0 ==> r == AllEvaluated(BatchState(store, []))
    ensures |logs| > 0 && batchSize < 0 ==> r == SlicePanics
    ensures |logs| > 0 && batchSize == 0 ==>
      r == (if doneAfter.Some? then Cancelled(BatchState(store, [])) else Spins)
    ensures batchSize > 0 ==> r.AllEvaluated? || r.Cancelled?
    ensures batchSize > 0 && doneAfter.None? ==> r.AllEvaluated?
  {
    match Chunks(logs, batchSize)
    case Completed(chunks) => EvaluateChunksUntil(BatchState(store, []), chunks, rules, now, doneAfter)
    case NeverTerminates => if doneAfter.Some? then Cancelled(BatchState(store, [])) else Spins
    case Panics => SlicePanics
  }

  /** Polling a context that is never done changes nothing. */
  lemma {:induction false} EvaluateChunksUntilNever(st: BatchState, chunks: seq<seq<LogEntry>>, rules: seq<AlertRule>, now: Time)
    requires st.store.Valid()
    ensures EvaluateChunksUntil(st, chunks, rules, now, None) == AllEvaluated(EvaluateChunks(st, chunks, rules, now))
    decreases |chunks|
  {
    if |chunks| > 0 {
      EvaluateChunksUntilNever(EvaluateLogs(st, chunks[0], rules, now), chunks[1..], rules, now);
    }
  }

  /** A context seen done after chunk k stops the loop with exactly the
      first k + 1 chunks evaluated; one that fires later than the last chunk
      is never seen. */
  lemma {:induction false} EvaluateChunksUntilDone(st: BatchState, chunks: seq<seq<LogEntry>>, rules: seq<AlertRule>, now: Time, k: nat)
    requires st.store.Valid()
    ensures k < |chunks| ==>
      EvaluateChunksUntil(st, chunks, rules, now, Some(k)) == Cancelled(EvaluateChunks(st, chunks[..k + 1], rules, now))
    ensures k >= |chunks| ==>
      EvaluateChunksUntil(st, chunks, rules, now, Some(k)) == AllEvaluated(EvaluateChunks(st, chunks, rules, now))
    decreases |chunks|
  {
    if |chunks| > 0 {
      var next := EvaluateLogs(st, chunks[0], rules, now);
      if k == 0 {
        assert chunks[..1][1..] == [];
      } else {
        EvaluateChunksUntilDone(next, chunks[1..], rules, now, k - 1);
        if k < |chunks| {
          assert chunks[..k + 1][0] == chunks[0];
          assert chunks[..k + 1][1..] == chunks[1..][..k];
        }
      }
    }
  }

  lemma {:induction false} EvaluateChunksFlatten(st: BatchState, chunks: seq<seq<LogEntry>>, rules: seq<AlertRule>, now: Time)
    requires st.store.Valid()
    ensures EvaluateChunks(st, chunks, rules, now) == EvaluateLogs(st, Flatten(chunks), rules, now)
    decreases |chunks|
  {
    if |chunks| > 0 {
      EvaluateLogsAppend(st, chunks[0], Flatten(chunks[1..]), rules, now);
      EvaluateChunksFlatten(EvaluateLogs(st, chunks[0], rules, now), chunks[1..], rules, now);
    }
  }

  /** Batching is invisible: for any positive batch size and a context
      that is never done, the store and the alerts are those of evaluating
      all logs in one pass. */
  lemma BatchingIsTransparent(store: Storage.Store, logs: seq<LogEntry>, rules: seq<AlertRule>, batchSize: int, now: Time)
    requires store.Valid() && batchSize > 0
    ensures EvaluateBatch(store, logs, rules, batchSize, now, None) == AllEvaluated(EvaluateLogs(BatchState(store, []), logs, rules, now))
  {
    var chunks := Chunks(logs, batchSize).value;
    EvaluateChunksUntilNever(BatchState(store, []), chunks, rules, now);
    EvaluateChunksFlatten(BatchState(store, []), chunks, rules, now);
  }

  /** Concatenating a chunk in front of chunks. */
  lemma FlattenCons<T>(x: seq<T>, xs: seq<seq<T>>)
    ensures Flatten([x] + xs) == x + Flatten(xs)
  {
    assert ([x] + xs)[1..] == xs;
  }

  /** With a positive size, chunk k exists iff k * size is inside the logs,
      and the first k + 1 chunks are the first min((k + 1) * size, n) logs. */
  lemma {:induction false} ChunkPrefix(logs: seq<LogEntry>, size: int, k: nat)
    requires size > 0
    ensures k < |Chunks(logs, size).value| <==> ChunkStart(k, size) < |logs|
    ensures k < |Chunks(logs, size).value| ==>
      Flatten(Chunks(logs, size).value[..k + 1]) == logs[..PrefixEnd(k, size, |logs|)]
    decreases |logs|
  {
    if |logs| == 0 {
    } else if |logs| <= size {
      ChunkPrefixShort(logs, size, k);
    } else if k == 0 {
      ChunkPrefixFirst(logs, size);
    } else {
      ChunkPrefix(logs[size..], size, k - 1);
      ChunkPrefixLater(logs, size, k);
    }
  }

  /** Where chunk k starts: k * size, by repeated addition. */
  function ChunkStart(k: nat, size: int): (start: int)
    requires size > 0
    ensures start == k * size
  {
    if k == 0 then 0 else ChunkStart(k - 1, size) + size
  }

  /** The end of the first k + 1 chunks: min((k + 1) * size, n). */
  function PrefixEnd(k: nat, size: int, n: nat): (end: nat)
    requires size > 0
    ensures end <= n
  {
    if ChunkStart(k + 1, size) < n then ChunkStart(k + 1, size) else n
  }

  lemma ChunkPrefixShort(logs: seq<LogEntry>, size: int, k: nat)
    requires size > 0 && 0 < |logs| <= size
    ensures k < |Chunks(logs, size).value| <==> ChunkStart(k, size) < |logs|
    ensures k < |Chunks(logs, size).value| ==>
      Flatten(Chunks(logs, size).value[..k + 1]) == logs[..PrefixEnd(k, size, |logs|)]
  {
    var chunks := Chunks(logs, size).value;
    assert chunks == [logs];
    if k > 0 {
      StartPastFirst(k, size);
    } else {
      assert chunks[..1] == [logs];
      FlattenCons(logs, []);
    }
  }

  lemma ChunkPrefixFirst(logs: seq<LogEntry>, size: int)
    requires size > 0 && |logs| > size
    ensures 0 < |Chunks(logs, size).value|
    ensures Flatten(Chunks(logs, size).value[..1]) == logs[..PrefixEnd(0, size, |logs|)]
  {
    var chunks := Chunks(logs, size).value;
    assert chunks[..1] == [logs[..size]];
    FlattenCons(logs[..size], []);
  }

  lemma ChunkPrefixLater(logs: seq<LogEntry>, size: int, k: nat)
    requires size > 0 && |logs| > size && k > 0
    requires var rest := Chunks(logs[size..], size).value;
      && (k - 1 < |rest| <==> ChunkStart(k - 1, size) < |logs| - size)
      && (k - 1 < |rest| ==> Flatten(rest[..k]) == logs[size..][..PrefixEnd(k - 1, size, |logs| - size)])
    ensures k < |Chunks(logs, size).value| <==> ChunkStart(k, size) < |logs|
    ensures k < |Chunks(logs, size).value| ==>
      Flatten(Chunks(logs, size).value[..k + 1]) == logs[..PrefixEnd(k, size, |logs|)]
  {
    var rest := Chunks(logs[size..], size).value;
    ChunkCountLater(logs, size);
    PrefixEndStep(k, size, |logs|);
    if k - 1 < |rest| {
      FlattenFirstChunk(logs, size, k);
      PrefixSplit(logs, size, PrefixEnd(k - 1, size, |logs| - size));
    }
  }

  lemma ChunkCountLater(logs: seq<LogEntry>, size: int)
    requires size > 0 && |logs| > size
    ensures |Chunks(logs, size).value| == 1 + |Chunks(logs[size..], size).value|
  {
    assert Chunks(logs, size).value == [logs[..size]] + Chunks(logs[size..], size).value;
  }

  /** The first k + 1 chunks are the first chunk before k chunks of the rest. */
  lemma FlattenFirstChunk(logs: seq<LogEntry>, size: int, k: nat)
    requires size > 0 && |logs| > size && 0 < k <= |Chunks(logs[size..], size).value|
    ensures Flatten(Chunks(logs, size).value[..k + 1]) == logs[..size] + Flatten(Chunks(logs[size..], size).value[..k])
  {
    var chunks := Chunks(logs, size).value;
    var rest := Chunks(logs[size..], size).value;
    assert chunks == [logs[..size]] + rest;
    assert chunks[..k + 1] == [logs[..size]] + rest[..k];
    FlattenCons(logs[..size], rest[..k]);
  }

  lemma PrefixSplit<T>(s: seq<T>, a: nat, b: nat)
    requires a + b <= |s|
    ensures s[..a] + s[a..][..b] == s[..a + b]
  {
  }

  /** The arithmetic of skipping the first chunk. */
  lemma PrefixEndStep(k: nat, size: int, n: nat)
    requires size > 0 && n > size && k > 0
    ensures ChunkStart(k, size) < n <==> ChunkStart(k - 1, size) < n - size
    ensures PrefixEnd(k, size, n) == size + PrefixEnd(k - 1, size, n - size)
  {
  }

  lemma {:induction false} StartPastFirst(k: nat, size: int)
    requires k >= 1 && size > 0
    ensures ChunkStart(k, size) >= size
  {
    if k > 1 {
      StartPastFirst(k - 1, size);
    }
  }

  /** A context seen done after chunk k returns the alerts of the first
      min((k + 1) * batchSize, n) logs, together with the context's error,
      when chunk k exists; otherwise the batch completes as if never
      cancelled. */
  lemma CancelledBatchIsPrefix(store: Storage.Store, logs: seq<LogEntry>, rules: seq<AlertRule>, batchSize: int, now: Time, k: nat)
    requires store.Valid() && batchSize > 0
    ensures k * batchSize < |logs| ==>
      EvaluateBatch(store, logs, rules, batchSize, now, Some(k))
        == Cancelled(EvaluateLogs(BatchState(store, []), logs[..PrefixEnd(k, batchSize, |logs|)], rules, now))
    ensures k * batchSize >= |logs| ==>
      EvaluateBatch(store, logs, rules, batchSize, now, Some(k)) == AllEvaluated(EvaluateLogs(BatchState(store, []), logs, rules, now))
  {
    var st := BatchState(store, []);
    var chunks := Chunks(logs, batchSize).value;
    ChunkPrefix(logs, batchSize, k);
    EvaluateChunksUntilDone(st, chunks, rules, now, k);
    if k < |chunks| {
      EvaluateChunksFlatten(st, chunks[..k + 1], rules, now);
    } else {
      EvaluateChunksFlatten(st, chunks, rules, now);
    }
  }
}

=== FILE: kafka.dfy ===
/** Ingestion glue between Kafka and the alert engine (internal/kafka).
    The broker, the reader and the timers are not modelled: a read message is
    an input, JSON decoding and RFC 3339 parsing are function parameters, and
    the `AlertEngine` interface is represented by the sequence of entries it
    has been handed, in call order. */
module Kafka {
  import opened Common
  import opened Models

  // ---------------------------------------------------------------------
  // Configuration (consumer.go)
  // ---------------------------------------------------------------------

  datatype ConsumerConfig = ConsumerConfig(
    brokers: seq<string>,
    topic: string,
    groupId: string,
    minBytes: Int64,
    maxBytes: Int64,
    maxWait: Duration,
    startOffset: Int64)

  /** kafka.FirstOffset and kafka.LastOffset of the client library. */
  const FirstOffset: Int64 := -2
  const LastOffset: Int64 := -1

  const DefaultBroker := "127.0.0.1:9094"
  const DefaultTopic := "application-logs"
  const DefaultGroupId := "alert-engine-e2e-fresh-20250716"

  function DefaultConsumerConfig(): (c: ConsumerConfig)
    ensures c.brokers == [DefaultBroker] && c.topic == DefaultTopic && c.groupId == DefaultGroupId
    ensures c.minBytes == 1024 && c.maxBytes == 1048576
    ensures c.maxWait == 2 * Second
    ensures c.startOffset == FirstOffset
  {
    ConsumerConfig([DefaultBroker], DefaultTopic, DefaultGroupId, 1024, 1048576, 2 * Second, -2)
  }

  const BrokersVar := "KAFKA_BROKERS"
  const TopicVar := "KAFKA_TOPIC"
  const GroupIdVar := "KAFKA_GROUP_ID"

  /** The default configuration with KAFKA_BROKERS, KAFKA_TOPIC and
      KAFKA_GROUP_ID applied. `getenv` is os.Getenv: "" for an unset variable,
      and an empty value overrides nothing. */
  function DefaultConsumerConfigFromEnv(getenv: string -> string): (c: ConsumerConfig)
    ensures getenv(BrokersVar) == "" ==> c.brokers == DefaultConsumerConfig().brokers
    ensures getenv(BrokersVar) != "" ==>
      && |c.brokers| == CountChar(getenv(BrokersVar), ',') + 1
      && (forall i :: 0 <= i < |c.brokers| ==> ',' !in c.brokers[i])
      && Join(c.brokers, ',') == getenv(BrokersVar)
    ensures c.topic == (if getenv(TopicVar) == "" then DefaultTopic else getenv(TopicVar))
    ensures c.groupId == (if getenv(GroupIdVar) == "" then DefaultGroupId else getenv(GroupIdVar))
    ensures c.(brokers := DefaultConsumerConfig().brokers, topic := DefaultTopic, groupId := DefaultGroupId)
            == DefaultConsumerConfig()
  {
    var d := DefaultConsumerConfig();
    var brokers := getenv(BrokersVar);
    var topic := getenv(TopicVar);
    var group := getenv(GroupIdVar);
    d.(brokers := if brokers != "" then Split(brokers, ',') else d.brokers,
       topic := if topic != "" then topic else d.topic,
       groupId := if group != "" then group else d.groupId)
  }

  /** With none of the three variables set, the environment changes nothing. */
  lemma EmptyEnvironmentKeepsDefaults(getenv: string -> string)
    requires getenv(BrokersVar) == "" && getenv(TopicVar) == "" && getenv(GroupIdVar) == ""
    ensures DefaultConsumerConfigFromEnv(getenv) == DefaultConsumerConfig()
  {
  }

  /** A single broker address without commas is taken as the one broker. */
  lemma SingleBrokerFromEnv(getenv: string -> string)
    requires getenv(BrokersVar) != "" && ',' !in getenv(BrokersVar)
    ensures DefaultConsumerConfigFromEnv(getenv).brokers == [getenv(BrokersVar)]
  {
    var b := getenv(BrokersVar);
    var parts := DefaultConsumerConfigFromEnv(getenv).brokers;
    CountCharAbsent(b, ',');
    assert |parts| == 1;
    assert Join(parts, ',') == parts[0];
  }

  lemma {:induction false} CountCharAbsent(s: string, c: char)
    requires c !in s
    ensures CountChar(s, c) == 0
    decreases |s|
  {
    if |s| > 0 {
      assert s[0] != c;
      assert c !in s[1..];
      CountCharAbsent(s[1..], c);
    }
  }

  // ---------------------------------------------------------------------
  // Consumers and consumer groups
  // ---------------------------------------------------------------------

  /** A consumer is its configuration and the identity of the reader that
      kafka.NewReader created for it. */
  datatype Consumer = Consumer(config: ConsumerConfig, reader: nat)

  /** The part of kafka.ReaderStats the health check reads. */
  datatype ReaderStats = ReaderStats(lag: Int64, messages: Int64, errors: Int64)

  const MaxHealthyLag: Int64 := 1000

  /** A consumer is healthy unless its reader lags by more than 1000 messages. */
  function HealthCheck(stats: ReaderStats): (healthy: bool)
    ensures healthy <==> stats.lag <= MaxHealthyLag
  {
    !(stats.lag > 1000)
  }

  /** Lag is the only thing the health check looks at, and less lag never hurts. */
  lemma HealthMonotone(a: ReaderStats, b: ReaderStats)
    requires b.lag <= a.lag
    ensures HealthCheck(a) ==> HealthCheck(b)
  {
  }

  datatype ConsumerGroup = ConsumerGroup(consumers: seq<Consumer>, config: ConsumerConfig)

  /** Go's `make` with a negative length or capacity panics; every other
      construction here succeeds. */
  datatype Made<T> = Made(value: T) | MakePanics

  /** NewConsumerGroup: `count` consumers over the same configuration, each
      with a fresh reader. `firstReader` names the first reader created. */
  function NewConsumerGroup(config: ConsumerConfig, count: Int64, firstReader: nat): (r: Made<ConsumerGroup>)
    ensures count < 0 <==> r.MakePanics?
    ensures r.Made? ==>
      && |r.value.consumers| == count
      && r.value.config == config
      && (forall i :: 0 <= i < |r.value.consumers| ==> r.value.consumers[i].config == config)
      && (forall i, j :: 0 <= i < j < |r.value.consumers| ==>
            r.value.consumers[i].reader != r.value.consumers[j].reader)
  {
    if count < 0 then MakePanics
    else Made(ConsumerGroup(seq(count, i requires 0 <= i < count => Consumer(config, firstReader + i)), config))
  }

  /** GetGroupStats: one entry per consumer, in order; `stats` reads a reader's counters. */
  function GetGroupStats(g: ConsumerGroup, stats: nat -> ReaderStats): (r: seq<ReaderStats>)
    ensures |r| == |g.consumers|
    ensures forall i :: 0 <= i < |r| ==> r[i] == stats(g.consumers[i].reader)
  {
    seq(|g.consumers|, i requires 0 <= i < |g.consumers| => stats(g.consumers[i].reader))
  }

  /** A group built for k consumers reports k statistics. */
  lemma GroupStatsSize(config: ConsumerConfig, count: Int64, firstReader: nat, stats: nat -> ReaderStats)
    requires count >= 0
    ensures NewConsumerGroup(config, count, firstReader).Made?
    ensures |GetGroupStats(NewConsumerGroup(config, count, firstReader).value, stats)| == count
  {
  }

  // ---------------------------------------------------------------------
  // Lifting fields out of a JSON message (consumer.go parseMessageField)
  // ---------------------------------------------------------------------

  /** A decoded JSON value, as far as a `.(string)` type assertion can tell. */
  datatype JsonValue = JString(s: string) | JOther

  /** The value of `key` if it is a non-empty JSON string, else "": exactly
      the cases in which `v, ok := m[key].(string); ok && v != ""` fails. */
  function StringField(m: map<string, JsonValue>, key: string): (v: string)
    ensures v != "" <==> key in m && m[key].JString? && m[key].s != ""
    ensures v != "" ==> v == m[key].s
  {
    if key in m && m[key].JString? then m[key].s else ""
  }

  /** Levels that a nested level may replace. */
  predicate OverridableLevel(level: string)
  {
    level == "" || level == "INFO" || level == "DEFAULT"
  }

  /** parseMessageField. `decode` unmarshals a message into a JSON object
      (None when it is not one); `parseTime` is time.Parse with RFC 3339. */
  function ParseMessageField(le: LogEntry, decode: string -> Option<map<string, JsonValue>>,
                             parseTime: string -> Option<Time>): (r: LogEntry)
    // messages that are empty or not a JSON object are left alone
    ensures le.message == "" || decode(le.message).None? ==> r == le
    // only service, level, message and timestamp can change
    ensures r.(service := le.service, level := le.level, message := le.message, timestamp := le.timestamp) == le
    // each changes only to a non-empty nested string
    ensures r.service != le.service ==> r.service != "" && r.service == StringField(decode(le.message).value, "service")
    ensures r.message != le.message ==> r.message != "" && r.message == StringField(decode(le.message).value, "message")
    ensures r.level != le.level ==>
      && OverridableLevel(le.level)
      && r.level != "" && r.level == StringField(decode(le.message).value, "level")
    // the timestamp is filled in only when it was zero, from a string that parses
    ensures r.timestamp != le.timestamp ==>
      && le.timestamp == 0
      && var ts := StringField(decode(le.message).value, "timestamp");
         ts != "" && parseTime(ts) == Some(r.timestamp)
    // and every present field does take effect
    ensures le.message != "" && decode(le.message).Some? ==>
      var m := decode(le.message).value;
      && (StringField(m, "service") != "" ==> r.service == StringField(m, "service"))
      && (StringField(m, "message") != "" ==> r.message == StringField(m, "message"))
      && (StringField(m, "level") != "" && OverridableLevel(le.level) ==> r.level == StringField(m, "level"))
      && (var ts := StringField(m, "timestamp");
          ts != "" && le.timestamp == 0 && parseTime(ts).Some? ==> r.timestamp == parseTime(ts).value)
  {
    if le.message == "" then le
    else match decode(le.message)
      case None => le
      case Some(m) =>
        var service := StringField(m, "service");
        var level := StringField(m, "level");
        var message := StringField(m, "message");
        var ts := StringField(m, "timestamp");
        var e1 := if service != "" then le.(service := service) else le;
        var e2 := if level != "" && OverridableLevel(e1.level) then e1.(level := level) else e1;
        var e3 := if message != "" then e2.(message := message) else e2;
        if ts != "" && e3.timestamp == 0 && parseTime(ts).Some? then e3.(timestamp := parseTime(ts).value)
        else e3
  }

  /** An explicit level such as "ERROR" is never replaced by the nested one. */
  lemma ExplicitLevelWins(le: LogEntry, decode: string -> Option<map<string, JsonValue>>,
                          parseTime: string -> Option<Time>)
    requires !OverridableLevel(le.level)
    ensures ParseMessageField(le, decode, parseTime).level == le.level
  {
  }

  /** A log line from a Fluent Bit style forwarder whose message field holds
      the application's own JSON record: service, level and text are lifted
      out of it, and the envelope's raw text is kept. */
  lemma LiftsForwardedRecord(le: LogEntry, decode: string -> Option<map<string, JsonValue>>,
                             parseTime: string -> Option<Time>)
    requires le.message == "{...}" && le.level == "info"
    requires decode("{...}") == Some(map["service" := JString("payment-service"),
                                         "level" := JString("ERROR"),
                                         "message" := JString("Payment failed")])
    ensures var r := ParseMessageField(le, decode, parseTime);
      && r.service == "payment-service"
      && r.message == "Payment failed"
      && r.level == "info"
      && r.raw == le.raw
  {
    var m := decode("{...}").value;
    assert StringField(m, "service") == "payment-service";
    assert StringField(m, "message") == "Payment failed";
    assert !OverridableLevel("info");
  }

  // ---------------------------------------------------------------------
  // Reading one message (consumer.go processMessage, processor.go
  // processMessage / validateLogEntry / readAndBuffer)
  // ---------------------------------------------------------------------

  datatype ValidationError = EmptyMessage | MissingNamespace

  /** validateLogEntry. The Go function also defaults the timestamp and the
      level, but on its own copy of the entry, so the caller never sees that:
      only the verdict comes back. */
  function ValidateLogEntry(le: LogEntry): (r: Option<ValidationError>)
    ensures r.None? <==> le.message != "" && le.kubernetes.namespace != ""
    ensures le.message == "" ==> r == Some(EmptyMessage)
    ensures le.message != "" && le.kubernetes.namespace == "" ==> r == Some(MissingNamespace)
  {
    if le.message == "" then Some(EmptyMessage)
    else if le.kubernetes.namespace == "" then Some(MissingNamespace)
    else None
  }

  /** Validation looks at kubernetes.namespace only: an entry that carries its
      namespace solely in namespace_name (what OpenShift sends) is rejected,
      although the engine would resolve a namespace for it. */
  lemma ValidationIgnoresNamespaceName(le: LogEntry)
    requires le.message != "" && le.kubernetes.namespace == ""
    requires le.kubernetes.namespaceName != ""
    ensures GetNamespace(le) != ""
    ensures ValidateLogEntry(le) == Some(MissingNamespace)
  {
  }

  datatype IngestError = ReadFailed | UnmarshalFailed | Invalid(reason: ValidationError)

  /** Consumer.processMessage: read, unmarshal, keep the raw text, lift nested
      fields, and hand the entry to the engine. `read` is None when the reader
      fails; `unmarshal` is json.Unmarshal into a LogEntry. The result is the
      entry passed to EvaluateLog. No validation happens on this path. */
  function ConsumeMessage(read: Option<string>, unmarshal: string -> Option<LogEntry>,
                          decode: string -> Option<map<string, JsonValue>>,
                          parseTime: string -> Option<Time>): (r: Result<LogEntry, IngestError>)
    ensures read.None? <==> r == Err(ReadFailed)
    ensures read.Some? && unmarshal(read.value).None? <==> r == Err(UnmarshalFailed)
    ensures r.Ok? ==>
      && read.Some? && unmarshal(read.value).Some?
      && r.value.raw == read.value
      && r.value.kubernetes == unmarshal(read.value).value.kubernetes
      && r.value == ParseMessageField(unmarshal(read.value).value.(raw := read.value), decode, parseTime)
  {
    match read
    case None => Err(ReadFailed)
    case Some(value) =>
      match unmarshal(value)
      case None => Err(UnmarshalFailed)
      case Some(le) => Ok(ParseMessageField(le.(raw := value), decode, parseTime))
  }

  /** LogProcessor.processMessage: read, unmarshal, keep the raw text and
      validate; only valid entries reach the engine, and nested fields are not
      lifted on this path. */
  function ProcessMessage(read: Option<string>, unmarshal: string -> Option<LogEntry>): (r: Result<LogEntry, IngestError>)
    ensures r.Ok? <==>
      && read.Some? && unmarshal(read.value).Some?
      && ValidateLogEntry(unmarshal(read.value).value).None?
    ensures r.Ok? ==> r.value == unmarshal(read.value).value.(raw := read.value)
    ensures r.Ok? ==> r.value.message != "" && r.value.kubernetes.namespace != ""
  {
    match read
    case None => Err(ReadFailed)
    case Some(value) =>
      match unmarshal(value)
      case None => Err(UnmarshalFailed)
      case Some(le) =>
        var entry := le.(raw := value);
        match ValidateLogEntry(entry)
        case Some(e) => Err(Invalid(e))
        case None => Ok(entry)
  }

  // ---------------------------------------------------------------------
  // Buffered processing in consumer.go (MessageProcessor)
  // ---------------------------------------------------------------------

  /** A MessageProcessor: the buffer, the engine's call log, and the period
      the flush timer was last armed with. */
  datatype MessageProcessor = MessageProcessor(
    consumer: Consumer,
    batchSize: Int64,
    buffer: seq<LogEntry>,
    evaluated: seq<LogEntry>,
    timer: Duration)

  /** NewMessageProcessor; `make([]LogEntry, 0, batchSize)` panics for a negative size. */
  function NewMessageProcessor(consumer: Consumer, batchSize: Int64, flushInterval: Duration): (r: Made<MessageProcessor>)
    ensures batchSize < 0 <==> r.MakePanics?
    ensures r.Made? ==> r.value.buffer == [] && r.value.evaluated == [] && r.value.timer == flushInterval
  {
    if batchSize < 0 then MakePanics
    else Made(MessageProcessor(consumer, batchSize, [], [], flushInterval))
  }

  /** MessageProcessor.readAndBuffer: the raw entry is buffered as
      unmarshalled, without validation or nested-field lifting. */
  function BufferMessage(mp: MessageProcessor, read: Option<string>, unmarshal: string -> Option<LogEntry>): (r: Result<MessageProcessor, IngestError>)
    ensures r.Ok? <==> read.Some? && unmarshal(read.value).Some?
    ensures r.Ok? ==> r.value == mp.(buffer := mp.buffer + [unmarshal(read.value).value.(raw := read.value)])
  {
    match read
    case None => Err(ReadFailed)
    case Some(value) =>
      match unmarshal(value)
      case None => Err(UnmarshalFailed)
      case Some(le) => Ok(mp.(buffer := mp.buffer + [le.(raw := value)]))
  }

  /** flushBuffer: every buffered entry goes to the engine once, in order, the
      buffer empties and the timer is re-armed for a minute (not the
      configured interval). An empty buffer is a no-op. */
  function FlushBuffer(mp: MessageProcessor): (r: MessageProcessor)
    ensures r.buffer == []
    ensures r.evaluated == mp.evaluated + mp.buffer
    ensures mp.buffer == [] ==> r == mp
    ensures mp.buffer != [] ==> r.timer == Minute
    ensures r.consumer == mp.consumer && r.batchSize == mp.batchSize
  {
    if |mp.buffer| == 0 then mp
    else mp.(evaluated := mp.evaluated + mp.buffer, buffer := [], timer := Minute)
  }

  /** One pass of the ProcessBatch loop's default branch: buffer what was read
      (a read error is logged and skipped) and flush once the batch is full. */
  function ProcessBatchStep(mp: MessageProcessor, read: Option<string>, unmarshal: string -> Option<LogEntry>): (r: MessageProcessor)
    ensures read.None? || unmarshal(read.value).None? ==> r == mp
    ensures r.consumer == mp.consumer && r.batchSize == mp.batchSize
    ensures r.buffer == [] || r.evaluated == mp.evaluated
    ensures r.evaluated != mp.evaluated ==> r.timer == Minute
    ensures r != mp ==> r.buffer == [] || |r.buffer| < mp.batchSize
  {
    match BufferMessage(mp, read, unmarshal)
    case Err(_) => mp
    case Ok(buffered) => if |buffered.buffer| >= buffered.batchSize then FlushBuffer(buffered) else buffered
  }

  /** Nothing is lost or reordered: what the engine has seen followed by what
      is still buffered grows by exactly the entry read. */
  lemma ProcessBatchStepConserves(mp: MessageProcessor, read: Option<string>, unmarshal: string -> Option<LogEntry>)
    ensures var r := ProcessBatchStep(mp, read, unmarshal);
      if read.Some? && unmarshal(read.value).Some? then
        r.evaluated + r.buffer == mp.evaluated + mp.buffer + [unmarshal(read.value).value.(raw := read.value)]
      else r == mp
  {
    if read.Some? && unmarshal(read.value).Some? {
      var b := BufferMessage(mp, read, unmarshal).value;
      assert mp.evaluated + b.buffer == mp.evaluated + mp.buffer + [unmarshal(read.value).value.(raw := read.value)];
    }
  }

  /** The buffer never reaches the batch size: it holds fewer than
      max(batchSize, 1) entries between steps. */
  predicate BufferBounded(buffer: seq<LogEntry>, batchSize: int)
  {
    |buffer| < batchSize || |buffer| == 0
  }

  lemma ProcessBatchStepBounded(mp: MessageProcessor, read: Option<string>, unmarshal: string -> Option<LogEntry>)
    requires BufferBounded(mp.buffer, mp.batchSize)
    ensures BufferBounded(ProcessBatchStep(mp, read, unmarshal).buffer, mp.batchSize)
  {
  }

  // ---------------------------------------------------------------------
  // processor.go: LogProcessor, BatchLogProcessor, ProcessorFactory
  // ---------------------------------------------------------------------

  datatype ProcessorConfig = ProcessorConfig(
    consumer: ConsumerConfig,
    batchSize: Int64,
    flushInterval: Duration,
    retryAttempts: Int64,
    retryDelay: Duration,
    enableMetrics: bool)

  /** The integer part of ProcessorMetrics; the error rate is floating point
      and not modelled. */
  datatype ProcessorMetrics = ProcessorMetrics(
    messagesProcessed: Int64,
    messagesFailure: Int64,
    processingTime: Duration,
    lastProcessed: Time)

  const ZeroMetrics := ProcessorMetrics(0, 0, 0, 0)

  /** A LogProcessor with the engine's call log. */
  datatype LogProcessor = LogProcessor(
    consumer: Consumer,
    config: ProcessorConfig,
    metrics: ProcessorMetrics,
    evaluated: seq<LogEntry>)

  function DefaultProcessorConfig(): (c: ProcessorConfig)
    ensures c.consumer == DefaultConsumerConfig()
    ensures c.batchSize == 100 && c.flushInterval == 5 * Second
    ensures c.retryAttempts == 3 && c.retryDelay == Second
    ensures c.enableMetrics
  {
    ProcessorConfig(DefaultConsumerConfig(), 100, 5 * Second, 3, 1 * Second, true)
  }

  /** NewLogProcessor builds its own consumer settings rather than starting
      from DefaultConsumerConfig. */
  function NewLogProcessor(brokers: seq<string>, topic: string, reader: nat): (p: LogProcessor)
    ensures p.config.consumer.brokers == brokers && p.config.consumer.topic == topic
    ensures p.config.consumer.groupId == "log-monitoring-group"
    ensures p.config.consumer.startOffset == LastOffset
    ensures p.config.(consumer := DefaultConsumerConfig()) == DefaultProcessorConfig()
    ensures p.consumer == Consumer(p.config.consumer, reader)
    ensures p.metrics == ZeroMetrics && p.evaluated == []
  {
    var cc := ConsumerConfig(brokers, topic, "log-monitoring-group", 10000, 10000000, 1 * Second, LastOffset);
    var config := ProcessorConfig(cc, 100, 5 * Second, 3, 1 * Second, true);
    LogProcessor(Consumer(cc, reader), config, ZeroMetrics, [])
  }

  /** The stand-alone constructor and the factory over the defaults disagree on
      the consumer group and on where a new group starts reading. */
  lemma NewLogProcessorDiffersFromDefaults(brokers: seq<string>, topic: string, reader: nat)
    ensures var p := NewLogProcessor(brokers, topic, reader);
      var q := CreateProcessor(DefaultProcessorConfig(), brokers, topic, reader);
      && p.config.consumer.groupId != q.config.consumer.groupId
      && p.config.consumer.startOffset != q.config.consumer.startOffset
  {
  }

  /** ProcessorFactory.CreateProcessor: the factory's configuration with only
      the brokers and the topic replaced, fresh metrics and an empty call log. */
  function CreateProcessor(factory: ProcessorConfig, brokers: seq<string>, topic: string, reader: nat): (p: LogProcessor)
    ensures p.config.consumer.brokers == brokers && p.config.consumer.topic == topic
    ensures p.config.consumer.(brokers := factory.consumer.brokers, topic := factory.consumer.topic) == factory.consumer
    ensures p.config.(consumer := factory.consumer) == factory
    ensures p.consumer == Consumer(p.config.consumer, reader)
    ensures p.metrics == ZeroMetrics && p.evaluated == []
  {
    var config := factory.(consumer := factory.consumer.(brokers := brokers, topic := topic));
    LogProcessor(Consumer(config.consumer, reader), config, ZeroMetrics, [])
  }

  /** A batch processor: the processor, its buffer, and the period the flush
      timer was last armed with. */
  datatype BatchLogProcessor = BatchLogProcessor(
    processor: LogProcessor,
    buffer: seq<LogEntry>,
    batchSize: Int64,
    flushInterval: Duration,
    timer: Duration)

  /** ProcessorFactory.CreateBatchProcessor: batch size and flush interval
      come from the factory; a negative batch size makes `make` panic. */
  function CreateBatchProcessor(factory: ProcessorConfig, brokers: seq<string>, topic: string, reader: nat): (r: Made<BatchLogProcessor>)
    ensures factory.batchSize < 0 <==> r.MakePanics?
    ensures r.Made? ==>
      && r.value.processor == CreateProcessor(factory, brokers, topic, reader)
      && r.value.batchSize == factory.batchSize
      && r.value.flushInterval == factory.flushInterval
      && r.value.timer == factory.flushInterval
      && r.value.buffer == []
  {
    if factory.batchSize < 0 then MakePanics
    else
      var p := CreateProcessor(factory, brokers, topic, reader);
      Made(BatchLogProcessor(p, [], factory.batchSize, factory.flushInterval, factory.flushInterval))
  }

  /** BatchLogProcessor.readAndBuffer: validation happens before the raw text
      is attached, and only valid entries are buffered. */
  function ReadAndBuffer(b: BatchLogProcessor, read: Option<string>, unmarshal: string -> Option<LogEntry>): (r: Result<BatchLogProcessor, IngestError>)
    ensures r.Ok? <==> ProcessMessage(read, unmarshal).Ok?
    ensures r.Ok? ==> r.value == b.(buffer := b.buffer + [ProcessMessage(read, unmarshal).value])
  {
    match read
    case None => Err(ReadFailed)
    case Some(value) =>
      match unmarshal(value)
      case None => Err(UnmarshalFailed)
      case Some(le) =>
        match ValidateLogEntry(le)
        case Some(e) => Err(Invalid(e))
        case None => Ok(b.(buffer := b.buffer + [le.(raw := value)]))
  }

  /** The range loop of flushBatch: each entry is evaluated and then counted
      with int64 `++`. */
  function EvaluateEach(p: LogProcessor, entries: seq<LogEntry>): (r: LogProcessor)
    ensures r.evaluated == p.evaluated + entries
    ensures r.metrics.messagesProcessed == Wrap64(p.metrics.messagesProcessed + |entries|)
    ensures r.metrics.(messagesProcessed := p.metrics.messagesProcessed) == p.metrics
    ensures r.consumer == p.consumer && r.config == p.config
    decreases |entries|
  {
    if |entries| == 0 then p
    else
      var next := p.(evaluated := p.evaluated + [entries[0]],
                     metrics := p.metrics.(messagesProcessed := Wrap64(p.metrics.messagesProcessed + 1)));
      var r := EvaluateEach(next, entries[1..]);
      Wrap64Add(p.metrics.messagesProcessed + 1, |entries| - 1);
      assert next.evaluated + entries[1..] == p.evaluated + entries;
      r
  }

  /** flushBatch: the buffer goes to the engine in order, the processed count
      grows by its length (wrapping as int64), the buffer empties, the timer
      is re-armed with the flush interval and `now` becomes the last
      processing time. An empty buffer changes nothing. */
  function FlushBatch(b: BatchLogProcessor, now: Time): (r: BatchLogProcessor)
    ensures r.buffer == []
    ensures r.processor.evaluated == b.processor.evaluated + b.buffer
    ensures r.processor.metrics.messagesProcessed == Wrap64(b.processor.metrics.messagesProcessed + |b.buffer|)
    ensures b.buffer == [] ==> r == b
    ensures b.buffer != [] ==> r.timer == b.flushInterval && r.processor.metrics.lastProcessed == now
    ensures r.processor.metrics.messagesFailure == b.processor.metrics.messagesFailure
    ensures r.batchSize == b.batchSize && r.flushInterval == b.flushInterval
  {
    if |b.buffer| == 0 then
      assert Wrap64(b.processor.metrics.messagesProcessed + 0) == b.processor.metrics.messagesProcessed;
      b
    else
      var p := EvaluateEach(b.processor, b.buffer);
      b.(processor := p.(metrics := p.metrics.(lastProcessed := now)), buffer := [], timer := b.flushInterval)
  }

  /** One pass of BatchLogProcessor.ProcessBatch's default branch. */
  function BatchStep(b: BatchLogProcessor, read: Option<string>, unmarshal: string -> Option<LogEntry>, now: Time): (r: BatchLogProcessor)
    ensures ProcessMessage(read, unmarshal).Err? ==> r == b
    ensures r.batchSize == b.batchSize && r.flushInterval == b.flushInterval
    ensures r.buffer == [] || r.processor.evaluated == b.processor.evaluated
    ensures r.processor.evaluated != b.processor.evaluated ==> r.timer == b.flushInterval && r.processor.metrics.lastProcessed == now
    ensures r != b ==> r.buffer == [] || |r.buffer| < b.batchSize
  {
    match ReadAndBuffer(b, read, unmarshal)
    case Err(_) => b
    case Ok(buffered) => if |buffered.buffer| >= buffered.batchSize then FlushBatch(buffered, now) else buffered
  }

  /** Entries that pass validation are evaluated exactly once, in arrival
      order, and the buffer stays below the batch size; rejected ones change
      nothing. */
  lemma BatchStepConserves(b: BatchLogProcessor, read: Option<string>, unmarshal: string -> Option<LogEntry>, now: Time)
    requires BufferBounded(b.buffer, b.batchSize)
    ensures var r := BatchStep(b, read, unmarshal, now);
      && BufferBounded(r.buffer, b.batchSize)
      && (if ProcessMessage(read, unmarshal).Ok? then
            r.processor.evaluated + r.buffer == b.processor.evaluated + b.buffer + [ProcessMessage(read, unmarshal).value]
          else r == b)
  {
    if ProcessMessage(read, unmarshal).Ok? {
      var buffered := ReadAndBuffer(b, read, unmarshal).value;
      assert b.processor.evaluated + buffered.buffer
          == b.processor.evaluated + b.buffer + [ProcessMessage(read, unmarshal).value];
    }
  }

  // ---------------------------------------------------------------------
  // Retries (processor.go retryProcessing)
  // ---------------------------------------------------------------------

  datatype RetryOutcome = RetryOutcome(waits: seq<Duration>, succeeded: bool)

  /** retryProcessing without cancellation: attempt k (from 1) first waits
      RetryDelay·k, computed as an int64 product, then tries again;
      `succeeds(k)` is the outcome of that attempt. It stops at the first
      success or after RetryAttempts attempts. */
  function RetryProcessing(config: ProcessorConfig, succeeds: nat -> bool): (r: RetryOutcome)
    ensures config.retryAttempts <= 0 ==> r == RetryOutcome([], false)
    ensures |r.waits| <= if config.retryAttempts < 0 then 0 else config.retryAttempts
    ensures forall i :: 0 <= i < |r.waits| ==> r.waits[i] == Wrap64(config.retryDelay * (i + 1))
    ensures r.succeeded <==> exists k :: 1 <= k <= config.retryAttempts && succeeds(k)
    ensures r.succeeded ==> succeeds(|r.waits|) && (forall k :: 1 <= k < |r.waits| ==> !succeeds(k))
    ensures !r.succeeded ==> |r.waits| == if config.retryAttempts < 0 then 0 else config.retryAttempts
  {
    RetryFrom(config, succeeds, 1, [])
  }

  function RetryFrom(config: ProcessorConfig, succeeds: nat -> bool, attempt: nat, waits: seq<Duration>): (r: RetryOutcome)
    requires attempt >= 1 && |waits| == attempt - 1
    requires forall i :: 0 <= i < |waits| ==> waits[i] == Wrap64(config.retryDelay * (i + 1))
    requires forall k :: 1 <= k < attempt ==> !succeeds(k)
    ensures |waits| <= |r.waits|
    ensures attempt > config.retryAttempts ==> r == RetryOutcome(waits, false)
    ensures attempt <= config.retryAttempts ==> |r.waits| <= config.retryAttempts
    ensures forall i :: 0 <= i < |r.waits| ==> r.waits[i] == Wrap64(config.retryDelay * (i + 1))
    ensures r.succeeded <==> exists k :: attempt <= k <= config.retryAttempts && succeeds(k)
    ensures r.succeeded ==> succeeds(|r.waits|) && (forall k :: 1 <= k < |r.waits| ==> !succeeds(k))
    ensures !r.succeeded ==> |r.waits| == if attempt > config.retryAttempts then attempt - 1 else config.retryAttempts
    decreases if attempt > config.retryAttempts then 0 else config.retryAttempts - attempt + 1
  {
    if attempt > config.retryAttempts then RetryOutcome(waits, false)
    else
      var waited := waits + [Wrap64(config.retryDelay * attempt)];
      if succeeds(attempt) then RetryOutcome(waited, true)
      else RetryFrom(config, succeeds, attempt + 1, waited)
  }

  /** With the default configuration the waits are one, two and three seconds. */
  lemma DefaultRetrySchedule(succeeds: nat -> bool)
    requires !succeeds(1) && !succeeds(2) && !succeeds(3)
    ensures RetryProcessing(DefaultProcessorConfig(), succeeds) == RetryOutcome([Second, 2 * Second, 3 * Second], false)
  {
    var c := DefaultProcessorConfig();
    assert RetryFrom(c, succeeds, 4, [Second, 2 * Second, 3 * Second]) == RetryOutcome([Second, 2 * Second, 3 * Second], false);
    assert RetryFrom(c, succeeds, 3, [Second, 2 * Second]) == RetryOutcome([Second, 2 * Second, 3 * Second], false);
    assert RetryFrom(c, succeeds, 2, [Second]) == RetryOutcome([Second, 2 * Second, 3 * Second], false);
  }
}

=== FILE: mock_forwarder.dfy ===
/** The end-to-end log forwarder: it generates the same patterns as the
    generator but sends each record to Kafka itself, wrapped in the envelope
    a log collector would produce. Random choices are explicit draws. */
module MockForwarder {
  import opened Common
  import opened Patterns
  import Models
  import Kafka
  import Engine

  // ---------------------------------------------------------------------
  // Records
  // ---------------------------------------------------------------------

  /** The `kubernetes` object; `namespace_name` is added to pattern logs only. */
  datatype KubernetesRecord = KubernetesRecord(
    namespace: string,
    namespaceName: Option<string>,
    pod: string,
    container: string,
    labels: map<string, string>)

  datatype LogRecord = LogRecord(
    timestamp: string,
    atTimestamp: string,
    level: string,
    service: string,
    namespace: string,
    host: string,
    threadId: string,
    traceId: string,
    kubernetes: KubernetesRecord,
    message: Option<string>,
    requestId: Option<string>,
    userId: Option<string>,
    sessionId: Option<string>)

  datatype Forwarder = Forwarder(broker: string, topic: string)

  const DefaultForwarder := Forwarder("localhost:9094", "application-logs")

  const ForwarderNamespaces: seq<string> := ["production", "staging", "development"]

  // ---------------------------------------------------------------------
  // Base, pattern and normal logs
  // ---------------------------------------------------------------------

  datatype BaseDraws = BaseDraws(
    timestamp: string,
    atTimestamp: string,
    namespace: nat,
    podNumber: nat,
    podSuffix: nat,
    host: nat,
    thread: nat,
    trace: nat,
    major: nat, minor: nat, patch: nat)

  predicate BaseShape(r: LogRecord, service: string, level: string)
  {
    && r.service == service && r.level == level
    && r.namespace in ForwarderNamespaces
    && r.kubernetes.namespace == r.namespace
    && r.kubernetes.container == service
    && HasPrefix(r.kubernetes.pod, service + "-")
    && HasPrefix(r.host, "worker-node-")
    && r.kubernetes.labels.Keys == {"app", "version", "environment", "component"}
    && r.kubernetes.labels["app"] == service
    && r.kubernetes.labels["environment"] == r.namespace
    && r.kubernetes.labels["component"] == Component(service)
  }

  function GenerateBaseLog(service: string, level: string, d: BaseDraws): (r: LogRecord)
    ensures BaseShape(r, service, level)
    ensures r.kubernetes.namespaceName.None?
    ensures r.message.None? && r.requestId.None? && r.userId.None? && r.sessionId.None?
  {
    var namespace := Choose(ForwarderNamespaces, d.namespace);
    var podId := service + "-" + Num(10000, 99999, d.podNumber) + "-" + Choose(["abc", "def", "xyz"], d.podSuffix);
    var host := "worker-node-" + Num(1, 3, d.host);
    var version := "v" + Num(1, 3, d.major) + "." + Num(0, 9, d.minor) + "." + Num(0, 9, d.patch);
    var labels := map[
      "app" := service,
      "version" := version,
      "environment" := namespace,
      "component" := Component(service)];
    assert HasPrefix(podId, service + "-") by {
      assert podId[..|service + "-"|] == service + "-";
    }
    assert HasPrefix(host, "worker-node-") by {
      assert host[..|"worker-node-"|] == "worker-node-";
    }
    LogRecord(
      d.timestamp, d.atTimestamp, level, service, namespace, host,
      "thread-" + Num(1, 20, d.thread), "trace-" + Num(100000, 999999, d.trace),
      KubernetesRecord(namespace, None, podId, service, labels),
      None, None, None, None)
  }

  datatype PatternDraws = PatternDraws(
    service: nat, level: nat, keyword: nat, number: nat,
    request: nat, user: nat, session: nat, base: BaseDraws)

  /** A pattern log: the service always from the pattern's list (no
      overrides here), the level from its condition or one of four drawn
      levels, a message holding the keyword, request/user/session ids, and
      kubernetes.namespace_name copied from kubernetes.namespace. */
  function GeneratePatternLog(p: Pattern, d: PatternDraws): (r: LogRecord)
    requires Drawable(p)
    ensures r.service in p.services
    ensures r.message.Some? && Contains(r.message.value, Keyword(p, d.keyword))
  {
    var service := Choose(p.services, d.service);
    var log := GenerateBaseLog(service, PatternLevel(p, d), d.base);
    WithPatternFields(log, PatternMessage(p, service, d), RequestId(d.request), UserId(d.user), SessionId(d.session))
  }

  /** A pattern log keeps the shape of the base record it is built on. */
  lemma PatternLogShape(p: Pattern, d: PatternDraws)
    requires Drawable(p)
    ensures var r := GeneratePatternLog(p, d); BaseShape(r, r.service, r.level)
  {
  }

  /** The level of a pattern log is the condition's level when it names one,
      and one of the four drawn levels otherwise. */
  lemma PatternLogLevel(p: Pattern, d: PatternDraws)
    requires Drawable(p)
    ensures p.conditions.logLevel.Some? ==> GeneratePatternLog(p, d).level == p.conditions.logLevel.value
    ensures p.conditions.logLevel.None? ==> GeneratePatternLog(p, d).level in DrawnLevels
  {
  }

  /** Pattern logs, unlike normal ones, carry namespace_name and the request,
      user and session IDs. */
  lemma PatternLogExtras(p: Pattern, d: PatternDraws)
    requires Drawable(p)
    ensures var r := GeneratePatternLog(p, d);
      && r.kubernetes.namespaceName == Some(r.kubernetes.namespace)
      && r.requestId.Some? && r.userId.Some? && r.sessionId.Some?
  {
  }

  /** The level of a pattern log: the condition's level, or a drawn one. */
  function PatternLevel(p: Pattern, d: PatternDraws): (level: string)
    ensures p.conditions.logLevel.Some? ==> level == p.conditions.logLevel.value
    ensures p.conditions.logLevel.None? ==> level in DrawnLevels
  {
    match p.conditions.logLevel
    case Some(l) => l
    case None => Choose(DrawnLevels, d.level)
  }

  /** The pattern's continuous-mode template filled with the drawn keyword. */
  function PatternMessage(p: Pattern, service: string, d: PatternDraws): (m: string)
    requires Drawable(p)
    ensures Contains(m, Keyword(p, d.keyword))
  {
    MessageFrom(Get(ContinuousTemplates(service, d.number), p.name), Keyword(p, d.keyword))
  }

  function RequestId(draw: nat): string { "req-" + Num(100000, 999999, draw) }
  function UserId(draw: nat): string { "user-" + Num(1000, 9999, draw) }
  function SessionId(draw: nat): string { "session-" + Num(100000, 999999, draw) }

  /** A base record with the fields only pattern logs carry filled in. */
  function WithPatternFields(log: LogRecord, message: string, requestId: string, userId: string, sessionId: string): (r: LogRecord)
    ensures BaseShape(log, log.service, log.level) ==> BaseShape(r, log.service, log.level)
    ensures r.service == log.service && r.level == log.level
    ensures r.message == Some(message)
    ensures r.requestId == Some(requestId) && r.userId == Some(userId) && r.sessionId == Some(sessionId)
    ensures r.kubernetes.namespaceName == Some(r.kubernetes.namespace)
  {
    log.(
      message := Some(message),
      requestId := Some(requestId),
      userId := Some(userId),
      sessionId := Some(sessionId),
      kubernetes := log.kubernetes.(namespaceName := Some(log.kubernetes.namespace)))
  }

  /** Every catalog pattern has its own template here; the fallback is never
      used for them. */
  lemma NoFallbackForCatalog(p: Pattern, d: PatternDraws)
    requires p in Catalog
    ensures Get(ContinuousTemplates(Choose(p.services, d.service), d.number), p.name).Some?
  {
    NameOfCatalogPattern(p);
    ContinuousTemplatesCoverCatalog(Choose(p.services, d.service), d.number);
  }

  datatype NormalDraws = NormalDraws(service: nat, level: nat, message: nat, number: nat, request: nat, base: BaseDraws)

  function GenerateNormalLog(d: NormalDraws): (r: LogRecord)
    ensures BaseShape(r, r.service, r.level)
    ensures r.service in Services && r.level in NormalLevels
    ensures r.message.Some? && r.message.value in NormalMessages(r.service, d.number)
    ensures r.requestId.Some? && r.userId.None? && r.sessionId.None?
    ensures r.kubernetes.namespaceName.None?
  {
    var service := Choose(Services, d.service);
    var level := Choose(NormalLevels, d.level);
    var log := GenerateBaseLog(service, level, d.base);
    log.(
      message := Some(Choose(NormalMessages(service, d.number), d.message)),
      requestId := Some("req-" + Num(100000, 999999, d.request)))
  }

  // ---------------------------------------------------------------------
  // The broker envelope
  // ---------------------------------------------------------------------

  /** What a log collector would put on the topic: the whole record as JSON
      text in `message`, and a few fields copied beside it. */
  datatype Envelope = Envelope(
    message: string,
    atTimestamp: string,
    level: string,
    kubernetes: KubernetesRecord,
    host: string,
    stream: string,
    tag: string,
    sourceType: string)

  datatype ProducerRecord = ProducerRecord(topic: string, key: string, value: Envelope)

  predicate NoUpperAscii(s: string)
  {
    forall i :: 0 <= i < |s| ==> !IsUpperAscii(s[i])
  }

  /** send_log. `encode` is json.dumps of the record. The envelope's level is
      lower-cased; the key keeps the record's own case. */
  function SendLog(f: Forwarder, log: LogRecord, encode: LogRecord -> string): (r: ProducerRecord)
    ensures r.topic == f.topic
    ensures r.key == log.service + "-" + log.level
    ensures r.value.message == encode(log)
    ensures |r.value.level| == |log.level| && NoUpperAscii(r.value.level)
    ensures forall i :: 0 <= i < |log.level| && !IsUpperAscii(log.level[i]) ==> r.value.level[i] == log.level[i]
    ensures r.value.atTimestamp == log.atTimestamp && r.value.kubernetes == log.kubernetes && r.value.host == log.host
    ensures r.value.stream == "stdout" && r.value.tag == "kubernetes.var.log.containers"
    ensures r.value.sourceType == "kubernetes_logs"
  {
    var envelope := Envelope(
      encode(log), log.atTimestamp, ToLower(log.level), log.kubernetes, log.host,
      "stdout", "kubernetes.var.log.containers", "kubernetes_logs");
    ProducerRecord(f.topic, log.service + "-" + log.level, envelope)
  }

  /** The record as the consumer's JSON decoder sees it: the string fields the
      consumer looks for, and the rest as non-string values. */
  function DecodedRecord(log: LogRecord): (m: map<string, Kafka.JsonValue>)
    ensures Kafka.StringField(m, "level") == log.level
    ensures Kafka.StringField(m, "service") == log.service
    ensures Kafka.StringField(m, "timestamp") == log.timestamp
    ensures log.message.Some? ==> Kafka.StringField(m, "message") == log.message.value
  {
    var m := map[
      "timestamp" := Kafka.JString(log.timestamp),
      "@timestamp" := Kafka.JString(log.atTimestamp),
      "level" := Kafka.JString(log.level),
      "service" := Kafka.JString(log.service),
      "namespace" := Kafka.JString(log.namespace),
      "host" := Kafka.JString(log.host),
      "kubernetes" := Kafka.JOther];
    match log.message
    case Some(text) => m["message" := Kafka.JString(text)]
    case None => m
  }

  /** A lower-cased level is never one the consumer lets a nested level
      replace: "info" is not "INFO". */
  lemma LowerLevelNotOverridable(level: string)
    requires level != ""
    ensures !Kafka.OverridableLevel(ToLower(level))
  {
    var l := ToLower(level);
    assert !IsUpperAscii(l[0]);
    assert l != "INFO" && l != "DEFAULT" by {
      assert "INFO"[0] == 'I' && "DEFAULT"[0] == 'D';
    }
  }

  /** What the Go consumer makes of a forwarded record. `wire` is the
      envelope as sent; `unmarshal` reads it into a LogEntry, which carries
      the envelope's message and level and, since the envelope has no
      `timestamp` key, a zero timestamp. The nested record then supplies
      service, message and timestamp, but not the level: the entry keeps the
      lower-cased envelope level. */
  lemma ConsumedForwardedLog(f: Forwarder, log: LogRecord, encode: LogRecord -> string, wire: string,
                             unmarshal: string -> Option<Models.LogEntry>,
                             decode: string -> Option<map<string, Kafka.JsonValue>>,
                             parseTime: string -> Option<Time>)
    requires log.level != "" && log.service != "" && log.message.Some? && log.message.value != ""
    requires var env := SendLog(f, log, encode).value;
      && env.message != ""
      && unmarshal(wire).Some?
      && unmarshal(wire).value.message == env.message
      && unmarshal(wire).value.level == env.level
      && unmarshal(wire).value.timestamp == 0
      && decode(env.message) == Some(DecodedRecord(log))
    ensures var r := Kafka.ConsumeMessage(Some(wire), unmarshal, decode, parseTime);
      && r.Ok?
      && r.value.level == ToLower(log.level)
      && r.value.service == log.service
      && r.value.message == log.message.value
      && (log.timestamp != "" && parseTime(log.timestamp).Some? ==> r.value.timestamp == parseTime(log.timestamp).value)
  {
    LowerLevelNotOverridable(log.level);
    var le := unmarshal(wire).value.(raw := wire);
    var r := Kafka.ParseMessageField(le, decode, parseTime);
    assert r.level == le.level;
  }

  /** Consequently a forwarded record never matches a rule whose level
      condition has an upper-case letter ("ERROR", "WARN", ...), whatever its
      own level was: the engine compares levels exactly. */
  lemma ForwardedLogsMissUpperCaseLevels(f: Forwarder, log: LogRecord, encode: LogRecord -> string, wire: string,
                                        unmarshal: string -> Option<Models.LogEntry>,
                                        decode: string -> Option<map<string, Kafka.JsonValue>>,
                                        parseTime: string -> Option<Time>,
                                        c: Models.AlertConditions, k: nat)
    requires log.level != "" && log.service != "" && log.message.Some? && log.message.value != ""
    requires var env := SendLog(f, log, encode).value;
      && env.message != ""
      && unmarshal(wire).Some?
      && unmarshal(wire).value.message == env.message
      && unmarshal(wire).value.level == env.level
      && unmarshal(wire).value.timestamp == 0
      && decode(env.message) == Some(DecodedRecord(log))
    requires k < |c.logLevel| && IsUpperAscii(c.logLevel[k])
    ensures var r := Kafka.ConsumeMessage(Some(wire), unmarshal, decode, parseTime);
      r.Ok? && !Engine.MatchesConditions(r.value, c)
  {
    ConsumedForwardedLog(f, log, encode, wire, unmarshal, decode, parseTime);
  }

  // ---------------------------------------------------------------------
  // Bursts and the two run modes
  // ---------------------------------------------------------------------

  /** generate_pattern_burst(name, count): exactly `count` records (none
      for a negative count); None where the name is unknown (KeyError). */
  function GeneratePatternBurst(name: string, count: int, draws: nat -> PatternDraws): (r: Option<seq<LogRecord>>)
    ensures r.Some? <==> name in CatalogNames
    ensures r.Some? ==> |r.value| == (if count < 0 then 0 else count)
    ensures r.Some? ==>
      (Drawable(LookupPattern(name).value) && r.value == BurstLogs(LookupPattern(name).value, |r.value|, draws))
  {
    LookupDrawable(name);
    match LookupPattern(name)
    case None => None
    case Some(p) => Some(BurstLogs(p, if count < 0 then 0 else count, draws))
  }

  function BurstLogs(p: Pattern, n: nat, draws: nat -> PatternDraws): (logs: seq<LogRecord>)
    requires Drawable(p)
    ensures |logs| == n
  {
    seq(n, i requires 0 <= i < n => GeneratePatternLog(p, draws(i)))
  }

  /** Every record of a burst is a log of the pattern: one of its services
      and one of its keywords. */
  lemma BurstLogsFollowPattern(p: Pattern, n: nat, draws: nat -> PatternDraws, i: nat)
    requires Drawable(p) && i < n
    ensures BurstLogs(p, n, draws)[i] == GeneratePatternLog(p, draws(i))
    ensures BurstLogs(p, n, draws)[i].service in p.services
    ensures Contains(BurstLogs(p, n, draws)[i].message.value, Keyword(p, draws(i).keyword))
  {
  }

  /** A continuous-mode cycle bursts every 10th time. */
  const ForwarderBurstInterval := 10

  /** The size of a continuous-mode burst: threshold + randint(1, 5). */
  function ContinuousBurstSize(p: Pattern, draw: nat): (n: int)
    ensures ThresholdOf(p) + 1 <= n <= ThresholdOf(p) + 5
  {
    ThresholdOf(p) + RandInt(1, 5, draw)
  }

  /** A continuous-mode burst always exceeds its pattern's threshold. */
  lemma ContinuousBurstExceedsThreshold(name: string, draw: nat, draws: nat -> PatternDraws)
    requires name in CatalogNames
    ensures var p := LookupPattern(name).value;
      |GeneratePatternBurst(name, ContinuousBurstSize(p, draw), draws).value| > ThresholdOf(p)
  {
    CatalogThresholds();
  }

  datatype PlannedBurst = PlannedBurst(pattern: string, count: int)

  /** test_all_patterns: every pattern in catalog order, each with
      threshold + 2 records. */
  function TestAllPlan(): (plan: seq<PlannedBurst>)
    ensures |plan| == |Catalog|
    ensures forall i :: 0 <= i < |plan| ==> plan[i].pattern == CatalogNames[i]
    ensures forall i :: 0 <= i < |plan| ==> plan[i].count == ThresholdOf(Catalog[i]) + 2
  {
    seq(|Catalog|, i requires 0 <= i < |Catalog| => PlannedBurst(Catalog[i].name, ThresholdOf(Catalog[i]) + 2))
  }

  /** The plan names each catalog pattern exactly once, and every burst is at
      least three records and two past its threshold. */
  lemma TestAllPlanCoversCatalog()
    ensures forall n :: n in CatalogNames <==> exists i :: 0 <= i < |TestAllPlan()| && TestAllPlan()[i].pattern == n
    ensures forall i, j :: 0 <= i < j < |TestAllPlan()| ==> TestAllPlan()[i].pattern != TestAllPlan()[j].pattern
    ensures forall i :: 0 <= i < |TestAllPlan()| ==> TestAllPlan()[i].count >= 3
  {
    NamesDistinct();
    CatalogThresholds();
    var plan := TestAllPlan();
    forall n | n in CatalogNames
      ensures exists i :: 0 <= i < |plan| && plan[i].pattern == n
    {
      var i :| 0 <= i < |CatalogNames| && CatalogNames[i] == n;
      assert plan[i].pattern == n;
    }
    forall i | 0 <= i < |plan|
      ensures plan[i].count >= 3
    {
      assert Catalog[i] in Catalog;
    }
  }
}

=== FILE: mock_generator.dfy ===
/** The synthetic log generator that writes Kubernetes-shaped JSON records to
    standard output. Each random choice is an explicit draw; the two calls to
    the UTC clock are two timestamp strings among the draws. */
module MockGenerator {
  import opened Common
  import opened Patterns

  // ---------------------------------------------------------------------
  // Records
  // ---------------------------------------------------------------------

  datatype KubernetesRecord = KubernetesRecord(
    namespace: string,
    namespaceName: string,
    pod: string,
    podName: string,
    container: string,
    containerName: string,
    labels: map<string, string>,
    annotations: map<string, string>,
    containerId: string,
    podIp: string,
    podOwner: string)

  /** The `raw` field: a compact JSON object of these four fields. */
  datatype RawRecord = RawRecord(timestamp: string, level: string, message: string, service: string)

  /** One generated record. A base log has neither `message` nor `raw`. */
  datatype LogRecord = LogRecord(
    timestamp: string,
    atTimestamp: string,
    level: string,
    service: string,
    namespace: string,
    host: string,
    hostname: string,
    logSource: string,
    logType: string,
    kubernetes: KubernetesRecord,
    message: Option<string>,
    raw: Option<RawRecord>)

  /** The generator's settings: LOG_MODE, POD_NAMESPACE, NODE_NAME and
      BURST_INTERVAL. Any mode other than "test" behaves as continuous mode. */
  datatype Generator = Generator(mode: string, namespace: string, nodeName: string, burstInterval: int)

  predicate TestMode(g: Generator) { g.mode == "test" }

  // ---------------------------------------------------------------------
  // Base log
  // ---------------------------------------------------------------------

  datatype BaseDraws = BaseDraws(
    timestamp: string,
    atTimestamp: string,
    namespace: nat,
    podNumber: nat,
    podSuffix: nat,
    containerHex: string,
    major: nat, minor: nat, patch: nat,
    revision: nat,
    ip2: nat, ip3: nat, ip4: nat,
    ownerHex: string)

  function Take(s: string, n: nat): string
  {
    if |s| <= n then s else s[..n]
  }

  /** The namespaces a record can land in. */
  function Namespaces(g: Generator): seq<string>
  {
    [g.namespace, "production", "staging", "development"]
  }

  /** The shape every generated record has, whatever its service and level. */
  predicate BaseShape(r: LogRecord, g: Generator, service: string, level: string)
  {
    && r.service == service && r.level == level
    && r.namespace in Namespaces(g)
    && r.kubernetes.namespace == r.namespace && r.kubernetes.namespaceName == r.namespace
    && r.kubernetes.container == service && r.kubernetes.containerName == service
    && r.kubernetes.pod == r.kubernetes.podName && HasPrefix(r.kubernetes.pod, service + "-")
    && r.kubernetes.labels.Keys == {"app", "version", "environment", "component", "generated-by"}
    && r.kubernetes.labels["app"] == service
    && r.kubernetes.labels["environment"] == r.namespace
    && r.kubernetes.labels["component"] == Component(service)
    && r.host == g.nodeName && r.hostname == g.nodeName
    && r.logSource == "application" && r.logType == "structured"
  }

  function GenerateBaseLog(g: Generator, service: string, level: string, d: BaseDraws): (r: LogRecord)
    ensures BaseShape(r, g, service, level)
    ensures r.message.None? && r.raw.None?
    ensures r.timestamp == d.timestamp && r.atTimestamp == d.atTimestamp
  {
    var namespace := Choose(Namespaces(g), d.namespace);
    var podId := service + "-" + IntToString(RandInt(10000, 99999, d.podNumber)) + "-"
      + Choose(["abc", "def", "xyz"], d.podSuffix);
    var version := "v" + IntToString(RandInt(1, 3, d.major)) + "." + IntToString(RandInt(0, 9, d.minor))
      + "." + IntToString(RandInt(0, 9, d.patch));
    var labels := map[
      "app" := service,
      "version" := version,
      "environment" := namespace,
      "component" := Component(service),
      "generated-by" := "mock-log-generator"];
    var annotations := map[
      "deployment.kubernetes.io/revision" := IntToString(RandInt(1, 10, d.revision)),
      "kubectl.kubernetes.io/last-applied-configuration" := "{...}",
      "openshift.io/generated-by" := "OpenShiftNewApp"];
    var podIp := "10." + IntToString(RandInt(128, 255, d.ip2)) + "." + IntToString(RandInt(1, 254, d.ip3))
      + "." + IntToString(RandInt(1, 254, d.ip4));
    assert HasPrefix(podId, service + "-") by {
      assert podId[..|service + "-"|] == service + "-";
    }
    LogRecord(
      d.timestamp, d.atTimestamp, level, service, namespace, g.nodeName, g.nodeName,
      "application", "structured",
      KubernetesRecord(
        namespace, namespace, podId, podId, service, service, labels, annotations,
        "cri-o://" + Take(d.containerHex, 12), podIp,
        "ReplicaSet/" + service + "-" + d.ownerHex),
      None, None)
  }

  // ---------------------------------------------------------------------
  // Pattern logs
  // ---------------------------------------------------------------------

  datatype PatternDraws = PatternDraws(service: nat, level: nat, keyword: nat, number: nat, base: BaseDraws)

  datatype Override = Override(level: string, service: string)

  /** The test-mode table that pins level and service for four patterns. */
  function TestOverride(name: string): Option<Override>
  {
    if name == "high_error_rate" then Some(Override("ERROR", "payment-service"))
    else if name == "high_warn_rate" then Some(Override("WARN", "user-service"))
    else if name == "database_errors" then Some(Override("FATAL", "database-service"))
    else if name == "authentication_failures" then Some(Override("ERROR", "authentication-api"))
    else None
  }

  datatype Selection = Selection(level: string, service: string)

  /** Service and level of a pattern log: drawn from the pattern, then
      replaced by the test-mode override when one applies. */
  function SelectLevelAndService(g: Generator, p: Pattern, d: PatternDraws): (s: Selection)
    requires Drawable(p)
    ensures (!TestMode(g) || TestOverride(p.name).None?) ==>
      (&& s.service in p.services
       && (p.conditions.logLevel.Some? ==> s.level == p.conditions.logLevel.value)
       && (p.conditions.logLevel.None? ==> s.level in DrawnLevels))
    ensures TestMode(g) && TestOverride(p.name).Some? ==>
      s == Selection(TestOverride(p.name).value.level, TestOverride(p.name).value.service)
  {
    var service := Choose(p.services, d.service);
    var level := match p.conditions.logLevel
      case Some(l) => l
      case None => Choose(DrawnLevels, d.level);
    if TestMode(g) && TestOverride(p.name).Some? then
      Selection(TestOverride(p.name).value.level, TestOverride(p.name).value.service)
    else Selection(level, service)
  }

  /** The test-mode message table. */
  function TestTemplates(n: nat): seq<Entry<Template>>
  {
    [ Entry("high_error_rate", Template("Payment service error: ", " - transaction processing failed for user " + Num(1000, 9999, n))),
      Entry("high_warn_rate", Template("User service warning: ", " - memory usage approaching limits")),
      Entry("database_errors", Template("Database fatal error: ", " - connection lost to primary database")),
      Entry("authentication_failures", Template("Authentication API error: ", " - invalid token for user " + Num(1000, 9999, n))),
      Entry("checkout_payment_failed", Template("Checkout process: ", " for order #" + Num(10000, 99999, n))),
      Entry("inventory_stock_unavailable", Template("Inventory alert: ", " for item SKU-" + Num(1000, 9999, n))),
      Entry("email_smtp_failed", Template("Email service: ", " while connecting to mail server")),
      Entry("redis_connection_refused", Template("Redis cache: ", " - unable to establish connection")),
      Entry("message_queue_full", Template("Message queue: ", " - broker capacity exceeded")),
      Entry("timeout_any_service", Template("Service operation: ", " after 30 seconds waiting for response")),
      Entry("slow_query", Template("Database query: ", " detected - execution time 2.5 seconds")),
      Entry("deadlock_detected", Template("Database transaction: ", " between user operations")) ]
  }

  /** The test-mode table has one template per e2e pattern, in e2e order. */
  lemma TestTemplatesCoverE2e(n: nat)
    ensures Keys(TestTemplates(n)) == E2ePatterns
  {
  }

  /** The bespoke message for a pattern, if the mode has one. */
  function MessageTemplate(testMode: bool, name: string, service: string, n: nat): Option<Template>
  {
    Get(if testMode then TestTemplates(n) else ContinuousTemplates(service, n), name)
  }

  /** A template exists exactly for the e2e patterns in test mode and for
      every catalog pattern otherwise. */
  lemma TemplateCoverage(testMode: bool, name: string, service: string, n: nat)
    ensures testMode ==> (MessageTemplate(testMode, name, service, n).Some? <==> name in E2ePatterns)
    ensures !testMode ==> (MessageTemplate(testMode, name, service, n).Some? <==> name in CatalogNames)
  {
    TestTemplatesCoverE2e(n);
    ContinuousTemplatesCoverCatalog(service, n);
  }

  /** The message of a pattern log: the mode's template, or the fallback. */
  function PatternMessage(testMode: bool, name: string, service: string, keyword: string, n: nat): (m: string)
    ensures Contains(m, keyword)
  {
    MessageFrom(MessageTemplate(testMode, name, service, n), keyword)
  }

  /** In test mode the fallback message serves exactly the patterns outside
      the e2e list. */
  lemma TestModeFallback(name: string, service: string, keyword: string, n: nat)
    requires name in CatalogNames && name !in E2ePatterns
    ensures PatternMessage(true, name, service, keyword, n) == "Service log: " + keyword
  {
    TemplateCoverage(true, name, service, n);
  }

  /** `raw` carries exactly the outer timestamp, level, message and service. */
  predicate RawAgrees(r: LogRecord)
  {
    r.message.Some? && r.raw == Some(RawRecord(r.timestamp, r.level, r.message.value, r.service))
  }

  function WithMessage(r: LogRecord, message: string): (w: LogRecord)
    ensures RawAgrees(w)
    ensures w.message == Some(message)
    ensures w.(message := r.message, raw := r.raw) == r
  {
    r.(message := Some(message), raw := Some(RawRecord(r.timestamp, r.level, message, r.service)))
  }

  function GeneratePatternLog(g: Generator, p: Pattern, d: PatternDraws): (r: LogRecord)
    requires Drawable(p)
    ensures var s := SelectLevelAndService(g, p, d);
      BaseShape(r, g, s.service, s.level)
    ensures RawAgrees(r)
    ensures Contains(r.message.value, Keyword(p, d.keyword))
  {
    var s := SelectLevelAndService(g, p, d);
    var base := GenerateBaseLog(g, s.service, s.level, d.base);
    WithMessage(base, PatternMessage(TestMode(g), p.name, s.service, Keyword(p, d.keyword), d.number))
  }

  /** Outside test mode the service comes from the pattern's own list and the
      level from its condition, or from the four drawn levels. */
  lemma ContinuousModeFollowsPattern(g: Generator, p: Pattern, d: PatternDraws)
    requires Drawable(p) && !TestMode(g)
    ensures GeneratePatternLog(g, p, d).service in p.services
    ensures p.conditions.logLevel.Some? ==> GeneratePatternLog(g, p, d).level == p.conditions.logLevel.value
    ensures p.conditions.logLevel.None? ==> GeneratePatternLog(g, p, d).level in DrawnLevels
  {
  }

  /** In test mode the override pins `high_warn_rate` to a service outside its
      own list. */
  lemma TestModeServiceOutsidePattern(g: Generator, d: PatternDraws)
    requires TestMode(g)
    ensures HighWarnRate in Catalog
    ensures GeneratePatternLog(g, HighWarnRate, d).service == "user-service"
    ensures "user-service" !in HighWarnRate.services
  {
    assert Catalog[8] == HighWarnRate;
    var s := SelectLevelAndService(g, HighWarnRate, d);
    assert TestOverride(HighWarnRate.name) == Some(Override("WARN", "user-service"));
    assert s.service == "user-service";
    UserServiceNotInHighWarnRate();
  }

  lemma UserServiceNotInHighWarnRate()
    ensures "user-service" !in HighWarnRate.services
  {
    var u := "user-service";
    assert u[0] == 'u';
    forall t | t in HighWarnRate.services
      ensures t != u
    {
      assert t[0] != 'u';
    }
  }

  /** In test mode `database_errors` is written at FATAL although its
      condition asks for ERROR. */
  lemma TestModeLevelAgainstCondition(g: Generator, d: PatternDraws)
    requires TestMode(g)
    ensures DatabaseErrors in Catalog
    ensures GeneratePatternLog(g, DatabaseErrors, d).level == "FATAL"
    ensures DatabaseErrors.conditions.logLevel == Some("ERROR")
  {
    assert Catalog[2] == DatabaseErrors;
    var s := SelectLevelAndService(g, DatabaseErrors, d);
    assert TestOverride(DatabaseErrors.name) == Some(Override("FATAL", "database-service"));
    assert s.level == "FATAL";
  }

  // ---------------------------------------------------------------------
  // Normal logs
  // ---------------------------------------------------------------------

  datatype NormalDraws = NormalDraws(service: nat, level: nat, message: nat, number: nat, base: BaseDraws)

  /** A log that matches no pattern: a listed service at INFO or DEBUG with
      one of ten routine messages. */
  function GenerateNormalLog(g: Generator, d: NormalDraws): (r: LogRecord)
    ensures r.service in Services && r.level in NormalLevels
    ensures BaseShape(r, g, r.service, r.level)
    ensures RawAgrees(r)
    ensures r.message.value in NormalMessages(r.service, d.number)
  {
    var service := Choose(Services, d.service);
    var level := Choose(NormalLevels, d.level);
    var base := GenerateBaseLog(g, service, level, d.base);
    WithMessage(base, Choose(NormalMessages(service, d.number), d.message))
  }

  // ---------------------------------------------------------------------
  // Bursts
  // ---------------------------------------------------------------------

  /** The number of records in a burst: an explicit count as given; else 2 in
      test mode and threshold + randint(1, 3) otherwise. */
  function BurstSize(g: Generator, p: Pattern, count: Option<int>, draw: nat): (n: int)
    ensures count.Some? ==> n == count.value
    ensures count.None? && TestMode(g) ==> n == 2
    ensures count.None? && !TestMode(g) ==> ThresholdOf(p) + 1 <= n <= ThresholdOf(p) + 3
  {
    match count
    case Some(c) => c
    case None => if TestMode(g) then 2 else ThresholdOf(p) + RandInt(1, 3, draw)
  }

  /** `range(n)` runs max(n, 0) times. */
  function Repetitions(n: int): nat
  {
    if n < 0 then 0 else n
  }

  /** A burst of pattern logs; None where the name is not in the catalog
      (Python raises KeyError). Record i uses draws(i). */
  function GeneratePatternBurst(g: Generator, name: string, count: Option<int>, sizeDraw: nat,
                                draws: nat -> PatternDraws): (r: Option<seq<LogRecord>>)
    ensures r.Some? <==> name in CatalogNames
    ensures r.Some? ==>
      var p := LookupPattern(name).value;
      && Drawable(p)
      && |r.value| == Repetitions(BurstSize(g, p, count, sizeDraw))
      && r.value == BurstLogs(g, p, |r.value|, draws)
  {
    LookupDrawable(name);
    match LookupPattern(name)
    case None => None
    case Some(p) => Some(BurstLogs(g, p, Repetitions(BurstSize(g, p, count, sizeDraw)), draws))
  }

  function BurstLogs(g: Generator, p: Pattern, n: nat, draws: nat -> PatternDraws): (logs: seq<LogRecord>)
    requires Drawable(p)
    ensures |logs| == n
  {
    seq(n, i requires 0 <= i < n => GeneratePatternLog(g, p, draws(i)))
  }

  /** Every record of a burst carries one of the pattern's keywords and a
      `raw` copy of itself. */
  lemma BurstLogsCarryKeywords(g: Generator, p: Pattern, n: nat, draws: nat -> PatternDraws, i: nat)
    requires Drawable(p) && i < n
    ensures BurstLogs(g, p, n, draws)[i] == GeneratePatternLog(g, p, draws(i))
    ensures RawAgrees(BurstLogs(g, p, n, draws)[i])
    ensures Contains(BurstLogs(g, p, n, draws)[i].message.value, Keyword(p, draws(i).keyword))
  {
  }

  /** Every catalog pattern can be burst, and in test mode an automatic
      burst is two records whatever the pattern. */
  lemma TestModeBurstsArePairs(g: Generator, name: string, sizeDraw: nat, draws: nat -> PatternDraws)
    requires TestMode(g) && name in CatalogNames
    ensures GeneratePatternBurst(g, name, None, sizeDraw, draws).Some?
    ensures |GeneratePatternBurst(g, name, None, sizeDraw, draws).value| == 2
  {
  }

  // ---------------------------------------------------------------------
  // One pass over every pattern
  // ---------------------------------------------------------------------

  /** The patterns the end-to-end suite checks, bursted first. */
  const E2ePatterns: seq<string> := [
    "high_error_rate", "high_warn_rate", "database_errors", "authentication_failures",
    "checkout_payment_failed", "inventory_stock_unavailable", "email_smtp_failed",
    "redis_connection_refused", "message_queue_full", "timeout_any_service", "slow_query",
    "deadlock_detected"]

  function KeepKnown(names: seq<string>): (r: seq<string>)
    ensures forall n :: n in r <==> n in names && n in CatalogNames
  {
    if |names| == 0 then []
    else (if names[0] in CatalogNames then [names[0]] else []) + KeepKnown(names[1..])
  }

  /** `remaining` enumerates the set of catalog names outside the e2e list,
      in the (unspecified) iteration order of a Python set. */
  ghost predicate EnumeratesRemaining(remaining: seq<string>)
  {
    && DistinctSeq(remaining)
    && forall n :: n in remaining <==> n in CatalogNames && n !in E2ePatterns
  }

  /** The order in which test mode bursts the patterns: the e2e names first,
      then the rest; every catalog pattern exactly once. */
  function TestAllOrder(remaining: seq<string>): (order: seq<string>)
    requires EnumeratesRemaining(remaining)
    ensures |order| == |E2ePatterns| + |remaining|
    ensures order[..|E2ePatterns|] == E2ePatterns
    ensures DistinctSeq(order)
    ensures forall n :: n in order <==> n in CatalogNames
    ensures |order| == |Catalog| && |remaining| == |Catalog| - |E2ePatterns|
  {
    E2eAllKnown();
    E2eThenRemaining(remaining);
    KeepKnown(E2ePatterns) + remaining
  }

  lemma E2eThenRemaining(remaining: seq<string>)
    requires EnumeratesRemaining(remaining)
    ensures DistinctSeq(E2ePatterns + remaining)
    ensures forall n :: n in E2ePatterns + remaining <==> n in CatalogNames
    ensures |E2ePatterns + remaining| == |Catalog|
  {
    E2eAllKnown();
    var order := E2ePatterns + remaining;
    E2eDistinct();
    DistinctConcat(E2ePatterns, remaining);
    NamesDistinct();
    SameElementsSameLength(order, CatalogNames);
  }

  lemma DistinctConcat(a: seq<string>, b: seq<string>)
    requires DistinctSeq(a) && DistinctSeq(b)
    requires forall n :: n in b ==> n !in a
    ensures DistinctSeq(a + b)
  {
    forall i, j | 0 <= i < j < |a + b|
      ensures (a + b)[i] != (a + b)[j]
    {
      if j >= |a| && i < |a| {
        assert (a + b)[j] == b[j - |a|];
        assert (a + b)[i] in a;
      }
    }
  }

  lemma E2eAllKnown()
    ensures KeepKnown(E2ePatterns) == E2ePatterns
    ensures forall n :: n in E2ePatterns ==> n in CatalogNames
  {
    var ns := CatalogNames;
    assert ns[0] == E2ePatterns[0] && ns[8] == E2ePatterns[1] && ns[2] == E2ePatterns[2];
    assert ns[3] == E2ePatterns[3];
    assert forall k :: 4 <= k < 12 ==> ns[k + 6] == E2ePatterns[k];
    KeepAll(E2ePatterns);
  }

  lemma {:induction false} KeepAll(names: seq<string>)
    requires forall n :: n in names ==> n in CatalogNames
    ensures KeepKnown(names) == names
  {
    if |names| > 0 {
      KeepAll(names[1..]);
    }
  }

  lemma E2eDistinct()
    ensures DistinctSeq(E2ePatterns)
  {
    var keys := seq(|E2ePatterns|, k requires 0 <= k < |E2ePatterns| => NameKey(E2ePatterns[k]));
    assert keys == [15104, 14104, 15100, 23097, 23099, 27105, 17101, 24114, 18109, 19116, 10115, 17100];
    assert forall k :: 0 <= k < |keys| ==> KeyRank(keys[k]) >= 0;
    assert forall k :: 0 <= k < |E2ePatterns| ==> KeyRank(NameKey(E2ePatterns[k])) == KeyRank(keys[k]);
    forall i, j | 0 <= i < j < |E2ePatterns|
      ensures E2ePatterns[i] != E2ePatterns[j]
    {
      assert keys[i] != keys[j];
    }
  }

  /** Two duplicate-free sequences with the same elements have the same length. */
  lemma SameElementsSameLength(a: seq<string>, b: seq<string>)
    requires DistinctSeq(a) && DistinctSeq(b)
    requires forall n :: n in a <==> n in b
    ensures |a| == |b|
  {
    DistinctCard(a);
    DistinctCard(b);
    assert (set n | n in a) == (set n | n in b);
  }

  lemma {:induction false} DistinctCard(s: seq<string>)
    requires DistinctSeq(s)
    ensures |set n | n in s| == |s|
  {
    if |s| > 0 {
      DistinctCard(s[1..]);
      assert (set n | n in s) == {s[0]} + (set n | n in s[1..]);
      assert s[0] !in s[1..];
    }
  }
}

=== FILE: models.dfy ===
/** Log entries, rules and alerts (pkg/models). Go's nil maps are modelled as
    absent keys: looking up a label that is not there gives "". */
module Models {
  import opened Common

  datatype KubernetesInfo = KubernetesInfo(
    namespace: string,        // kept for backward compatibility
    namespaceName: string,    // the field OpenShift actually sends
    pod: string,
    podName: string,
    container: string,
    containerName: string,
    labels: map<string, string>,
    annotations: map<string, string>,
    containerId: string,
    podIp: string,
    podOwner: string)

  /** A structured log entry. `service` is written by the Kafka consumer when it
      lifts fields out of a nested JSON message. */
  datatype LogEntry = LogEntry(
    timestamp: Time,
    atTimestamp: Time,
    level: string,
    message: string,
    kubernetes: KubernetesInfo,
    namespaceName: string,    // top-level namespace field
    host: string,
    hostname: string,
    logSource: string,
    logType: string,
    raw: string,
    service: string)

  const EmptyKubernetes := KubernetesInfo("", "", "", "", "", "", map[], map[], "", "", "")

  /** The zero LogEntry of Go: every string empty, zero time. */
  const EmptyEntry := LogEntry(0, 0, "", "", EmptyKubernetes, "", "", "", "", "", "", "")

  /** Map lookup that yields "" for a missing key, as Go does on a nil or sparse map. */
  function Lookup(m: map<string, string>, key: string): (v: string)
    ensures key !in m ==> v == ""
    ensures key in m ==> v == m[key]
  {
    if key in m then m[key] else ""
  }

  /** The namespace of an entry: the first non-empty of the top-level
      namespace_name, kubernetes.namespace_name and kubernetes.namespace. */
  function GetNamespace(le: LogEntry): (ns: string)
    ensures ns in {le.namespaceName, le.kubernetes.namespaceName, le.kubernetes.namespace}
    ensures ns == "" <==>
      le.namespaceName == "" && le.kubernetes.namespaceName == "" && le.kubernetes.namespace == ""
    ensures le.namespaceName != "" ==> ns == le.namespaceName
    ensures ns != le.namespaceName ==> (le.namespaceName == "" &&
      (le.kubernetes.namespaceName != "" ==> ns == le.kubernetes.namespaceName))
  {
    if le.namespaceName != "" then le.namespaceName
    else if le.kubernetes.namespaceName != "" then le.kubernetes.namespaceName
    else le.kubernetes.namespace
  }

  /** pod_name if present, otherwise the legacy pod field. */
  function GetPodName(le: LogEntry): (p: string)
    ensures p in {le.kubernetes.podName, le.kubernetes.pod}
    ensures p == "" <==> le.kubernetes.podName == "" && le.kubernetes.pod == ""
    ensures le.kubernetes.podName != "" ==> p == le.kubernetes.podName
  {
    if le.kubernetes.podName != "" then le.kubernetes.podName else le.kubernetes.pod
  }

  /** container_name if present, otherwise the legacy container field. */
  function GetContainerName(le: LogEntry): (c: string)
    ensures c in {le.kubernetes.containerName, le.kubernetes.container}
    ensures c == "" <==> le.kubernetes.containerName == "" && le.kubernetes.container == ""
    ensures le.kubernetes.containerName != "" ==> c == le.kubernetes.containerName
  {
    if le.kubernetes.containerName != "" then le.kubernetes.containerName else le.kubernetes.container
  }

  /** Conditions of a rule. Threshold is Go's int and the window a time.Duration,
      both 64-bit. An empty string field means "any". */
  datatype AlertConditions = AlertConditions(
    logLevel: string,
    namespace: string,
    service: string,
    keywords: seq<string>,
    threshold: Int64,
    timeWindow: Int64,
    operator: string)

  datatype AlertActions = AlertActions(slackWebhook: string, channel: string, severity: string)

  datatype AlertRule = AlertRule(
    id: string,
    name: string,
    description: string,
    enabled: bool,
    conditions: AlertConditions,
    actions: AlertActions,
    createdAt: Time,
    updatedAt: Time)

  /** A triggered alert; `status` moves from "pending" to "sent" or "failed". */
  datatype Alert = Alert(
    id: string,
    ruleId: string,
    ruleName: string,
    logEntry: LogEntry,
    timestamp: Time,
    severity: string,
    status: string,
    message: string,
    count: int)

  datatype AlertStatus = AlertStatus(ruleId: string, lastTrigger: Time, count: int, status: string)

  /** Processing statistics; `None` stands for a nil Go map. */
  datatype LogStats = LogStats(
    totalLogs: int,
    logsByLevel: Option<map<string, int>>,
    logsByService: Option<map<string, int>>,
    lastUpdated: Time)

  datatype TimeWindow = TimeWindow(start: Time, end: Time, count: int)
}

=== FILE: notifications.dfy ===
/** Notification formatting (internal/notifications/interfaces.go and
    internal/notifications/slack.go): severity emoji and colour lookup,
    Slack message escaping, configuration checks and alert summaries.
    HTTP delivery and template rendering are not modelled: delivery is a
    boolean outcome supplied by the caller. */
module Notifications {
  import opened Common
  import opened Models
  import Engine

  // ---------------------------------------------------------------------
  // Global configuration (interfaces.go)
  // ---------------------------------------------------------------------

  /** `None` stands for a nil Go map. */
  datatype NotificationGlobalConfig = NotificationGlobalConfig(
    severityEmojis: Option<map<string, string>>,
    severityColors: Option<map<string, string>>)

  /** The package-level variable; it starts as the zero value (nil maps). */
  datatype GlobalState = GlobalState(config: NotificationGlobalConfig)

  const InitialGlobalState := GlobalState(NotificationGlobalConfig(None, None))

  function SetGlobalNotificationConfig(st: GlobalState, config: NotificationGlobalConfig): (st': GlobalState)
    ensures GetGlobalNotificationConfig(st') == config
  {
    GlobalState(config)
  }

  /** Reads the configuration back; before any set it is the zero value. */
  function GetGlobalNotificationConfig(st: GlobalState): (c: NotificationGlobalConfig)
    ensures GlobalState(c) == st
    ensures st == InitialGlobalState ==> c.severityEmojis.None? && c.severityColors.None?
  {
    st.config
  }

  /** Setting the configuration just read back changes nothing. */
  lemma SetWhatWasGot(st: GlobalState)
    ensures SetGlobalNotificationConfig(st, GetGlobalNotificationConfig(st)) == st
  {
  }

  /** The last configuration set wins. */
  lemma LastSetWins(st: GlobalState, c1: NotificationGlobalConfig, c2: NotificationGlobalConfig)
    ensures GetGlobalNotificationConfig(SetGlobalNotificationConfig(SetGlobalNotificationConfig(st, c1), c2)) == c2
  {
  }

  datatype NotificationConfig = NotificationConfig(
    enabled: bool,
    maxRetries: int,
    retryDelay: Duration,
    timeout: Duration,
    rateLimitPerMin: int,
    batchSize: int,
    batchDelay: Duration,
    enableDeduplication: bool,
    deduplicationWindow: Duration)

  /** Defaults: three retries 5s apart, a 30s timeout, 60 messages a minute,
      batches of 10 sent 1s apart, deduplication over 5 minutes. */
  function DefaultNotificationConfig(): (c: NotificationConfig)
    ensures c.enabled && c.enableDeduplication
    ensures c.maxRetries == 3 && c.retryDelay == 5 * Second && c.timeout == 30 * Second
    ensures c.rateLimitPerMin == 60 && c.batchSize == 10 && c.batchDelay == Second
    ensures c.deduplicationWindow == 5 * Minute
  {
    NotificationConfig(true, 3, 5 * Second, 30 * Second, 60, 10, 1 * Second, true, 5 * Minute)
  }

  const RedCircle := "\U{1F534}"
  const OrangeCircle := "\U{1F7E0}"
  const YellowCircle := "\U{1F7E1}"
  const GreenCircle := "\U{1F7E2}"
  const WhiteCircle := "\U{26AA}"
  const Gray := "#808080"

  const DefaultEmojiTable: map<string, string> :=
    map["critical" := RedCircle, "high" := OrangeCircle, "medium" := YellowCircle,
        "low" := GreenCircle, "default" := WhiteCircle]

  const DefaultColorTable: map<string, string> :=
    map["critical" := "#ff0000", "high" := "#ff8000", "medium" := "#ffff00",
        "low" := "#00ff00", "default" := Gray]

  function DefaultGlobalNotificationConfig(): (c: NotificationGlobalConfig)
    ensures c.severityEmojis == Some(DefaultEmojiTable) && c.severityColors == Some(DefaultColorTable)
  {
    NotificationGlobalConfig(Some(DefaultEmojiTable), Some(DefaultColorTable))
  }

  /** The lookup chain shared by every severity table: the key itself, then
      "default", then a fixed fallback. */
  function SeverityLookup(table: map<string, string>, severity: string, fallback: string): (v: string)
    ensures severity in table ==> v == table[severity]
    ensures severity !in table && "default" in table ==> v == table["default"]
    ensures severity !in table && "default" !in table ==> v == fallback
    ensures v in table.Values || v == fallback
  {
    if severity in table then table[severity]
    else if "default" in table then table["default"]
    else fallback
  }

  /** GetSeverityEmoji: a nil global table is replaced by the built-in one. */
  function GetSeverityEmoji(st: GlobalState, severity: string): (e: string)
    ensures st.config.severityEmojis.None? ==> e == SeverityLookup(DefaultEmojiTable, severity, WhiteCircle)
    ensures st.config.severityEmojis.Some? ==> e == SeverityLookup(st.config.severityEmojis.value, severity, WhiteCircle)
  {
    var config := if st.config.severityEmojis.None? then DefaultGlobalNotificationConfig() else st.config;
    SeverityLookup(config.severityEmojis.value, severity, WhiteCircle)
  }

  /** GetSeverityColor: a nil global table is replaced by the built-in one. */
  function GetSeverityColor(st: GlobalState, severity: string): (c: string)
    ensures st.config.severityColors.None? ==> c == SeverityLookup(DefaultColorTable, severity, Gray)
    ensures st.config.severityColors.Some? ==> c == SeverityLookup(st.config.severityColors.value, severity, Gray)
  {
    var config := if st.config.severityColors.None? then DefaultGlobalNotificationConfig() else st.config;
    SeverityLookup(config.severityColors.value, severity, Gray)
  }

  predicate KnownSeverity(severity: string)
  {
    severity in {"critical", "high", "medium", "low"}
  }

  /** Before anything is set, the four known severities get their own emoji
      and colour and every other severity, "" included, gets the defaults. */
  lemma BuiltinTablesFallBack(severity: string)
    ensures !KnownSeverity(severity) && severity != "default" ==>
      GetSeverityEmoji(InitialGlobalState, severity) == WhiteCircle
      && GetSeverityColor(InitialGlobalState, severity) == Gray
    ensures severity == "critical" ==>
      GetSeverityEmoji(InitialGlobalState, severity) == RedCircle
      && GetSeverityColor(InitialGlobalState, severity) == "#ff0000"
    ensures severity == "low" ==>
      GetSeverityEmoji(InitialGlobalState, severity) == GreenCircle
      && GetSeverityColor(InitialGlobalState, severity) == "#00ff00"
  {
  }

  /** A configured table without "default" falls back to the fixed values. */
  lemma MissingDefaultFallsBack(st: GlobalState, severity: string)
    requires st.config.severityEmojis.Some? && st.config.severityColors.Some?
    requires severity !in st.config.severityEmojis.value && "default" !in st.config.severityEmojis.value
    requires severity !in st.config.severityColors.value && "default" !in st.config.severityColors.value
    ensures GetSeverityEmoji(st, severity) == WhiteCircle && GetSeverityColor(st, severity) == Gray
  {
  }

  // ---------------------------------------------------------------------
  // Slack notifier configuration (slack.go)
  // ---------------------------------------------------------------------

  /** Templates are not modelled; a nil map is an empty one (Go reads both alike). */
  datatype SlackConfig = SlackConfig(
    webhookURL: string,
    channel: string,
    username: string,
    iconEmoji: string,
    timeout: Duration,
    enabled: bool,
    severityEmojis: map<string, string>,
    severityColors: map<string, string>)

  datatype SlackField = SlackField(title: string, value: string, short: bool)

  datatype SlackAttachment = SlackAttachment(
    color: string,
    title: string,
    text: string,
    fields: seq<SlackField>,
    timestamp: int,
    footer: string,
    footerIcon: string)

  datatype SlackMessage = SlackMessage(
    channel: string,
    username: string,
    iconEmoji: string,
    text: string,
    attachments: seq<SlackAttachment>)

  const EmptySlackMessage := SlackMessage("", "", "", "", [])

  /** IsEnabled: switched on and with a webhook to post to. */
  function IsEnabled(config: SlackConfig): (b: bool)
    ensures b ==> config.enabled && |config.webhookURL| > 0
    ensures config.enabled && |config.webhookURL| > 0 ==> b
  {
    config.enabled && config.webhookURL != ""
  }

  datatype SendError = NotifierDisabled | WebhookNotConfigured | DeliveryFailed

  /** SendAlert's checks come before any message is built; `delivered` is the
      outcome of the HTTP POST. */
  function SendAlert(config: SlackConfig, alert: Alert, delivered: bool): (r: Result<(), SendError>)
    ensures r == Err(NotifierDisabled) <==> !config.enabled
    ensures r == Err(WebhookNotConfigured) <==> config.enabled && config.webhookURL == ""
    ensures r.Ok? <==> IsEnabled(config) && delivered
  {
    if !config.enabled then Err(NotifierDisabled)
    else if config.webhookURL == "" then Err(WebhookNotConfigured)
    else if delivered then Ok(())
    else Err(DeliveryFailed)
  }

  /** A notifier that is not enabled never sends, whatever the transport does. */
  lemma DisabledNeverSends(config: SlackConfig, alert: Alert, delivered: bool)
    requires !IsEnabled(config)
    ensures SendAlert(config, alert, delivered).Err?
    ensures SendAlert(config, alert, delivered).error != DeliveryFailed
  {
  }

  // ---------------------------------------------------------------------
  // Severity emoji of the notifier: the source literals are mis-encoded
  // ---------------------------------------------------------------------

  type Byte = b: int | 0 <= b < 256

  /** UTF-8 encoding of one code point. */
  function Utf8(c: char): (bs: seq<Byte>)
    ensures 1 <= |bs| <= 4
  {
    var cp := c as int;
    if cp < 0x80 then [cp]
    else if cp < 0x800 then [0xC0 + cp / 64, 0x80 + cp % 64]
    else if cp < 0x10000 then [0xE0 + cp / 4096, 0x80 + (cp / 64) % 64, 0x80 + cp % 64]
    else [0xF0 + cp / 262144, 0x80 + (cp / 4096) % 64, 0x80 + (cp / 64) % 64, 0x80 + cp % 64]
  }

  function Utf8String(s: string): seq<Byte>
  {
    if |s| == 0 then [] else Utf8(s[0]) + Utf8String(s[1..])
  }

  /** Windows-1252: bytes 0x80-0x9F have their own characters (five are
      unassigned), every other byte is the Latin-1 code point of its value. */
  function Cp1252(b: Byte): Option<char>
  {
    if b < 0x80 || b >= 0xA0 then Some(b as char)
    else match b
      case 0x80 => Some('\U{20AC}') case 0x82 => Some('\U{201A}') case 0x83 => Some('\U{0192}')
      case 0x84 => Some('\U{201E}') case 0x85 => Some('\U{2026}') case 0x86 => Some('\U{2020}')
      case 0x87 => Some('\U{2021}') case 0x88 => Some('\U{02C6}') case 0x89 => Some('\U{2030}')
      case 0x8A => Some('\U{0160}') case 0x8B => Some('\U{2039}') case 0x8C => Some('\U{0152}')
      case 0x8E => Some('\U{017D}') case 0x91 => Some('\U{2018}') case 0x92 => Some('\U{2019}')
      case 0x93 => Some('\U{201C}') case 0x94 => Some('\U{201D}') case 0x95 => Some('\U{2022}')
      case 0x96 => Some('\U{2013}') case 0x97 => Some('\U{2014}') case 0x98 => Some('\U{02DC}')
      case 0x99 => Some('\U{2122}') case 0x9A => Some('\U{0161}') case 0x9B => Some('\U{203A}')
      case 0x9C => Some('\U{0153}') case 0x9E => Some('\U{017E}') case 0x9F => Some('\U{0178}')
      case _ => None
  }

  /** Reading bytes as Windows-1252 text; an unassigned byte spoils the result. */
  function Cp1252String(bs: seq<Byte>): Option<string>
  {
    if |bs| == 0 then Some("")
    else
      var c := Cp1252(bs[0]);
      var rest := Cp1252String(bs[1..]);
      if c.Some? && rest.Some? then Some([c.value] + rest.value) else None
  }

  /** The UTF-8 bytes of `s` shown as Windows-1252 text ("mojibake"). */
  function Misdecoded(s: string): Option<string>
  {
    Cp1252String(Utf8String(s))
  }

  // The notifier's literals, character for character as they appear in slack.go.
  const SlackRedCircle := "\U{F0}\U{178}\U{201D}\U{B4}"
  const SlackOrangeCircle := "\U{F0}\U{178}\U{178}\U{A0}"
  const SlackYellowCircle := "\U{F0}\U{178}\U{178}\U{A1}"
  const SlackGreenCircle := "\U{F0}\U{178}\U{178}\U{A2}"
  const SlackWhiteCircle := "\U{E2}\U{161}\U{AA}"

  /** DefaultSeverityEmojis as written. */
  const SlackDefaultEmojiTableAsWritten: map<string, string> :=
    map["critical" := SlackRedCircle, "high" := SlackOrangeCircle, "medium" := SlackYellowCircle,
        "low" := SlackGreenCircle, "default" := SlackWhiteCircle]

  /** getSeverityEmoji as written: its last resort is the mis-encoded circle. */
  function NotifierSeverityEmojiAsWritten(config: SlackConfig, severity: string): (e: string)
    ensures severity !in config.severityEmojis && "default" !in config.severityEmojis ==> e == SlackWhiteCircle
    ensures e in config.severityEmojis.Values || e == SlackWhiteCircle
  {
    SeverityLookup(config.severityEmojis, severity, SlackWhiteCircle)
  }

  /** Each of slack.go's emoji literals is the UTF-8 encoding of the emoji
      interfaces.go uses, read back as Windows-1252: it is several characters
      and never the intended emoji. */
  lemma SlackEmojisAreMisdecoded()
    ensures Misdecoded(WhiteCircle) == Some(SlackWhiteCircle) && SlackWhiteCircle != WhiteCircle
    ensures Misdecoded(RedCircle) == Some(SlackRedCircle) && SlackRedCircle != RedCircle
    ensures Misdecoded(OrangeCircle) == Some(SlackOrangeCircle)
    ensures Misdecoded(YellowCircle) == Some(SlackYellowCircle)
    ensures Misdecoded(GreenCircle) == Some(SlackGreenCircle)
  {
    WhiteMisdecoded();
    RedMisdecoded();
    OrangeMisdecoded();
    YellowMisdecoded();
    GreenMisdecoded();
  }

  lemma WhiteMisdecoded()
    ensures Misdecoded(WhiteCircle) == Some(SlackWhiteCircle) && SlackWhiteCircle != WhiteCircle
  {
    assert Utf8String(WhiteCircle) == [0xE2, 0x9A, 0xAA];
    Decode3(0xE2, 0x9A, 0xAA);
  }

  lemma RedMisdecoded()
    ensures Misdecoded(RedCircle) == Some(SlackRedCircle) && SlackRedCircle != RedCircle
  {
    assert Utf8String(RedCircle) == [0xF0, 0x9F, 0x94, 0xB4];
    Decode4(0xF0, 0x9F, 0x94, 0xB4);
  }

  lemma OrangeMisdecoded()
    ensures Misdecoded(OrangeCircle) == Some(SlackOrangeCircle)
  {
    assert Utf8String(OrangeCircle) == [0xF0, 0x9F, 0x9F, 0xA0];
    Decode4(0xF0, 0x9F, 0x9F, 0xA0);
  }

  lemma YellowMisdecoded()
    ensures Misdecoded(YellowCircle) == Some(SlackYellowCircle)
  {
    assert Utf8String(YellowCircle) == [0xF0, 0x9F, 0x9F, 0xA1];
    Decode4(0xF0, 0x9F, 0x9F, 0xA1);
  }

  lemma GreenMisdecoded()
    ensures Misdecoded(GreenCircle) == Some(SlackGreenCircle)
  {
    assert Utf8String(GreenCircle) == [0xF0, 0x9F, 0x9F, 0xA2];
    Decode4(0xF0, 0x9F, 0x9F, 0xA2);
  }

  lemma Cp1252Cons(x: Byte, rest: seq<Byte>)
    requires Cp1252(x).Some? && Cp1252String(rest).Some?
    ensures Cp1252String([x] + rest) == Some([Cp1252(x).value] + Cp1252String(rest).value)
  {
    assert ([x] + rest)[0] == x;
    assert ([x] + rest)[1..] == rest;
  }

  lemma Decode3(a: Byte, b: Byte, c: Byte)
    requires Cp1252(a).Some? && Cp1252(b).Some? && Cp1252(c).Some?
    ensures Cp1252String([a, b, c]) == Some([Cp1252(a).value, Cp1252(b).value, Cp1252(c).value])
  {
    var e: seq<Byte> := [];
    var ca, cb, cc := Cp1252(a).value, Cp1252(b).value, Cp1252(c).value;
    assert Cp1252String(e) == Some("");
    Cp1252Cons(c, e);
    assert [c] + e == [c];
    assert [cc] + "" == [cc];
    assert Cp1252String([c]) == Some([cc]);
    Cp1252Cons(b, [c]);
    assert [b] + [c] == [b, c];
    assert [cb] + [cc] == [cb, cc];
    assert Cp1252String([b, c]) == Some([cb, cc]);
    Cp1252Cons(a, [b, c]);
    assert [a] + [b, c] == [a, b, c];
    assert [ca] + [cb, cc] == [ca, cb, cc];
  }

  lemma Decode4(a: Byte, b: Byte, c: Byte, d: Byte)
    requires Cp1252(a).Some? && Cp1252(b).Some? && Cp1252(c).Some? && Cp1252(d).Some?
    ensures Cp1252String([a, b, c, d]) == Some([Cp1252(a).value, Cp1252(b).value, Cp1252(c).value, Cp1252(d).value])
  {
    Decode3(b, c, d);
    Cp1252Cons(a, [b, c, d]);
    assert [a] + [b, c, d] == [a, b, c, d];
    var ca, cb, cc, cd := Cp1252(a).value, Cp1252(b).value, Cp1252(c).value, Cp1252(d).value;
    assert [ca] + [cb, cc, cd] == [ca, cb, cc, cd];
  }

  /** The notifier's fallback disagrees with the package-level lookup: for a
      severity neither table knows, the two answer different glyphs. */
  lemma NotifierFallbackDisagreesWithGlobal(config: SlackConfig, severity: string)
    requires config.severityEmojis == map[]
    requires severity == "unknown"
    ensures NotifierSeverityEmojiAsWritten(config, severity) != GetSeverityEmoji(GlobalState(NotificationGlobalConfig(Some(map[]), None)), severity)
  {
  }

  /** DefaultSeverityEmojis as intended: the emoji of the global table. */
  function DefaultSeverityEmojis(): (t: map<string, string>)
    ensures t == DefaultEmojiTable
    ensures forall k :: k in SlackDefaultEmojiTableAsWritten ==> k in t && Misdecoded(t[k]) == Some(SlackDefaultEmojiTableAsWritten[k])
  {
    SlackEmojisAreMisdecoded();
    DefaultEmojiTable
  }

  function DefaultSeverityColors(): (t: map<string, string>)
    ensures t == DefaultColorTable
  {
    DefaultColorTable
  }

  /** getSeverityEmoji as intended: the same chain, ending in the real white circle. */
  function NotifierSeverityEmoji(config: SlackConfig, severity: string): (e: string)
    ensures e in config.severityEmojis.Values || e == WhiteCircle
  {
    SeverityLookup(config.severityEmojis, severity, WhiteCircle)
  }

  /** The lookup as written and the corrected one differ only in the last
      resort: whenever the table answers, they agree. */
  lemma AsWrittenAgreesWhenTableAnswers(config: SlackConfig, severity: string)
    ensures severity in config.severityEmojis || "default" in config.severityEmojis <==>
      NotifierSeverityEmojiAsWritten(config, severity) == NotifierSeverityEmoji(config, severity)
  {
    if severity !in config.severityEmojis && "default" !in config.severityEmojis {
      assert SlackWhiteCircle[0] != WhiteCircle[0];
    }
  }

  /** Corrected, the notifier's lookup agrees with the package-level one
      whenever both consult the same table, on every severity. */
  lemma NotifierEmojiAgreesWithGlobal(config: SlackConfig, st: GlobalState, severity: string)
    requires st.config.severityEmojis == Some(config.severityEmojis)
    ensures NotifierSeverityEmoji(config, severity) == GetSeverityEmoji(st, severity)
  {
  }

  /** With the default tables, the notifier's emoji is the global default emoji. */
  lemma DefaultNotifierMatchesGlobalDefaults(config: SlackConfig, severity: string)
    requires config.severityEmojis == DefaultSeverityEmojis()
    ensures NotifierSeverityEmoji(config, severity) == GetSeverityEmoji(InitialGlobalState, severity)
  {
  }

  /** getSeverityColor: the key, then "default", then gray. */
  function NotifierSeverityColor(config: SlackConfig, severity: string): (c: string)
    ensures c in config.severityColors.Values || c == Gray
  {
    SeverityLookup(config.severityColors, severity, Gray)
  }

  lemma NotifierColorAgreesWithGlobal(config: SlackConfig, st: GlobalState, severity: string)
    requires st.config.severityColors == Some(config.severityColors)
    ensures NotifierSeverityColor(config, severity) == GetSeverityColor(st, severity)
  {
  }

  // ---------------------------------------------------------------------
  // Log message formatting (byte level: Go's len and slicing count bytes)
  // ---------------------------------------------------------------------

  const Amp: Byte := 38
  const Lt: Byte := 60
  const Gt: Byte := 62
  const AmpEntity: seq<Byte> := [38, 97, 109, 112, 59]   // "&amp;"
  const LtEntity: seq<Byte> := [38, 108, 116, 59]        // "&lt;"
  const GtEntity: seq<Byte> := [38, 103, 116, 59]        // "&gt;"
  const Fence: seq<Byte> := [96, 96, 96]                 // "```"
  const Ellipsis: seq<Byte> := [46, 46, 46]              // "..."
  const MaxPlainLength := 500

  /** strings.ReplaceAll of one byte. */
  function ReplaceAll(s: seq<Byte>, b: Byte, rep: seq<Byte>): (r: seq<Byte>)
    ensures b !in s ==> r == s
  {
    if |s| == 0 then []
    else (if s[0] == b then rep else [s[0]]) + ReplaceAll(s[1..], b, rep)
  }

  lemma {:induction false} ReplaceAllAppend(s: seq<Byte>, t: seq<Byte>, b: Byte, rep: seq<Byte>)
    ensures ReplaceAll(s + t, b, rep) == ReplaceAll(s, b, rep) + ReplaceAll(t, b, rep)
    decreases |s|
  {
    if |s| == 0 {
      assert s + t == t;
    } else {
      assert (s + t)[1..] == s[1..] + t;
      ReplaceAllAppend(s[1..], t, b, rep);
    }
  }

  function EscapeByte(b: Byte): seq<Byte>
  {
    if b == Amp then AmpEntity else if b == Lt then LtEntity else if b == Gt then GtEntity else [b]
  }

  /** Reference definition of Slack escaping: each byte on its own. */
  function Escape(m: seq<Byte>): (e: seq<Byte>)
    ensures Lt !in e && Gt !in e
    ensures |e| >= |m|
  {
    if |m| == 0 then [] else EscapeByte(m[0]) + Escape(m[1..])
  }

  /** The three ReplaceAll passes of formatLogMessage, "&" first. */
  function EscapeInThreePasses(m: seq<Byte>): seq<Byte>
  {
    ReplaceAll(ReplaceAll(ReplaceAll(m, Amp, AmpEntity), Lt, LtEntity), Gt, GtEntity)
  }

  /** Because "&" is replaced first, the passes never re-escape an entity:
      together they are exactly the byte-wise escaping. */
  lemma {:induction false} ThreePassesEscape(m: seq<Byte>)
    ensures EscapeInThreePasses(m) == Escape(m)
    decreases |m|
  {
    if |m| > 0 {
      assert m == [m[0]] + m[1..];
      ThreePassesAppend([m[0]], m[1..]);
      ThreePassesByte(m[0]);
      ThreePassesEscape(m[1..]);
    }
  }

  /** Each pass distributes over concatenation, so all three do. */
  lemma ThreePassesAppend(s: seq<Byte>, t: seq<Byte>)
    ensures EscapeInThreePasses(s + t) == EscapeInThreePasses(s) + EscapeInThreePasses(t)
  {
    ReplaceAllAppend(s, t, Amp, AmpEntity);
    var a1, a2 := ReplaceAll(s, Amp, AmpEntity), ReplaceAll(t, Amp, AmpEntity);
    ReplaceAllAppend(a1, a2, Lt, LtEntity);
    ReplaceAllAppend(ReplaceAll(a1, Lt, LtEntity), ReplaceAll(a2, Lt, LtEntity), Gt, GtEntity);
  }

  /** On a single byte the three passes agree with EscapeByte. */
  lemma ThreePassesByte(b: Byte)
    ensures EscapeInThreePasses([b]) == EscapeByte(b)
  {
    var x := [b];
    assert ReplaceAll(x, Amp, AmpEntity) == (if b == Amp then AmpEntity else x);
    assert ReplaceAll(ReplaceAll(x, Amp, AmpEntity), Lt, LtEntity) == (if b == Lt then LtEntity else if b == Amp then AmpEntity else x);
  }

  /** Undoing the escaping: each entity back to its byte. */
  function Unescape(e: seq<Byte>): seq<Byte>
    decreases |e|
  {
    if |e| == 0 then []
    else if HasPrefix(e, AmpEntity) then [Amp] + Unescape(e[|AmpEntity|..])
    else if HasPrefix(e, LtEntity) then [Lt] + Unescape(e[|LtEntity|..])
    else if HasPrefix(e, GtEntity) then [Gt] + Unescape(e[|GtEntity|..])
    else [e[0]] + Unescape(e[1..])
  }

  /** Escaping loses nothing. */
  lemma {:induction false} UnescapeEscape(m: seq<Byte>)
    ensures Unescape(Escape(m)) == m
    decreases |m|
  {
    if |m| > 0 {
      UnescapeStep(m[0], Escape(m[1..]));
      UnescapeEscape(m[1..]);
      assert m == [m[0]] + m[1..];
    }
  }

  /** Unescaping consumes exactly one escaped byte at the front. */
  lemma UnescapeStep(b: Byte, tail: seq<Byte>)
    ensures Unescape(EscapeByte(b) + tail) == [b] + Unescape(tail)
  {
    if b == Amp {
      UnescapeAmp(tail);
    } else if b == Lt {
      UnescapeLt(tail);
    } else if b == Gt {
      UnescapeGt(tail);
    } else {
      UnescapePlain(b, tail);
    }
  }

  lemma UnescapeAmp(tail: seq<Byte>)
    ensures Unescape(AmpEntity + tail) == [Amp] + Unescape(tail)
  {
    var e := AmpEntity + tail;
    assert e[..|AmpEntity|] == AmpEntity;
    assert e[|AmpEntity|..] == tail;
  }

  lemma UnescapeLt(tail: seq<Byte>)
    ensures Unescape(LtEntity + tail) == [Lt] + Unescape(tail)
  {
    var e := LtEntity + tail;
    assert e[1] == 108;
    assert !HasPrefix(e, AmpEntity);
    assert e[..|LtEntity|] == LtEntity;
    assert e[|LtEntity|..] == tail;
  }

  lemma UnescapeGt(tail: seq<Byte>)
    ensures Unescape(GtEntity + tail) == [Gt] + Unescape(tail)
  {
    var e := GtEntity + tail;
    assert e[1] == 103;
    assert !HasPrefix(e, AmpEntity) && !HasPrefix(e, LtEntity);
    assert e[..|GtEntity|] == GtEntity;
    assert e[|GtEntity|..] == tail;
  }

  lemma UnescapePlain(b: Byte, tail: seq<Byte>)
    requires b != Amp
    ensures Unescape([b] + tail) == [b] + Unescape(tail)
  {
    var e := [b] + tail;
    assert e[0] == b;
    assert !HasPrefix(e, AmpEntity) && !HasPrefix(e, LtEntity) && !HasPrefix(e, GtEntity);
    assert e[1..] == tail;
  }

  /** formatLogMessage: a message over 500 bytes is cut to its first 500
      bytes plus "..." without escaping or fencing; a shorter one is escaped
      and put in a code block. */
  function FormatLogMessage(m: seq<Byte>): (r: seq<Byte>)
    ensures |m| > MaxPlainLength ==> r == m[..MaxPlainLength] + Ellipsis
    ensures |m| <= MaxPlainLength ==> r == Fence + Escape(m) + Fence
  {
    if |m| > MaxPlainLength then m[..MaxPlainLength] + Ellipsis
    else
      ThreePassesEscape(m);
      Fence + EscapeInThreePasses(m) + Fence
  }

  /** For a short message the fenced body holds no angle bracket and
      unescapes to the message. */
  lemma FormatLogMessageRoundTrip(m: seq<Byte>)
    requires |m| <= MaxPlainLength
    ensures var r := FormatLogMessage(m);
      var body := r[|Fence|..|r| - |Fence|];
      && Lt !in body && Gt !in body && Unescape(body) == m
  {
    var r := FormatLogMessage(m);
    assert r[|Fence|..|r| - |Fence|] == Escape(m);
    UnescapeEscape(m);
  }

  /** The long form keeps exactly 503 bytes. */
  lemma LongMessageLength(m: seq<Byte>)
    requires |m| > MaxPlainLength
    ensures |FormatLogMessage(m)| == MaxPlainLength + 3
  {
  }

  // ---------------------------------------------------------------------
  // Service name, configuration checks, custom messages
  // ---------------------------------------------------------------------

  /** The notifier's getServiceName: the same chain as the engine's. */
  function ServiceName(le: LogEntry): (name: string)
    ensures name == Engine.GetServiceName(le)
  {
    if "app" in le.kubernetes.labels then le.kubernetes.labels["app"]
    else if "service" in le.kubernetes.labels then le.kubernetes.labels["service"]
    else "unknown"
  }

  const SlackHookPrefix := "https://hooks.slack.com/"

  datatype ConfigError = WebhookRequired | InvalidWebhookFormat | ChannelRequired | InvalidChannelFormat

  predicate ConfigValid(config: SlackConfig)
  {
    && HasPrefix(config.webhookURL, SlackHookPrefix)
    && |config.channel| > 0 && (config.channel[0] == '#' || config.channel[0] == '@')
  }

  /** ValidateConfig reports the first failing check: URL present, URL on
      hooks.slack.com, channel present, channel starting with '#' or '@'. */
  function ValidateConfig(config: SlackConfig): (err: Option<ConfigError>)
    ensures err.None? <==> ConfigValid(config)
    ensures err == Some(WebhookRequired) <==> config.webhookURL == ""
    ensures err == Some(InvalidWebhookFormat) <==> config.webhookURL != "" && !HasPrefix(config.webhookURL, SlackHookPrefix)
    ensures err == Some(ChannelRequired) <==> HasPrefix(config.webhookURL, SlackHookPrefix) && config.channel == ""
  {
    if config.webhookURL == "" then Some(WebhookRequired)
    else if !HasPrefix(config.webhookURL, SlackHookPrefix) then Some(InvalidWebhookFormat)
    else if config.channel == "" then Some(ChannelRequired)
    else if !HasPrefix(config.channel, "#") && !HasPrefix(config.channel, "@") then Some(InvalidChannelFormat)
    else None
  }

  /** A valid configuration is an enabled-able one: it has a webhook. */
  lemma ValidConfigHasWebhook(config: SlackConfig)
    requires ValidateConfig(config).None? && config.enabled
    ensures IsEnabled(config)
  {
  }

  /** SendCustomMessage: channel, username and icon are taken from the
      configuration only where the message leaves them empty. */
  function FillCustomMessage(config: SlackConfig, message: SlackMessage): (m: SlackMessage)
    ensures m.text == message.text && m.attachments == message.attachments
    ensures message.channel != "" ==> m.channel == message.channel
    ensures message.username != "" ==> m.username == message.username
    ensures message.iconEmoji != "" ==> m.iconEmoji == message.iconEmoji
    ensures message.channel == "" ==> m.channel == config.channel
    ensures message.username == "" ==> m.username == config.username
    ensures message.iconEmoji == "" ==> m.iconEmoji == config.iconEmoji
  {
    message.(channel := if message.channel == "" then config.channel else message.channel,
             username := if message.username == "" then config.username else message.username,
             iconEmoji := if message.iconEmoji == "" then config.iconEmoji else message.iconEmoji)
  }

  /** Filling is idempotent when the configuration's values are non-empty. */
  lemma FillIdempotent(config: SlackConfig, message: SlackMessage)
    requires config.channel != "" && config.username != "" && config.iconEmoji != ""
    ensures FillCustomMessage(config, FillCustomMessage(config, message)) == FillCustomMessage(config, message)
  {
  }

  /** SendCustomMessage: the message posted, and whether the POST succeeded. */
  function SendCustomMessage(config: SlackConfig, message: SlackMessage, delivered: bool): (r: (SlackMessage, Result<(), SendError>))
    ensures r.0 == FillCustomMessage(config, message)
    ensures r.1.Ok? <==> delivered
  {
    (FillCustomMessage(config, message), if delivered then Ok(()) else Err(DeliveryFailed))
  }

  // ---------------------------------------------------------------------
  // Alert summaries
  // ---------------------------------------------------------------------

  /** A (severity, count) tally in order of first appearance. Go iterates its
      count map in random order; the model fixes first-appearance order. */
  datatype SeverityCount = SeverityCount(severity: string, count: nat)

  function Severities(alerts: seq<Alert>): (s: seq<string>)
    ensures |s| == |alerts|
    ensures forall i :: 0 <= i < |alerts| ==> s[i] == alerts[i].severity
  {
    if |alerts| == 0 then [] else Severities(alerts[..|alerts| - 1]) + [alerts[|alerts| - 1].severity]
  }

  /** The severities a tally mentions, in order. */
  function Keys(tally: seq<SeverityCount>): (ks: seq<string>)
    ensures |ks| == |tally|
    ensures forall i :: 0 <= i < |tally| ==> ks[i] == tally[i].severity
  {
    if |tally| == 0 then [] else [tally[0].severity] + Keys(tally[1..])
  }

  function SumCounts(tally: seq<SeverityCount>): nat
  {
    if |tally| == 0 then 0 else tally[0].count + SumCounts(tally[1..])
  }

  /** The count recorded for `s` (0 when absent). */
  function CountOf(tally: seq<SeverityCount>, s: string): nat
  {
    if |tally| == 0 then 0 else (if tally[0].severity == s then tally[0].count else 0) + CountOf(tally[1..], s)
  }

  predicate DistinctStrings(ks: seq<string>)
  {
    forall i, j :: 0 <= i < j < |ks| ==> ks[i] != ks[j]
  }

  /** No severity has two entries. */
  predicate DistinctSeverities(tally: seq<SeverityCount>)
  {
    DistinctStrings(Keys(tally))
  }

  predicate AllPositive(tally: seq<SeverityCount>)
  {
    forall i :: 0 <= i < |tally| ==> tally[i].count > 0
  }

  /** Adds one occurrence of `severity`: its entry grows by one, or a new
      entry is appended. */
  function Bump(tally: seq<SeverityCount>, severity: string): (t: seq<SeverityCount>)
    ensures Keys(t) == if severity in Keys(tally) then Keys(tally) else Keys(tally) + [severity]
    decreases |tally|
  {
    if |tally| == 0 then [SeverityCount(severity, 1)]
    else if tally[0].severity == severity then
      var t := [SeverityCount(severity, tally[0].count + 1)] + tally[1..];
      assert t[1..] == tally[1..];
      t
    else
      var rest := Bump(tally[1..], severity);
      var t := [tally[0]] + rest;
      assert t[1..] == rest;
      assert Keys(tally) == [tally[0].severity] + Keys(tally[1..]);
      t
  }

  /** Bumping adds exactly one occurrence, to `severity` alone, and keeps the
      counts positive. */
  lemma {:induction false} BumpCounts(tally: seq<SeverityCount>, severity: string)
    ensures SumCounts(Bump(tally, severity)) == SumCounts(tally) + 1
    ensures AllPositive(tally) ==> AllPositive(Bump(tally, severity))
    ensures forall s :: CountOf(Bump(tally, severity), s) == CountOf(tally, s) + (if s == severity then 1 else 0)
    decreases |tally|
  {
    var t := Bump(tally, severity);
    if |tally| > 0 {
      assert t[1..] == if tally[0].severity == severity then tally[1..] else Bump(tally[1..], severity);
      if tally[0].severity != severity {
        BumpCounts(tally[1..], severity);
      }
    }
  }

  lemma DistinctAppend(ks: seq<string>, x: string)
    ensures DistinctStrings(ks) && x !in ks ==> DistinctStrings(ks + [x])
  {
  }

  /** severityCount of CreateAlertSummary: one positive entry per distinct
      severity, recording how many alerts have it. */
  function TallySeverities(alerts: seq<Alert>): (t: seq<SeverityCount>)
    ensures SumCounts(t) == |alerts|
    ensures DistinctSeverities(t) && AllPositive(t)
    ensures forall s :: CountOf(t, s) == multiset(Severities(alerts))[s]
    ensures forall s :: s in Keys(t) <==> s in Severities(alerts)
  {
    if |alerts| == 0 then []
    else
      var init := alerts[..|alerts| - 1];
      var t0 := TallySeverities(init);
      var last := alerts[|alerts| - 1].severity;
      assert Severities(alerts) == Severities(init) + [last];
      var t := Bump(t0, last);
      BumpCounts(t0, last);
      DistinctAppend(Keys(t0), last);
      t
  }

  /** strings.Title on ASCII: a letter that starts a word is upper-cased;
      a word starts at the beginning and after any character that is not a
      word character. */
  function Title(s: string): (r: string)
    ensures |r| == |s|
    ensures forall i :: 0 <= i < |s| ==>
      r[i] == if i == 0 || !IsWordChar(s[i - 1]) then UpperChar(s[i]) else s[i]
  {
    TitleFrom(s, true)
  }

  /** The characters strings.Title does not treat as separators. */
  predicate IsWordChar(c: char)
  {
    IsLowerAscii(c) || IsUpperAscii(c) || IsDigit(c) || c == '_' || c as int >= 0x80
  }

  /** Title-casing from a position whose predecessor was a separator exactly
      when `atStart` holds. */
  function TitleFrom(s: string, atStart: bool): (r: string)
    ensures |r| == |s|
    ensures forall i :: 0 <= i < |s| ==>
      r[i] == if (if i == 0 then atStart else !IsWordChar(s[i - 1])) then UpperChar(s[i]) else s[i]
    decreases |s|
  {
    if |s| == 0 then ""
    else [if atStart then UpperChar(s[0]) else s[0]] + TitleFrom(s[1..], !IsWordChar(s[0]))
  }

  /** The clock "15:04:05" of a time, in UTC. */
  function Clock(t: Time): (r: string)
    ensures |r| == 8 && r[2] == ':' && r[5] == ':'
  {
    var secs := t / Second;
    Pad2((secs / 3600) % 24) + ":" + Pad2((secs / 60) % 60) + ":" + Pad2(secs % 60)
  }

  /** The clock of a time reads back the hour, minute and second it was
      built from: whole days and the nanoseconds below a second do not show. */
  lemma ClockReadsBack(d: nat, h: nat, m: nat, s: nat, ns: nat)
    requires h < 24 && m < 60 && s < 60 && ns < Second
    ensures Clock((((d * 24 + h) * 60 + m) * 60 + s) * Second + ns) == Pad2(h) + ":" + Pad2(m) + ":" + Pad2(s)
  {
    var minutes := (d * 24 + h) * 60 + m;
    var secs := minutes * 60 + s;
    var t := secs * Second + ns;
    DivUnique(t, Second, secs, ns);
    assert secs == (d * 24 + h) * 3600 + (m * 60 + s);
    DivUnique(secs, 3600, d * 24 + h, m * 60 + s);
    DivUnique(d * 24 + h, 24, d, h);
    DivUnique(secs, 60, minutes, s);
    DivUnique(minutes, 60, d * 24 + h, m);
  }

  /** One severity's field, with the emoji the notifier's own lookup gives,
      as written (its last resort is the mis-encoded circle). */
  function SeverityField(config: SlackConfig, c: SeverityCount): SlackField
  {
    SlackField(NotifierSeverityEmojiAsWritten(config, c.severity) + " " + Title(c.severity),
               IntToString(c.count) + " alert(s)", true)
  }

  function SeverityFields(config: SlackConfig, tally: seq<SeverityCount>): (fs: seq<SlackField>)
    ensures |fs| == |tally|
    ensures forall i :: 0 <= i < |tally| ==> fs[i] == SeverityField(config, tally[i])
  {
    if |tally| == 0 then [] else [SeverityField(config, tally[0])] + SeverityFields(config, tally[1..])
  }

  /** CreateAlertSummary: nothing for no alerts; otherwise "<n> alerts
      triggered" with one gray attachment holding a field per distinct
      severity (the counts adding up to n) and a final "Time Range" field
      from the last alert's clock to the first's. */
  function CreateAlertSummary(config: SlackConfig, alerts: seq<Alert>, now: Time): (m: SlackMessage)
    ensures |alerts| == 0 ==> m == EmptySlackMessage
    ensures |alerts| > 0 ==> (
      && m.text == IntToString(|alerts|) + " alerts triggered"
      && m.channel == config.channel && m.username == config.username && m.iconEmoji == config.iconEmoji
      && |m.attachments| == 1
      && var a := m.attachments[0];
      && a.color == Gray && a.title == "Alert Summary" && a.timestamp == UnixSeconds(now)
      && |a.fields| == |TallySeverities(alerts)| + 1
      && a.fields[|a.fields| - 1] == SlackField("Time Range",
           Clock(alerts[|alerts| - 1].timestamp) + " - " + Clock(alerts[0].timestamp), true))
  {
    if |alerts| == 0 then EmptySlackMessage
    else
      var tally := TallySeverities(alerts);
      var fields := SeverityFields(config, tally) +
        [SlackField("Time Range", Clock(alerts[|alerts| - 1].timestamp) + " - " + Clock(alerts[0].timestamp), true)];
      var attachment := SlackAttachment(Gray, "Alert Summary", "", fields, UnixSeconds(now), "Alert Engine", ":warning:");
      SlackMessage(config.channel, config.username, config.iconEmoji,
                   IntToString(|alerts|) + " alerts triggered", [attachment])
  }

  /** The severity breakdown covers every alert once: one field per distinct
      severity, each counting that severity's alerts, the counts summing to n. */
  lemma SummaryCountsAllAlerts(config: SlackConfig, alerts: seq<Alert>, now: Time)
    requires |alerts| > 0
    ensures var tally := TallySeverities(alerts);
      && SumCounts(tally) == |alerts|
      && DistinctSeverities(tally)
      && (forall i :: 0 <= i < |tally| ==>
            CreateAlertSummary(config, alerts, now).attachments[0].fields[i] == SeverityField(config, tally[i]))
      && (forall s :: CountOf(tally, s) == multiset(Severities(alerts))[s])
  {
  }
}

=== FILE: patterns.dfy ===
/** What the two synthetic log sources share: the catalog of the 19 alert
    patterns (each source carries an identical copy), the service list,
    random draws made explicit, and the shape of the continuous-mode cycle. */
module Patterns {
  import opened Common

  // ---------------------------------------------------------------------
  // Random choices as explicit draws
  // ---------------------------------------------------------------------

  /** random.choice: the draw picks an element. */
  function Choose<T>(options: seq<T>, draw: nat): (x: T)
    requires |options| > 0
    ensures x in options
  {
    options[draw % |options|]
  }

  /** The keyword drawn for a pattern log: one of the pattern's keywords. */
  function Keyword(p: Pattern, draw: nat): (k: string)
    requires Drawable(p)
    ensures k in p.keywords
  {
    Choose(p.keywords, draw)
  }

  /** random.randint(lo, hi): both ends included. */
  function RandInt(lo: int, hi: int, draw: nat): (n: int)
    requires lo <= hi
    ensures lo <= n <= hi
  {
    lo + draw % (hi - lo + 1)
  }

  /** Every value of randint can be drawn. */
  lemma RandIntCovers(lo: int, hi: int, n: int)
    requires lo <= n <= hi
    ensures RandInt(lo, hi, n - lo) == n
  {
  }

  /** Python's `%`: the remainder takes the sign of the divisor. */
  function PyMod(a: int, b: int): (m: int)
    requires b != 0
    ensures b > 0 ==> 0 <= m < b
    ensures b < 0 ==> b < m <= 0
    ensures m == 0 <==> a % b == 0
  {
    var r := a % b;
    if b > 0 || r == 0 then r else r + b
  }

  // ---------------------------------------------------------------------
  // The catalog
  // ---------------------------------------------------------------------

  /** The `conditions` dictionary of a pattern; absent keys are None. */
  datatype PatternConditions = PatternConditions(
    logLevel: Option<string>,
    service: Option<string>,
    namespace: Option<string>,
    keywords: Option<seq<string>>,
    threshold: Option<int>,
    timeWindow: Option<int>)

  datatype Pattern = Pattern(name: string, conditions: PatternConditions, keywords: seq<string>, services: seq<string>)

  const Services: seq<string> := [
    "payment-service", "user-service", "database-service",
    "authentication-api", "inventory-service", "notification-service",
    "order-service", "shipping-service", "billing-service", "audit-service",
    "checkout-service", "email-service", "redis-cache", "message-queue"]

  function When(level: Option<string>, service: Option<string>, namespace: Option<string>,
                keywords: Option<seq<string>>, threshold: Option<int>, window: Option<int>): PatternConditions
  {
    PatternConditions(level, service, namespace, keywords, threshold, window)
  }

  const HighErrorRate: Pattern := Pattern("high_error_rate",
    When(Some("ERROR"), None, None, None, Some(10), Some(300)),
      ["error", "failed", "exception", "timeout"],
    ["payment-service", "user-service", "database-service"])

  const PaymentFailures: Pattern := Pattern("payment_failures",
    When(None, Some("payment-service"), None, Some(["payment failed"]), Some(5), None),
      ["payment failed", "transaction declined", "payment timeout"],
    ["payment-service"])

  const DatabaseErrors: Pattern := Pattern("database_errors",
    When(Some("ERROR"), Some("database-service"), None, None, Some(3), None),
      ["connection refused", "deadlock detected", "query timeout"],
    ["database-service"])

  const AuthenticationFailures: Pattern := Pattern("authentication_failures",
    When(None, Some("authentication-api"), None, Some(["authentication failed"]), Some(10), None),
      ["authentication failed", "invalid credentials", "token expired"],
    ["authentication-api"])

  const ServiceTimeouts: Pattern := Pattern("service_timeouts",
    When(None, None, None, Some(["timeout"]), Some(5), Some(300)),
      ["timeout", "connection timeout", "request timeout", "gateway timeout"],
    ["payment-service", "user-service", "inventory-service"])

  const CriticalNamespaceAlerts: Pattern := Pattern("critical_namespace_alerts",
    When(Some("CRITICAL"), None, Some("production"), None, Some(1), None),
      ["critical", "fatal", "emergency", "disaster"],
    ["order-service", "payment-service", "user-service"])

  const InventoryWarnings: Pattern := Pattern("inventory_warnings",
    When(Some("WARN"), Some("inventory-service"), None, None, Some(15), None),
      ["low stock", "inventory warning", "stock alert", "out of stock"],
    ["inventory-service"])

  const NotificationFailures: Pattern := Pattern("notification_failures",
    When(None, Some("notification-service"), None, Some(["notification failed"]), Some(8), None),
      ["notification failed", "email failed", "sms failed", "push notification failed"],
    ["notification-service"])

  const HighWarnRate: Pattern := Pattern("high_warn_rate",
    When(Some("WARN"), None, None, None, Some(25), Some(600)),
      ["warning", "deprecated", "slow response", "performance"],
    ["order-service", "shipping-service", "billing-service"])

  const AuditIssues: Pattern := Pattern("audit_issues",
    When(None, Some("audit-service"), None, Some(["audit"]), Some(5), None),
      ["audit trail", "security audit", "access violation", "unauthorized access"],
    ["audit-service"])

  const CheckoutPaymentFailed: Pattern := Pattern("checkout_payment_failed",
    When(None, Some("checkout-service"), None, Some(["payment failed"]), Some(1), None),
      ["payment failed", "payment declined", "checkout failed"],
    ["checkout-service"])

  const InventoryStockUnavailable: Pattern := Pattern("inventory_stock_unavailable",
    When(None, Some("inventory-service"), None, Some(["stock unavailable"]), Some(1), None),
      ["stock unavailable", "out of stock", "inventory depleted"],
    ["inventory-service"])

  const EmailSmtpFailed: Pattern := Pattern("email_smtp_failed",
    When(None, Some("email-service"), None, Some(["SMTP connection failed"]), Some(1), None),
      ["SMTP connection failed", "email server down", "mail delivery failed"],
    ["email-service"])

  const RedisConnectionRefused: Pattern := Pattern("redis_connection_refused",
    When(None, Some("redis-cache"), None, Some(["connection refused"]), Some(1), None),
      ["connection refused", "redis unavailable", "cache connection failed"],
    ["redis-cache"])

  const MessageQueueFull: Pattern := Pattern("message_queue_full",
    When(None, Some("message-queue"), None, Some(["queue full"]), Some(1), None),
      ["queue full", "message queue overflow", "queue capacity exceeded"],
    ["message-queue"])

  const TimeoutAnyService: Pattern := Pattern("timeout_any_service",
    When(None, None, None, Some(["timeout"]), Some(1), None),
      ["timeout", "request timeout", "connection timeout"],
    ["payment-service", "user-service", "inventory-service", "order-service"])

  const SlowQuery: Pattern := Pattern("slow_query",
    When(None, None, None, Some(["slow query"]), Some(1), None),
      ["slow query", "query timeout", "database performance"],
    ["database-service", "order-service", "user-service"])

  const DeadlockDetected: Pattern := Pattern("deadlock_detected",
    When(None, None, None, Some(["deadlock detected"]), Some(1), None),
      ["deadlock detected", "database deadlock", "transaction deadlock"],
    ["database-service"])

  const CrossServiceErrors: Pattern := Pattern("cross_service_errors",
    When(None, None, None, Some(["service unavailable"]), Some(3), Some(180)),
      ["service unavailable", "dependency failed", "circuit breaker", "upstream error"],
    ["payment-service", "user-service", "inventory-service", "order-service"])

  /** The patterns in dictionary (insertion) order. */
  const Catalog: seq<Pattern> := [
    HighErrorRate, PaymentFailures, DatabaseErrors, AuthenticationFailures,
    ServiceTimeouts, CriticalNamespaceAlerts, InventoryWarnings, NotificationFailures,
    HighWarnRate, AuditIssues, CheckoutPaymentFailed, InventoryStockUnavailable,
    EmailSmtpFailed, RedisConnectionRefused, MessageQueueFull, TimeoutAnyService,
    SlowQuery, DeadlockDetected, CrossServiceErrors
  ]

  /** `conditions.get("threshold", 5)`. */
  function ThresholdOf(p: Pattern): (t: int)
    ensures p.conditions.threshold.Some? ==> t == p.conditions.threshold.value
    ensures p.conditions.threshold.None? ==> t == 5
  {
    match p.conditions.threshold
    case Some(t) => t
    case None => 5
  }

  /** A pattern random.choice can draw from: some service and some keyword. */
  predicate Drawable(p: Pattern)
  {
    |p.services| > 0 && |p.keywords| > 0
  }

  /** The names of the patterns, in order. */
  function Names(ps: seq<Pattern>): seq<string>
  {
    seq(|ps|, i requires 0 <= i < |ps| => ps[i].name)
  }

  /** `list(self.patterns.keys())`. */
  const CatalogNames: seq<string> := Names(Catalog)

  /** self.patterns[name]: None where Python raises KeyError. */
  function LookupPattern(name: string): (r: Option<Pattern>)
    ensures r.Some? <==> name in CatalogNames
    ensures r.Some? ==> r.value in Catalog && r.value.name == name
  {
    LookupIn(Catalog, name)
  }

  function LookupIn(ps: seq<Pattern>, name: string): (r: Option<Pattern>)
    ensures r.Some? <==> name in Names(ps)
    ensures r.Some? ==> r.value in ps && r.value.name == name
  {
    if |ps| == 0 then None
    else if ps[0].name == name then
      assert Names(ps)[0] == name;
      Some(ps[0])
    else
      var r := LookupIn(ps[1..], name);
      assert Names(ps) == [ps[0].name] + Names(ps[1..]);
      r
  }

  /** A dictionary with string keys, as an association list. */
  datatype Entry<T> = Entry(key: string, value: T)

  function Keys<T>(entries: seq<Entry<T>>): (ks: seq<string>)
    ensures |ks| == |entries|
    ensures forall i :: 0 <= i < |entries| ==> ks[i] == entries[i].key
  {
    seq(|entries|, i requires 0 <= i < |entries| => entries[i].key)
  }

  /** `dict.get(key)`: the entry filed under the key, if any. */
  function Get<T>(entries: seq<Entry<T>>, key: string): (r: Option<T>)
    ensures r.Some? <==> key in Keys(entries)
    ensures r.Some? ==> Entry(key, r.value) in entries
  {
    if |entries| == 0 then None
    else if entries[0].key == key then Some(entries[0].value)
    else
      assert Keys(entries) == [entries[0].key] + Keys(entries[1..]);
      Get(entries[1..], key)
  }

  predicate DistinctSeq<T(==)>(s: seq<T>)
  {
    forall i, j :: 0 <= i < j < |s| ==> s[i] != s[j]
  }

  /** The catalog's shape: 19 patterns with distinct names, every one
      drawable, with its services among the known services and a threshold of
      at least 1. */
  lemma CatalogWellFormed()
    ensures |Catalog| == 19
    ensures forall p :: p in Catalog ==> Drawable(p) && ThresholdOf(p) >= 1
    ensures forall p, s :: p in Catalog && s in p.services ==> s in Services
    ensures DistinctSeq(CatalogNames)
  {
    CatalogDrawable();
    CatalogThresholds();
    CatalogServices();
    NamesDistinct();
  }

  lemma LookupDrawable(name: string)
    ensures LookupPattern(name).Some? ==> Drawable(LookupPattern(name).value)
  {
    CatalogDrawable();
  }

  lemma CatalogThresholds()
    ensures forall p :: p in Catalog ==> ThresholdOf(p) >= 1
  {
    assert forall i :: 0 <= i < |Catalog| ==> ThresholdOf(Catalog[i]) >= 1;
  }

  lemma CatalogServices()
    ensures forall p, s :: p in Catalog && s in p.services ==> s in Services
  {
    assert forall i, s :: 0 <= i < |Catalog| && s in Catalog[i].services ==> s in Services;
  }

  lemma CatalogDrawable()
    ensures forall p :: p in Catalog ==> Drawable(p)
  {
    assert forall i :: 0 <= i < |Catalog| ==> Drawable(Catalog[i]);
  }

  /** The catalog's names as the dictionary literal lists them. */
  const ListedNames: seq<string> := [
    "high_error_rate", "payment_failures", "database_errors", "authentication_failures",
    "service_timeouts", "critical_namespace_alerts", "inventory_warnings",
    "notification_failures", "high_warn_rate", "audit_issues", "checkout_payment_failed",
    "inventory_stock_unavailable", "email_smtp_failed", "redis_connection_refused",
    "message_queue_full", "timeout_any_service", "slow_query", "deadlock_detected",
    "cross_service_errors"]

  lemma CatalogNamesListed()
    ensures CatalogNames == ListedNames
  {
  }

  /** A catalog pattern's name is among the catalog's names. */
  lemma NameOfCatalogPattern(p: Pattern)
    requires p in Catalog
    ensures p.name in CatalogNames
  {
    var i :| 0 <= i < |Catalog| && Catalog[i] == p;
    assert CatalogNames[i] == p.name;
  }

  /** Length and first character tell the catalog's names apart. The
      distinctness proof maps each name to this number and KeyRank maps the
      number back to the name's position, which spares the solver comparing
      19 * 18 pairs of strings character by character. */
  function NameKey(s: string): int
  {
    |s| * 1000 + (if |s| > 0 then s[0] as int else 0)
  }

  function KeyRank(key: int): int
  {
    if key == 15104 then 0
    else if key == 16112 then 1
    else if key == 15100 then 2
    else if key == 23097 then 3
    else if key == 16115 then 4
    else if key == 25099 then 5
    else if key == 18105 then 6
    else if key == 21110 then 7
    else if key == 14104 then 8
    else if key == 12097 then 9
    else if key == 23099 then 10
    else if key == 27105 then 11
    else if key == 17101 then 12
    else if key == 24114 then 13
    else if key == 18109 then 14
    else if key == 19116 then 15
    else if key == 10115 then 16
    else if key == 17100 then 17
    else if key == 20099 then 18
    else -1
  }

  lemma NamesDistinct()
    ensures DistinctSeq(CatalogNames)
  {
    CatalogNamesListed();
    ListedNamesDistinct();
  }

  lemma ListedNamesDistinct()
    ensures DistinctSeq(ListedNames)
  {
    var names := ListedNames;
    // KeyRank inverts the keys, so equal keys sit at equal positions
    assert forall k :: 0 <= k < |names| ==> KeyRank(NameKey(names[k])) == k;
  }

  // ---------------------------------------------------------------------
  // Record contents both sources share
  // ---------------------------------------------------------------------

  /** The `component` label: the text before the first '-', or the whole
      name when it has none. */
  function Component(service: string): (c: string)
    ensures '-' !in c
    ensures HasPrefix(service, c)
    ensures |c| < |service| ==> service[|c|] == '-'
    ensures '-' !in service ==> c == service
  {
    if '-' in service then
      var parts := Split(service, '-');
      FirstPieceIsPrefix(service, parts);
      parts[0]
    else service
  }

  lemma FirstPieceIsPrefix(s: string, parts: seq<string>)
    requires parts == Split(s, '-')
    ensures HasPrefix(s, parts[0])
    ensures |parts[0]| < |s| ==> s[|parts[0]|] == '-'
  {
    if |parts| > 1 {
      assert s == parts[0] + ['-'] + Join(parts[1..], '-');
      assert s[..|parts[0]|] == parts[0];
    }
  }

  /** Levels drawn for a pattern whose conditions name none. */
  const DrawnLevels: seq<string> := ["ERROR", "WARN", "INFO", "FATAL"]

  /** Levels of a normal (non-pattern) log. */
  const NormalLevels: seq<string> := ["INFO", "DEBUG"]

  function NormalMessages(service: string, n: nat): (ms: seq<string>)
    ensures |ms| == 10
  {
    [ "Request processed successfully for user " + Num(1000, 9999, n),
      "Service " + service + " started successfully",
      "Database query completed in " + Num(10, 500, n) + "ms",
      "Cache hit for key user:" + Num(1000, 9999, n),
      "Health check passed for " + service,
      "Processing batch job with " + Num(10, 100, n) + " items",
      "User session created for user " + Num(1000, 9999, n),
      "Configuration loaded successfully",
      "Metrics published to monitoring system",
      "Background task completed successfully" ]
  }

  /** A message template: the text around the chosen keyword. */
  datatype Template = Template(before: string, after: string)

  function Fill(t: Template, keyword: string): string
  {
    t.before + keyword + t.after
  }

  function Num(lo: int, hi: int, draw: nat): string
    requires lo <= hi
  {
    IntToString(RandInt(lo, hi, draw))
  }

  /** The continuous-mode message table, listed here in catalog order (the
      order of a dictionary does not affect lookup). Both sources use it outside
      test mode. */
  function ContinuousTemplates(service: string, n: nat): seq<Entry<Template>>
  {
    [ Entry("high_error_rate", Template("Service " + service + " encountered an error: ", " during request processing")),
      Entry("payment_failures", Template("Payment processing failed: ", " for transaction ID " + Num(10000, 99999, n))),
      Entry("database_errors", Template("Database operation failed: ", " on table users_table")),
      Entry("authentication_failures", Template("User authentication failed: ", " for user ID " + Num(1000, 9999, n))),
      Entry("service_timeouts", Template("Service request timeout: ", " after 30 seconds waiting for response")),
      Entry("critical_namespace_alerts", Template("Critical system failure: ", " - immediate attention required")),
      Entry("inventory_warnings", Template("Inventory alert: ", " for product SKU-" + Num(1000, 9999, n))),
      Entry("notification_failures", Template("Notification delivery failed: ", " to user " + Num(1000, 9999, n))),
      Entry("high_warn_rate", Template("Performance warning: ", " detected in service operation")),
      Entry("audit_issues", Template("Security audit issue: ", " detected in user action")),
      Entry("checkout_payment_failed", Template("Checkout process failed: ", " for order #" + Num(10000, 99999, n))),
      Entry("inventory_stock_unavailable", Template("Inventory management: ", " for item SKU-" + Num(1000, 9999, n))),
      Entry("email_smtp_failed", Template("Email service error: ", " while sending notification")),
      Entry("redis_connection_refused", Template("Cache service error: ", " - unable to connect to Redis")),
      Entry("message_queue_full", Template("Message broker alert: ", " - unable to enqueue message")),
      Entry("timeout_any_service", Template("Service operation: ", " after waiting 30 seconds")),
      Entry("slow_query", Template("Database performance: ", " detected - execution time exceeded threshold")),
      Entry("deadlock_detected", Template("Database concurrency issue: ", " in transaction processing")),
      Entry("cross_service_errors", Template("Service communication error: ", " when calling downstream service")) ]
  }

  /** The continuous-mode table has one template per catalog pattern, in
      catalog order. */
  lemma ContinuousTemplatesCoverCatalog(service: string, n: nat)
    ensures Keys(ContinuousTemplates(service, n)) == CatalogNames
  {
    CatalogNamesListed();
  }

  /** `messages.get(name, "Service log: " + keyword)`: the template filled
      with the keyword, or the fallback. Either way the keyword is in it. */
  function MessageFrom(t: Option<Template>, keyword: string): (m: string)
    ensures Contains(m, keyword)
    ensures t.None? ==> m == "Service log: " + keyword
  {
    var t := match t
      case Some(t) => t
      case None => Template("Service log: ", "");
    ContainsMiddle(t.before, keyword, t.after);
    assert Fill(t, keyword) == t.before + keyword + t.after;
    Fill(t, keyword)
  }

  // ---------------------------------------------------------------------
  // The continuous-mode cycle
  // ---------------------------------------------------------------------

  datatype Event = NormalLog | Burst(pattern: string)

  /** Normal logs written per cycle. */
  const NormalPerCycle := 5

  /** Whether a burst follows cycle number `counter` (counted from 1):
      `counter % interval == 0` in Python. A zero interval raises
      ZeroDivisionError, which the loop catches, so no burst follows. */
  predicate BurstFollows(counter: nat, interval: int)
  {
    interval != 0 && PyMod(counter, interval) == 0
  }

  function Normals(n: nat): (events: seq<Event>)
    ensures |events| == n
    ensures forall i :: 0 <= i < n ==> events[i] == NormalLog
  {
    seq(n, _ => NormalLog)
  }

  /** One cycle: five normal logs and, when due, a burst of a pattern picked
      from the catalog's names. */
  function Cycle(counter: nat, interval: int, pick: nat): (events: seq<Event>)
    ensures |events| == NormalPerCycle + (if BurstFollows(counter, interval) then 1 else 0)
    ensures forall i :: 0 <= i < NormalPerCycle ==> events[i] == NormalLog
  {
    Normals(NormalPerCycle)
      + (if BurstFollows(counter, interval) then [Burst(Choose(CatalogNames, pick))] else [])
  }

  /** The events of the first `cycles` cycles; `pick(k)` is the draw of cycle k. */
  function Schedule(cycles: nat, interval: int, pick: nat -> nat): (events: seq<Event>)
    ensures forall i :: 0 <= i < |events| && events[i].Burst? ==> events[i].pattern in CatalogNames
  {
    if cycles == 0 then []
    else
      var prefix := Schedule(cycles - 1, interval, pick);
      var last := Cycle(cycles, interval, pick(cycles));
      assert forall i :: 0 <= i < |last| && last[i].Burst? ==> last[i].pattern in CatalogNames;
      prefix + last
  }

  function CountBursts(events: seq<Event>): nat
  {
    if |events| == 0 then 0
    else (if events[0].Burst? then 1 else 0) + CountBursts(events[1..])
  }

  function CountNormal(events: seq<Event>): nat
  {
    if |events| == 0 then 0
    else (if events[0] == NormalLog then 1 else 0) + CountNormal(events[1..])
  }

  lemma {:induction false} CountsAppend(a: seq<Event>, b: seq<Event>)
    ensures CountBursts(a + b) == CountBursts(a) + CountBursts(b)
    ensures CountNormal(a + b) == CountNormal(a) + CountNormal(b)
  {
    if |a| == 0 {
      assert a + b == b;
    } else {
      assert (a + b)[1..] == a[1..] + b;
      CountsAppend(a[1..], b);
    }
  }

  lemma {:induction false} NormalsCount(n: nat)
    ensures CountNormal(Normals(n)) == n && CountBursts(Normals(n)) == 0
  {
    if n > 0 {
      assert Normals(n)[1..] == Normals(n - 1);
      NormalsCount(n - 1);
    }
  }

  lemma CycleCounts(counter: nat, interval: int, pick: nat)
    ensures CountNormal(Cycle(counter, interval, pick)) == NormalPerCycle
    ensures CountBursts(Cycle(counter, interval, pick)) == if BurstFollows(counter, interval) then 1 else 0
  {
    NormalsCount(NormalPerCycle);
    var tail: seq<Event> := if BurstFollows(counter, interval) then [Burst(Choose(CatalogNames, pick))] else [];
    assert tail != [] ==> tail[1..] == [];
    CountsAppend(Normals(NormalPerCycle), tail);
  }

  /** Over n cycles with a positive interval: 5n normal logs and a burst
      after every interval-th cycle, n div interval in all. */
  lemma {:induction false} ScheduleCounts(cycles: nat, interval: int, pick: nat -> nat)
    requires interval > 0
    ensures CountNormal(Schedule(cycles, interval, pick)) == NormalPerCycle * cycles
    ensures CountBursts(Schedule(cycles, interval, pick)) == cycles / interval
  {
    if cycles > 0 {
      ScheduleCounts(cycles - 1, interval, pick);
      CountsAppend(Schedule(cycles - 1, interval, pick), Cycle(cycles, interval, pick(cycles)));
      CycleCounts(cycles, interval, pick(cycles));
      DivStep(cycles, interval);
    }
  }

  /** n / d grows by one exactly at multiples of d. */
  lemma DivStep(n: nat, d: int)
    requires n > 0 && d > 0
    ensures n / d == (n - 1) / d + (if n % d == 0 then 1 else 0)
  {
    var q := (n - 1) / d;
    var r := (n - 1) % d;
    if r == d - 1 {
      DivUnique(n, d, q + 1, 0);
    } else {
      DivUnique(n, d, q, r + 1);
    }
  }

  /** With a zero interval the loop never bursts. */
  lemma {:induction false} ZeroIntervalNeverBursts(cycles: nat, pick: nat -> nat)
    ensures CountBursts(Schedule(cycles, 0, pick)) == 0
  {
    if cycles > 0 {
      ZeroIntervalNeverBursts(cycles - 1, pick);
      CountsAppend(Schedule(cycles - 1, 0, pick), Cycle(cycles, 0, pick(cycles)));
      CycleCounts(cycles, 0, pick(cycles));
    }
  }
}

=== FILE: rules.dfy ===
/** The rule domain (internal/alerting/rules.go): validation, default rules,
    templates, statistics, filtering and ID slugs. */
module Rules {
  import opened Common
  import opened Models

  // ---------------------------------------------------------------------
  // Validation
  // ---------------------------------------------------------------------

  const ValidOperators: seq<string> := ["gt", "gte", "lt", "lte", "eq"]
  const ValidSeverities: seq<string> := ["low", "medium", "high", "critical"]

  /** Linear membership test over a slice of strings. */
  function ContainsString(xs: seq<string>, item: string): (b: bool)
    ensures b <==> item in xs
    ensures b <==> exists i :: 0 <= i < |xs| && xs[i] == item
  {
    if |xs| == 0 then false
    else xs[0] == item || ContainsString(xs[1..], item)
  }

  /** The failing check ValidateRule reports, in the order it checks them. */
  datatype RuleError =
    | EmptyId
    | EmptyName
    | NonPositiveThreshold
    | NonPositiveTimeWindow
    | InvalidOperator(operator: string)
    | InvalidSeverity(severity: string)

  function ErrorMessage(e: RuleError): string
  {
    match e
    case EmptyId => "rule ID cannot be empty"
    case EmptyName => "rule name cannot be empty"
    case NonPositiveThreshold => "threshold must be greater than 0"
    case NonPositiveTimeWindow => "time window must be greater than 0"
    case InvalidOperator(op) => "invalid operator: " + op + ", must be one of: gt, gte, lt, lte, eq"
    case InvalidSeverity(s) => "invalid severity: " + s + ", must be one of: low, medium, high, critical"
  }

  predicate OperatorAccepted(op: string) { op == "" || op in ValidOperators }
  predicate SeverityAccepted(s: string) { s == "" || s in ValidSeverities }

  /** Reference definition of a well-formed rule. */
  predicate IsValidRule(rule: AlertRule)
  {
    && rule.id != "" && rule.name != ""
    && rule.conditions.threshold > 0 && rule.conditions.timeWindow > 0
    && OperatorAccepted(rule.conditions.operator)
    && SeverityAccepted(rule.actions.severity)
  }

  /** ValidateRule: no error exactly for well-formed rules, and otherwise the
      first failing check in the order ID, name, threshold, window, operator,
      severity. */
  function ValidateRule(rule: AlertRule): (err: Option<RuleError>)
    ensures err.None? <==> IsValidRule(rule)
    ensures rule.id == "" ==> err == Some(EmptyId)
    ensures err == Some(EmptyName) <==> rule.id != "" && rule.name == ""
    ensures err == Some(NonPositiveThreshold) <==>
      rule.id != "" && rule.name != "" && rule.conditions.threshold <= 0
    ensures err == Some(NonPositiveTimeWindow) <==>
      rule.id != "" && rule.name != "" && rule.conditions.threshold > 0 && rule.conditions.timeWindow <= 0
    ensures err.Some? && err.value.InvalidOperator? ==>
      err.value.operator == rule.conditions.operator && !OperatorAccepted(rule.conditions.operator)
      && rule.id != "" && rule.name != "" && rule.conditions.threshold > 0 && rule.conditions.timeWindow > 0
    ensures err.Some? && err.value.InvalidSeverity? ==>
      err.value.severity == rule.actions.severity && !SeverityAccepted(rule.actions.severity)
      && OperatorAccepted(rule.conditions.operator)
  {
    if rule.id == "" then Some(EmptyId)
    else if rule.name == "" then Some(EmptyName)
    else if rule.conditions.threshold <= 0 then Some(NonPositiveThreshold)
    else if rule.conditions.timeWindow <= 0 then Some(NonPositiveTimeWindow)
    else if rule.conditions.operator != "" && !ContainsString(ValidOperators, rule.conditions.operator) then
      Some(InvalidOperator(rule.conditions.operator))
    else if rule.actions.severity != "" && !ContainsString(ValidSeverities, rule.actions.severity) then
      Some(InvalidSeverity(rule.actions.severity))
    else None
  }

  // ---------------------------------------------------------------------
  // Default rules and the template
  // ---------------------------------------------------------------------

  datatype DefaultRulesConfig = DefaultRulesConfig(
    enabled: bool,
    rules: seq<AlertRule>,
    defaultThreshold: Int64,
    defaultTimeWindow: Int64,
    defaultChannel: string,
    defaultSeverity: string)

  const BuiltinRulesConfig := DefaultRulesConfig(true, [], 5, 5 * Minute, "#alerts", "medium")

  function MaxInt(a: Int64, b: Int64): (m: Int64)
    ensures m >= a && m >= b && (m == a || m == b)
  {
    if a > b then a else b
  }

  const DefaultRuleIds: seq<string> := ["default-error-alert", "default-database-alert", "default-memory-warning"]

  function DefaultRule(id: string, name: string, description: string, level: string, keywords: seq<string>,
                       threshold: Int64, window: Int64, channel: string, severity: string, now: Time): AlertRule
  {
    AlertRule(id, name, description, true,
              AlertConditions(level, "", "", keywords, threshold, window, "gt"),
              AlertActions("", channel, severity), now, now)
  }

  /** The three standard rules. The database rule lowers the threshold by 2
      (never below 1) and halves the window (never below 2 minutes); the memory
      rule doubles both (never below 5 and 10 minutes). Products and
      differences wrap around as Go's 64-bit arithmetic does. */
  function StandardRules(config: DefaultRulesConfig, now: Time): (rs: seq<AlertRule>)
    ensures |rs| == 3
    ensures forall i :: 0 <= i < 3 ==>
      (rs[i].id == DefaultRuleIds[i] && rs[i].enabled
       && rs[i].conditions.operator == "gt" && rs[i].actions.channel == config.defaultChannel)
    ensures rs[0].conditions.threshold == config.defaultThreshold
      && rs[0].conditions.timeWindow == config.defaultTimeWindow
    ensures rs[1].conditions.threshold >= 1 && rs[1].conditions.timeWindow >= 2 * Minute
    ensures rs[2].conditions.threshold >= 5 && rs[2].conditions.timeWindow >= 10 * Minute
    ensures rs[0].actions.severity == "high" && rs[1].actions.severity == "critical"
      && rs[2].actions.severity == config.defaultSeverity
    ensures rs[0].conditions.logLevel == "ERROR" && rs[0].conditions.keywords == []
    ensures rs[1].conditions.logLevel == "ERROR" && rs[1].conditions.keywords == ["database", "connection", "failed"]
    ensures rs[2].conditions.logLevel == "WARN" && rs[2].conditions.keywords == ["memory", "usage", "high"]
    ensures var t := config.defaultThreshold;
      && rs[1].conditions.threshold == MaxInt(1, Wrap64(t - 2))
      && rs[2].conditions.threshold == MaxInt(5, Wrap64(t * 2))
    ensures var w := config.defaultTimeWindow;
      && rs[1].conditions.timeWindow == MaxInt(2 * Minute, GoDiv(w, 2))
      && rs[2].conditions.timeWindow == MaxInt(10 * Minute, Wrap64(w * 2))
    ensures forall i :: 0 <= i < 3 ==>
      (rs[i].conditions.namespace == "" && rs[i].conditions.service == ""
       && rs[i].createdAt == now && rs[i].updatedAt == now)
  {
    var t := config.defaultThreshold;
    var w := config.defaultTimeWindow;
    [ DefaultRule("default-error-alert", "Application Error Alert", "Alert on application errors",
                  "ERROR", [], t, w, config.defaultChannel, "high", now),
      DefaultRule("default-database-alert", "Database Connection Issues", "Alert on database connection problems",
                  "ERROR", ["database", "connection", "failed"],
                  MaxInt(1, Wrap64(t - 2)), MaxInt(2 * Minute, GoDiv(w, 2)), config.defaultChannel, "critical", now),
      DefaultRule("default-memory-warning", "High Memory Usage Warning", "Alert on high memory usage warnings",
                  "WARN", ["memory", "usage", "high"],
                  MaxInt(5, Wrap64(t * 2)), MaxInt(10 * Minute, Wrap64(w * 2)), config.defaultChannel,
                  config.defaultSeverity, now) ]
  }

  /** Nothing when disabled, the configured rules when there are any, else the
      three standard rules. */
  function CreateDefaultRulesWithConfig(config: DefaultRulesConfig, now: Time): (rs: seq<AlertRule>)
    ensures !config.enabled ==> rs == []
    ensures config.enabled && |config.rules| > 0 ==> rs == config.rules
    ensures config.enabled && |config.rules| == 0 ==> rs == StandardRules(config, now)
  {
    if !config.enabled then []
    else if |config.rules| > 0 then config.rules
    else StandardRules(config, now)
  }

  /** The standard rules all validate exactly when the configured threshold and
      window are positive and the configured severity is accepted; the floors
      keep the other two rules valid whatever the configuration. */
  lemma StandardRulesValid(config: DefaultRulesConfig, now: Time)
    ensures (forall r :: r in StandardRules(config, now) ==> ValidateRule(r).None?) <==>
      config.defaultThreshold > 0 && config.defaultTimeWindow > 0 && SeverityAccepted(config.defaultSeverity)
  {
    var rs := StandardRules(config, now);
    assert rs[1] in rs && rs[2] in rs && rs[0] in rs;
    assert ValidateRule(rs[1]).None?;
    if ValidateRule(rs[0]).None? && ValidateRule(rs[2]).None? {
      assert IsValidRule(rs[0]) && IsValidRule(rs[2]);
    }
  }

  /** CreateDefaultRules(): the built-in configuration yields three valid rules. */
  lemma BuiltinDefaultRulesValid(now: Time)
    ensures var rs := CreateDefaultRulesWithConfig(BuiltinRulesConfig, now);
      |rs| == 3 && forall r :: r in rs ==> ValidateRule(r).None?
  {
    assert "medium" in ValidSeverities;
    StandardRulesValid(BuiltinRulesConfig, now);
  }

  /** A blank rule carrying the configured defaults; it must be given an ID and
      a name before it validates. */
  function GetRuleTemplateWithConfig(config: DefaultRulesConfig): (t: AlertRule)
    ensures ValidateRule(t) == Some(EmptyId)
    ensures t.enabled && t.conditions.logLevel == "ERROR" && t.conditions.operator == "gt"
    ensures t.conditions.threshold == config.defaultThreshold && t.conditions.timeWindow == config.defaultTimeWindow
    ensures t.actions.channel == config.defaultChannel && t.actions.severity == config.defaultSeverity
  {
    AlertRule("", "", "", true,
              AlertConditions("ERROR", "", "", [], config.defaultThreshold, config.defaultTimeWindow, "gt"),
              AlertActions("", config.defaultChannel, config.defaultSeverity), 0, 0)
  }

  /** Filling in an ID and a name completes the template exactly when the
      configured defaults are themselves acceptable. */
  lemma TemplateCompletes(config: DefaultRulesConfig, id: string, name: string)
    requires id != "" && name != ""
    ensures ValidateRule(GetRuleTemplateWithConfig(config).(id := id, name := name)).None? <==>
      config.defaultThreshold > 0 && config.defaultTimeWindow > 0 && SeverityAccepted(config.defaultSeverity)
  {
  }

  // ---------------------------------------------------------------------
  // Statistics
  // ---------------------------------------------------------------------

  /** Go's map[string]int counters, of which only increments happen, are
      multisets: `bySeverity[s]` is how often `s` was counted. */
  datatype RuleStats = RuleStats(
    totalRules: int,
    enabledRules: int,
    disabledRules: int,
    bySeverity: multiset<string>,
    byNamespace: multiset<string>,
    byService: multiset<string>)

  /** Severity as counted: a rule without one counts as "medium". */
  function EffectiveSeverity(rule: AlertRule): string
  {
    if rule.actions.severity == "" then "medium" else rule.actions.severity
  }

  function EnabledCount(rules: seq<AlertRule>): (n: nat)
    ensures n <= |rules|
  {
    if |rules| == 0 then 0
    else EnabledCount(rules[..|rules| - 1]) + (if rules[|rules| - 1].enabled then 1 else 0)
  }

  /** One severity per rule; "" never appears. */
  function SeverityBag(rules: seq<AlertRule>): (b: multiset<string>)
    ensures |b| == |rules|
    ensures "" !in b
  {
    if |rules| == 0 then multiset{}
    else SeverityBag(rules[..|rules| - 1]) + multiset{EffectiveSeverity(rules[|rules| - 1])}
  }

  /** A Go counter increment that skips the empty key. */
  function Tally(v: string): (b: multiset<string>)
    ensures "" !in b && |b| <= 1
  {
    if v == "" then multiset{} else multiset{v}
  }

  /** The non-empty values of one field, one per rule that has it. */
  function FieldBag(rules: seq<AlertRule>, field: AlertRule -> string): (b: multiset<string>)
    ensures |b| <= |rules|
    ensures "" !in b
  {
    if |rules| == 0 then multiset{}
    else
      FieldBag(rules[..|rules| - 1], field) + Tally(field(rules[|rules| - 1]))
  }

  function NamespaceOf(rule: AlertRule): string { rule.conditions.namespace }
  function ServiceOf(rule: AlertRule): string { rule.conditions.service }

  /** Count of rules whose field equals a given non-empty value. */
  lemma {:induction false} FieldBagCounts(rules: seq<AlertRule>, field: AlertRule -> string, v: string)
    requires v != ""
    ensures FieldBag(rules, field)[v] == |set i | 0 <= i < |rules| && field(rules[i]) == v|
  {
    if |rules| > 0 {
      var init := rules[..|rules| - 1];
      FieldBagCounts(init, field, v);
      MatchingIndicesStep(rules, init, field, v);
    }
  }

  /** The matching indices of `rules` are those of its prefix plus, perhaps, the last one. */
  lemma MatchingIndicesStep(rules: seq<AlertRule>, init: seq<AlertRule>, field: AlertRule -> string, v: string)
    requires |rules| > 0 && init == rules[..|rules| - 1]
    ensures |set i | 0 <= i < |rules| && field(rules[i]) == v|
         == |set i | 0 <= i < |init| && field(init[i]) == v|
            + (if field(rules[|rules| - 1]) == v then 1 else 0)
  {
    var s := set i | 0 <= i < |init| && field(init[i]) == v;
    var t := set i | 0 <= i < |rules| && field(rules[i]) == v;
    if field(rules[|rules| - 1]) == v {
      assert t == s + {|rules| - 1};
    } else {
      assert t == s;
    }
  }

  /** How each tally grows when the prefix of `rules` grows by one rule. */
  lemma StatsStep(rules: seq<AlertRule>, i: nat)
    requires i < |rules|
    ensures EnabledCount(rules[..i + 1]) == EnabledCount(rules[..i]) + (if rules[i].enabled then 1 else 0)
    ensures SeverityBag(rules[..i + 1]) == SeverityBag(rules[..i]) + multiset{EffectiveSeverity(rules[i])}
    ensures FieldBag(rules[..i + 1], NamespaceOf) == FieldBag(rules[..i], NamespaceOf) + Tally(rules[i].conditions.namespace)
    ensures FieldBag(rules[..i + 1], ServiceOf) == FieldBag(rules[..i], ServiceOf) + Tally(rules[i].conditions.service)
  {
    var pre := rules[..i + 1];
    assert pre[..|pre| - 1] == rules[..i];
    assert pre[|pre| - 1] == rules[i];
  }

  /** GetRuleStats: totals, the enabled/disabled split and the three tallies. */
  method GetRuleStats(rules: seq<AlertRule>) returns (stats: RuleStats)
    ensures stats.totalRules == |rules|
    ensures stats.enabledRules + stats.disabledRules == stats.totalRules
    ensures stats.enabledRules == EnabledCount(rules)
    ensures stats.bySeverity == SeverityBag(rules) && |stats.bySeverity| == stats.totalRules
    ensures stats.byNamespace == FieldBag(rules, NamespaceOf) && "" !in stats.byNamespace
    ensures stats.byService == FieldBag(rules, ServiceOf) && "" !in stats.byService
  {
    var enabled, disabled := 0, 0;
    var bySeverity, byNamespace, byService := multiset{}, multiset{}, multiset{};
    for i := 0 to |rules|
      invariant enabled == EnabledCount(rules[..i])
      invariant disabled == i - EnabledCount(rules[..i])
      invariant bySeverity == SeverityBag(rules[..i])
      invariant byNamespace == FieldBag(rules[..i], NamespaceOf)
      invariant byService == FieldBag(rules[..i], ServiceOf)
    {
      var rule := rules[i];
      StatsStep(rules, i);
      if rule.enabled {
        enabled := enabled + 1;
      } else {
        disabled := disabled + 1;
      }
      bySeverity := bySeverity + multiset{EffectiveSeverity(rule)};
      byNamespace := byNamespace + Tally(rule.conditions.namespace);
      byService := byService + Tally(rule.conditions.service);
    }
    assert rules[..|rules|] == rules;
    stats := RuleStats(|rules|, enabled, disabled, bySeverity, byNamespace, byService);
  }

  // ---------------------------------------------------------------------
  // Filtering
  // ---------------------------------------------------------------------

  /** Criteria of a rule query; `enabled` is a *bool in Go, None when unset. */
  datatype RuleFilter = RuleFilter(
    enabled: Option<bool>,
    namespace: string,
    service: string,
    severity: string,
    logLevel: string)

  const EmptyFilter := RuleFilter(None, "", "", "", "")

  /** Every set criterion holds; unset criteria accept anything. */
  predicate MatchesFilter(rule: AlertRule, filter: RuleFilter)
  {
    && (filter.enabled.Some? ==> rule.enabled == filter.enabled.value)
    && (filter.namespace != "" ==> rule.conditions.namespace == filter.namespace)
    && (filter.service != "" ==> rule.conditions.service == filter.service)
    && (filter.severity != "" ==> rule.actions.severity == filter.severity)
    && (filter.logLevel != "" ==> rule.conditions.logLevel == filter.logLevel)
  }

  /** `a` is `b` with some elements dropped, the rest kept in order. */
  predicate IsSubsequence<T(==)>(a: seq<T>, b: seq<T>)
    decreases |b|
  {
    if |a| == 0 then true
    else if |b| == 0 then false
    else if a[|a| - 1] == b[|b| - 1] then IsSubsequence(a[..|a| - 1], b[..|b| - 1])
    else IsSubsequence(a, b[..|b| - 1])
  }

  function FilterRules(rules: seq<AlertRule>, filter: RuleFilter): (r: seq<AlertRule>)
    ensures forall i :: 0 <= i < |r| ==> MatchesFilter(r[i], filter) && r[i] in rules
    ensures forall i :: 0 <= i < |rules| && MatchesFilter(rules[i], filter) ==> rules[i] in r
    ensures IsSubsequence(r, rules)
  {
    if |rules| == 0 then []
    else
      var init := FilterRules(rules[..|rules| - 1], filter);
      var last := rules[|rules| - 1];
      if MatchesFilter(last, filter) then
        assert (init + [last])[..|init|] == init;
        init + [last]
      else
        init
  }

  /** Filtering keeps every copy of a matching rule and no copy of any
      other: duplicates survive as often as they were listed. */
  lemma {:induction false} FilterRulesCounts(rules: seq<AlertRule>, filter: RuleFilter, x: AlertRule)
    ensures multiset(FilterRules(rules, filter))[x] == if MatchesFilter(x, filter) then multiset(rules)[x] else 0
  {
    if |rules| > 0 {
      var init := rules[..|rules| - 1];
      var last := rules[|rules| - 1];
      FilterRulesCounts(init, filter, x);
      assert rules == init + [last];
      assert multiset(rules) == multiset(init) + multiset{last};
    }
  }

  /** The empty filter keeps every rule. */
  lemma {:induction false} FilterEmptyKeepsAll(rules: seq<AlertRule>)
    ensures FilterRules(rules, EmptyFilter) == rules
  {
    if |rules| > 0 {
      FilterEmptyKeepsAll(rules[..|rules| - 1]);
      assert rules == rules[..|rules| - 1] + [rules[|rules| - 1]];
    }
  }

  /** Rules that all pass the filter are kept unchanged... */
  lemma {:induction false} FilterKeepsMatching(rules: seq<AlertRule>, filter: RuleFilter)
    requires forall i :: 0 <= i < |rules| ==> MatchesFilter(rules[i], filter)
    ensures FilterRules(rules, filter) == rules
  {
    if |rules| > 0 {
      FilterKeepsMatching(rules[..|rules| - 1], filter);
      assert rules == rules[..|rules| - 1] + [rules[|rules| - 1]];
    }
  }

  /** ...so filtering twice is filtering once. */
  lemma FilterIdempotent(rules: seq<AlertRule>, filter: RuleFilter)
    ensures FilterRules(FilterRules(rules, filter), filter) == FilterRules(rules, filter)
  {
    FilterKeepsMatching(FilterRules(rules, filter), filter);
  }

  // ---------------------------------------------------------------------
  // Rule ID slugs
  // ---------------------------------------------------------------------

  predicate IsSlugChar(c: char) { IsLowerAscii(c) || IsDigit(c) || c == '-' }

  /** strings.ReplaceAll with single-character old and new strings. */
  function ReplaceChar(s: string, from: char, to: char): (r: string)
    ensures |r| == |s|
    ensures forall i :: 0 <= i < |s| ==> r[i] == if s[i] == from then to else s[i]
  {
    seq(|s|, i requires 0 <= i < |s| => if s[i] == from then to else s[i])
  }

  /** Keeps the slug characters of `s`, in order. */
  function KeepSlugChars(s: string): (r: string)
    ensures forall i :: 0 <= i < |r| ==> IsSlugChar(r[i])
    ensures |r| <= |s|
  {
    if |s| == 0 then ""
    else (if IsSlugChar(s[0]) then [s[0]] else []) + KeepSlugChars(s[1..])
  }

  /** Lower-case, turn spaces and underscores into hyphens, drop everything
      outside [a-z0-9-]. */
  function GenerateRuleID(name: string): (id: string)
    ensures forall i :: 0 <= i < |id| ==> IsSlugChar(id[i])
    ensures |id| <= |name|
  {
    KeepSlugChars(ReplaceChar(ReplaceChar(ToLower(name), ' ', '-'), '_', '-'))
  }

  /** The character a single input character becomes, if any. */
  function SlugOf(c: char): seq<char>
  {
    var l := LowerChar(c);
    var h := if l == ' ' || l == '_' then '-' else l;
    if IsSlugChar(h) then [h] else []
  }

  /** Reference definition: the slug is the concatenation of each character's image. */
  function SlugRef(s: string): string
  {
    if |s| == 0 then "" else SlugOf(s[0]) + SlugRef(s[1..])
  }

  lemma {:induction false} GenerateRuleIDCharwise(name: string)
    ensures GenerateRuleID(name) == SlugRef(name)
  {
    if |name| > 0 {
      var m := ReplaceChar(ReplaceChar(ToLower(name), ' ', '-'), '_', '-');
      assert m[1..] == ReplaceChar(ReplaceChar(ToLower(name[1..]), ' ', '-'), '_', '-');
      GenerateRuleIDCharwise(name[1..]);
    }
  }

  /** A string that is already a slug is its own slug. */
  lemma {:induction false} SlugOfSlug(s: string)
    requires forall i :: 0 <= i < |s| ==> IsSlugChar(s[i])
    ensures SlugRef(s) == s
  {
    if |s| > 0 {
      SlugOfSlug(s[1..]);
      assert s == [s[0]] + s[1..];
    }
  }

  /** Generating an ID from an ID changes nothing. */
  lemma GenerateRuleIDIdempotent(name: string)
    ensures GenerateRuleID(GenerateRuleID(name)) == GenerateRuleID(name)
  {
    var id := GenerateRuleID(name);
    GenerateRuleIDCharwise(id);
    SlugOfSlug(id);
  }

  lemma {:induction false} SlugRefAppend(a: string, b: string)
    ensures SlugRef(a + b) == SlugRef(a) + SlugRef(b)
  {
    if |a| > 0 {
      assert (a + b)[0] == a[0];
      assert (a + b)[1..] == a[1..] + b;
      SlugRefAppend(a[1..], b);
    } else {
      assert a + b == b;
    }
  }

  lemma SlugAlert() ensures SlugRef("Alert") == "alert" {}
  lemma SlugPunctuation() ensures SlugRef("! @#$") == "-" {}
  lemma SlugRule() ensures SlugRef("% Rule") == "-rule" {}

  /** "Alert! @#$% Rule" keeps the two spaces as hyphens and drops the punctuation. */
  lemma GenerateRuleIDExample(a: string, b: string, c: string)
    requires a == "Alert" && b == "! @#$" && c == "% Rule"
    ensures GenerateRuleID(a + b + c) == "alert--rule"
  {
    GenerateRuleIDCharwise(a + b + c);
    SlugRefAppend(a + b, c);
    SlugRefAppend(a, b);
    SlugAlert();
    SlugPunctuation();
    SlugRule();
  }

}

=== FILE: storage.dfy ===
/** The Redis-backed state store (internal/storage/redis.go) as a finite map.

    Redis's KEYS returns keys in no particular order; the model fixes one
    (insertion order, kept in `order`) and every property that depends on it
    says so. Values are kept as the structures they were encoded from;
    `Garbage` stands for bytes written by someone else that do not decode.
    `up == false` models a store that answers every command with an error. */
module Storage {
  import opened Common
  import opened Models

  datatype Value =
    | RuleValue(rule: AlertRule)
    | CounterValue(n: int)
    | StatusValue(status: AlertStatus)
    | StatsValue(stats: LogStats)
    | AlertValue(alert: Alert)
    | Garbage(bytes: string)

  datatype Store = Store(data: map<string, Value>, order: seq<string>, up: bool)
  {
    /** `order` lists every key exactly once. */
    ghost predicate Valid()
    {
      && (forall i, j :: 0 <= i < j < |order| ==> order[i] != order[j])
      && (forall i :: 0 <= i < |order| ==> order[i] in data)
      && (forall k :: k in data ==> k in order)
    }
  }

  const EmptyStore := Store(map[], [], true)

  datatype StoreError =
    | Unavailable(operation: string)       // any command failed on the wire
    | NotFound(kind: string, id: string)   // redis.Nil, or DEL removed nothing
    | Undecodable(kind: string)            // json.Unmarshal failed
    | NotAnInteger                         // INCR on a non-integer value

  function StoreErrorMessage(e: StoreError): string
  {
    match e
    case Unavailable(op) => "failed to " + op
    case NotFound(kind, id) => kind + " not found: " + id
    case Undecodable(kind) => "failed to unmarshal " + kind
    case NotAnInteger => "failed to increment counter: ERR value is not an integer or out of range"
  }

  // ---------------------------------------------------------------------
  // Key schema
  // ---------------------------------------------------------------------

  const RulePrefix := "alert_rule:"
  const CounterPrefix := "counter:"
  const StatusPrefix := "alert_status:"
  const AlertPrefix := "alert:"
  const LogStatsKey := "log_stats"

  function RuleKey(id: string): string { RulePrefix + id }
  function StatusKey(ruleId: string): string { StatusPrefix + ruleId }
  function AlertKey(alertId: string): string { AlertPrefix + alertId }

  /** Each key is its family's prefix followed by the ID, which can be read
      back from the key. */
  lemma RuleKeyReadsBack(id: string)
    ensures HasPrefix(RuleKey(id), RulePrefix) && RuleKey(id)[|RulePrefix|..] == id
  {
    assert RuleKey(id)[..|RulePrefix|] == RulePrefix;
  }

  lemma StatusKeyReadsBack(ruleId: string)
    ensures HasPrefix(StatusKey(ruleId), StatusPrefix) && StatusKey(ruleId)[|StatusPrefix|..] == ruleId
  {
    assert StatusKey(ruleId)[..|StatusPrefix|] == StatusPrefix;
  }

  lemma AlertKeyReadsBack(alertId: string)
    ensures HasPrefix(AlertKey(alertId), AlertPrefix) && AlertKey(alertId)[|AlertPrefix|..] == alertId
  {
    assert AlertKey(alertId)[..|AlertPrefix|] == AlertPrefix;
  }

  /** The start of the counting window holding `now`: time.Truncate rounds down
      to a multiple of the window since Go's zero time, and leaves the time
      alone when the window is not positive. */
  function WindowStart(now: Time, window: Duration): (start: Time)
    ensures window > 0 ==> start <= now < start + window
    ensures window <= 0 ==> start == now
  {
    if window <= 0 then now else now - now % window
  }

  /** "counter:<rule>:<unix seconds of the window start>". */
  function CounterKey(ruleId: string, window: Duration, now: Time): string
  {
    CounterPrefix + ruleId + ":" + IntToString(UnixSeconds(WindowStart(now, window)))
  }

  /** A counter key is "counter:", the rule ID and ':', followed by a stamp
      that parses back to the Unix second at which the window starts. */
  lemma CounterKeyReadsBack(ruleId: string, window: Duration, now: Time)
    ensures var head := CounterPrefix + ruleId + ":";
      var start := UnixSeconds(WindowStart(now, window));
      var k := CounterKey(ruleId, window, now);
      && HasPrefix(k, head) && |k| > |head|
      && (MinInt64 <= start <= MaxInt64 ==> Atoi(k[|head|..]) == Some(start))
  {
    var head := CounterPrefix + ruleId + ":";
    var start := UnixSeconds(WindowStart(now, window));
    var k := CounterKey(ruleId, window, now);
    assert k[..|head|] == head;
    assert k[|head|..] == IntToString(start);
    if MinInt64 <= start <= MaxInt64 {
      AtoiIntToString(start);
    }
  }

  /** Two instants in the same window share a counter key. */
  lemma SameWindowSameKey(ruleId: string, window: Duration, t1: Time, t2: Time)
    requires window > 0
    requires WindowStart(t1, window) <= t2 < WindowStart(t1, window) + window
    ensures WindowStart(t2, window) == WindowStart(t1, window)
    ensures CounterKey(ruleId, window, t1) == CounterKey(ruleId, window, t2)
  {
    var q := t1 / window;
    assert t1 == q * window + t1 % window;
    DivUnique(t2, window, q, t2 - q * window);
  }

  /** The key families never collide: a rule, status or alert key is never a
      key of another family, and none of them is the statistics key. */
  lemma KeyFamiliesDisjoint(a: string, b: string, c: string)
    ensures RuleKey(a) != StatusKey(b) && RuleKey(a) != AlertKey(c) && StatusKey(b) != AlertKey(c)
    ensures RuleKey(a) != LogStatsKey && StatusKey(b) != LogStatsKey && AlertKey(c) != LogStatsKey
    ensures !HasPrefix(RuleKey(a), AlertPrefix) && !HasPrefix(StatusKey(b), AlertPrefix)
    ensures !HasPrefix(AlertKey(c), RulePrefix)
  {
    assert RuleKey(a)[5] == '_' && StatusKey(b)[5] == '_' && AlertKey(c)[5] == ':';
    assert RuleKey(a)[6] == 'r' && StatusKey(b)[6] == 's';
    assert LogStatsKey[0] == 'l';
  }

  /** Different rules get different rule keys. */
  lemma RuleKeyInjective(a: string, b: string)
    requires RuleKey(a) == RuleKey(b)
    ensures a == b
  {
    assert a == RuleKey(a)[|RulePrefix|..];
    assert b == RuleKey(b)[|RulePrefix|..];
  }

  // ---------------------------------------------------------------------
  // Raw map operations
  // ---------------------------------------------------------------------

  /** SET: overwrite in place or append a new key. */
  function Put(s: Store, key: string, v: Value): (t: Store)
    requires s.Valid()
    ensures t.Valid() && t.up == s.up
    ensures t.data == s.data[key := v]
    ensures key in s.data ==> t.order == s.order
    ensures key !in s.data ==> t.order == s.order + [key]
  {
    if key in s.data then s.(data := s.data[key := v])
    else s.(data := s.data[key := v], order := s.order + [key])
  }

  /** `xs` without `x`, order kept. */
  function Without(xs: seq<string>, x: string): (ys: seq<string>)
    ensures forall k :: k in ys <==> k in xs && k != x
    ensures (forall i, j :: 0 <= i < j < |xs| ==> xs[i] != xs[j]) ==>
      forall i, j :: 0 <= i < j < |ys| ==> ys[i] != ys[j]
  {
    if |xs| == 0 then []
    else if xs[0] == x then Without(xs[1..], x)
    else
      var rest := Without(xs[1..], x);
      assert forall k :: k in xs[1..] ==> k != xs[0] ==> true;
      assert (forall i, j :: 0 <= i < j < |xs| ==> xs[i] != xs[j]) ==> xs[0] !in xs[1..];
      [xs[0]] + rest
  }

  /** DEL of one key. */
  function Remove(s: Store, key: string): (t: Store)
    requires s.Valid()
    ensures t.Valid() && t.up == s.up
    ensures t.data == s.data - {key}
  {
    var order := Without(s.order, key);
    forall i | 0 <= i < |order|
      ensures order[i] in s.order && order[i] != key
    {
      assert order[i] in order;
    }
    Store(s.data - {key}, order, s.up)
  }

  /** KEYS <prefix>*: the matching keys in the store's order. */
  function KeysWithPrefix(order: seq<string>, prefix: string): (ks: seq<string>)
    ensures forall i :: 0 <= i < |ks| ==> HasPrefix(ks[i], prefix) && ks[i] in order
    ensures forall k :: k in order && HasPrefix(k, prefix) ==> k in ks
    ensures |ks| <= |order|
  {
    if |order| == 0 then []
    else
      var rest := KeysWithPrefix(order[1..], prefix);
      if HasPrefix(order[0], prefix) then [order[0]] + rest else rest
  }

  // ---------------------------------------------------------------------
  // Rules
  // ---------------------------------------------------------------------

  /** Every stored rule sits under the key of its own ID (SaveAlertRule is the
      only writer of rule values). */
  ghost predicate RulesWellKeyed(s: Store)
  {
    forall k :: k in s.data && s.data[k].RuleValue? ==> k == RuleKey(s.data[k].rule.id)
  }

  function SaveAlertRule(s: Store, rule: AlertRule): (r: Result<Store, StoreError>)
    requires s.Valid()
    ensures r.Ok? <==> s.up
    ensures r.Ok? ==> (r.value.Valid() && r.value.up
      && r.value.data == s.data[RuleKey(rule.id) := RuleValue(rule)])
    ensures r.Ok? && RulesWellKeyed(s) ==> RulesWellKeyed(r.value)
  {
    if !s.up then Err(Unavailable("save alert rule"))
    else Ok(Put(s, RuleKey(rule.id), RuleValue(rule)))
  }

  /** The rules stored under the given keys, skipping values that do not decode. */
  function DecodeRules(data: map<string, Value>, keys: seq<string>): (rules: seq<AlertRule>)
    requires forall i :: 0 <= i < |keys| ==> keys[i] in data
    ensures |rules| <= |keys|
    ensures forall i :: 0 <= i < |rules| ==> exists j :: 0 <= j < |keys| && data[keys[j]] == RuleValue(rules[i])
    ensures forall j :: 0 <= j < |keys| && data[keys[j]].RuleValue? ==> data[keys[j]].rule in rules
  {
    if |keys| == 0 then []
    else
      var rest := DecodeRules(data, keys[1..]);
      var v := data[keys[0]];
      if v.RuleValue? then
        var r := [v.rule] + rest;
        assert forall i :: 1 <= i < |r| ==> r[i] == rest[i - 1];
        r
      else rest
  }

  /** GetAlertRules: every decodable value under an "alert_rule:" key. */
  function GetAlertRules(s: Store): (r: Result<seq<AlertRule>, StoreError>)
    requires s.Valid()
    ensures r.Ok? <==> s.up
    ensures r.Ok? ==> forall id :: RuleKey(id) in s.data && s.data[RuleKey(id)].RuleValue? ==>
      s.data[RuleKey(id)].rule in r.value
    ensures r.Ok? ==> forall i :: 0 <= i < |r.value| ==>
      exists k :: k in s.data && HasPrefix(k, RulePrefix) && s.data[k] == RuleValue(r.value[i])
  {
    if !s.up then Err(Unavailable("get alert rule keys"))
    else
      var keys := KeysWithPrefix(s.order, RulePrefix);
      var rules := DecodeRules(s.data, keys);
      assert forall id :: RuleKey(id) in s.data ==> RuleKey(id) in keys by {
        forall id | RuleKey(id) in s.data
          ensures RuleKey(id) in keys
        {
          assert HasPrefix(RuleKey(id), RulePrefix);
        }
      }
      Ok(rules)
  }

  function GetAlertRule(s: Store, id: string): (r: Result<AlertRule, StoreError>)
    ensures r.Ok? <==> s.up && RuleKey(id) in s.data && s.data[RuleKey(id)].RuleValue?
    ensures r.Ok? ==> s.data[RuleKey(id)] == RuleValue(r.value)
    ensures r == Err(NotFound("alert rule", id)) <==> s.up && RuleKey(id) !in s.data
  {
    if !s.up then Err(Unavailable("get alert rule"))
    else if RuleKey(id) !in s.data then Err(NotFound("alert rule", id))
    else if s.data[RuleKey(id)].RuleValue? then Ok(s.data[RuleKey(id)].rule)
    else Err(Undecodable("alert rule"))
  }

  /** DEL reports how many keys it removed; removing none is "not found". */
  function DeleteAlertRule(s: Store, id: string): (r: Result<Store, StoreError>)
    requires s.Valid()
    ensures r.Ok? <==> s.up && RuleKey(id) in s.data
    ensures r == Err(NotFound("alert rule", id)) <==> s.up && RuleKey(id) !in s.data
    ensures r.Ok? ==> r.value.Valid() && r.value.up && r.value.data == s.data - {RuleKey(id)}
    ensures r.Ok? && RulesWellKeyed(s) ==> RulesWellKeyed(r.value)
  {
    if !s.up then Err(Unavailable("delete alert rule"))
    else if RuleKey(id) !in s.data then Err(NotFound("alert rule", id))
    else Ok(Remove(s, RuleKey(id)))
  }

  /** Saving a rule and reading its ID back returns the rule. */
  lemma SaveThenGetRule(s: Store, rule: AlertRule)
    requires s.Valid() && s.up
    ensures SaveAlertRule(s, rule).Ok?
    ensures GetAlertRule(SaveAlertRule(s, rule).value, rule.id) == Ok(rule)
  {
  }

  /** Saving one rule leaves every other rule readable as before. */
  lemma SaveKeepsOtherRules(s: Store, rule: AlertRule, other: string)
    requires s.Valid() && s.up && other != rule.id
    ensures GetAlertRule(SaveAlertRule(s, rule).value, other) == GetAlertRule(s, other)
  {
    if RuleKey(other) == RuleKey(rule.id) {
      RuleKeyInjective(other, rule.id);
    }
  }

  /** After a successful delete the rule is gone, and deleting it again fails. */
  lemma DeleteThenGetRule(s: Store, id: string)
    requires s.Valid() && s.up && RuleKey(id) in s.data
    ensures DeleteAlertRule(s, id).Ok?
    ensures GetAlertRule(DeleteAlertRule(s, id).value, id) == Err(NotFound("alert rule", id))
    ensures DeleteAlertRule(DeleteAlertRule(s, id).value, id) == Err(NotFound("alert rule", id))
  {
  }

  // ---------------------------------------------------------------------
  // Windowed counters
  // ---------------------------------------------------------------------

  /** INCR on the window's key: a missing key counts from 0, a value that is
      not a 64-bit integer is an error. Expiry (twice the window) is not modelled. */
  function IncrementCounter(s: Store, ruleId: string, window: Duration, now: Time): (r: Result<(Store, int), StoreError>)
    requires s.Valid()
    ensures r.Ok? <==> s.up && var key := CounterKey(ruleId, window, now);
      (key !in s.data || (s.data[key].CounterValue? && s.data[key].n < MaxInt64))
    ensures r.Ok? ==> var key := CounterKey(ruleId, window, now);
      var t := r.value.0; var n := r.value.1;
      && t.Valid() && t.up
      && t.data == s.data[key := CounterValue(n)]
      && (key !in s.data ==> n == 1)
      && (key in s.data ==> n == s.data[key].n + 1)
  {
    IncrKey(s, CounterKey(ruleId, window, now))
  }

  /** GET of the window's key; a missing key reads as 0. */
  function GetCounter(s: Store, ruleId: string, window: Duration, now: Time): (r: Result<int, StoreError>)
    ensures s.up && CounterKey(ruleId, window, now) !in s.data ==> r == Ok(0)
    ensures r.Ok? && r.value != 0 ==> var key := CounterKey(ruleId, window, now);
      key in s.data && s.data[key] == CounterValue(r.value)
    ensures !s.up ==> r.Err?
    ensures var key := CounterKey(ruleId, window, now);
      s.up && key in s.data ==>
        && (r.Ok? <==> s.data[key].CounterValue?)
        && (r.Ok? ==> r.value == s.data[key].n)
  {
    var key := CounterKey(ruleId, window, now);
    if !s.up then Err(Unavailable("get counter"))
    else if key !in s.data then Ok(0)
    else if s.data[key].CounterValue? then Ok(s.data[key].n)
    else Err(Undecodable("counter value"))
  }

  /** INCR of one key, the step IncrementCounter performs. */
  function IncrKey(s: Store, key: string): (r: Result<(Store, int), StoreError>)
    requires s.Valid()
    ensures r.Ok? ==> s.up
    ensures r.Ok? ==> var t := r.value.0; var n := r.value.1;
      && t.Valid() && t.up
      && t.data == s.data[key := CounterValue(n)]
      && (key !in s.data ==> n == 1)
      && (key in s.data ==> s.data[key].CounterValue? && n == s.data[key].n + 1)
    ensures s.up && key !in s.data ==> r.Ok? && r.value.1 == 1
    ensures s.up && key in s.data && s.data[key].CounterValue? && s.data[key].n < MaxInt64 ==> r.Ok?
  {
    if !s.up then Err(Unavailable("increment counter"))
    else if key !in s.data then Ok((Put(s, key, CounterValue(1)), 1))
    else
      match s.data[key]
      case CounterValue(n) =>
        if n + 1 > MaxInt64 then Err(NotAnInteger)
        else Ok((Put(s, key, CounterValue(n + 1)), n + 1))
      case _ => Err(NotAnInteger)
  }

  /** INCR repeated `count` times on one key, collecting the replies. */
  function IncrKeyMany(s: Store, key: string, count: nat): (r: Result<(Store, seq<int>), StoreError>)
    requires s.Valid()
    ensures r.Ok? ==> r.value.0.Valid() && |r.value.1| == count
    decreases count
  {
    if count == 0 then Ok((s, []))
    else
      var first := IncrKey(s, key);
      if first.Err? then Err(first.error)
      else
        var rest := IncrKeyMany(first.value.0, key, count - 1);
        if rest.Err? then Err(rest.error)
        else Ok((rest.value.0, [first.value.1] + rest.value.1))
  }

  /** Successive increments of one counter reply base + 1, base + 2, ...,
      continuing from its current value (0 when the key is missing), and the
      counter then holds base + count. */
  lemma {:induction false} IncrementsCountUp(s: Store, key: string, count: nat, base: nat)
    requires s.Valid() && s.up
    requires key in s.data ==> s.data[key] == CounterValue(base)
    requires key !in s.data ==> base == 0
    requires base + count <= MaxInt64
    ensures IncrKeyMany(s, key, count).Ok?
    ensures forall i :: 0 <= i < count ==> IncrKeyMany(s, key, count).value.1[i] == base + i + 1
    ensures count > 0 ==> var t := IncrKeyMany(s, key, count).value.0;
      key in t.data && t.data[key] == CounterValue(base + count)
    decreases count
  {
    if count > 0 {
      IncrementFrom(s, key, base);
      var t := IncrKey(s, key).value.0;
      IncrementsCountUp(t, key, count - 1, base + 1);
      var rest := IncrKeyMany(t, key, count - 1);
      IncrKeyManyStep(s, key, count);
      CountingUpFrom(rest.value.1, [base + 1] + rest.value.1, base, count);
    }
  }

  /** The first reply heads the replies when every increment succeeds. */
  lemma IncrKeyManyStep(s: Store, key: string, count: nat)
    requires s.Valid() && count > 0 && IncrKey(s, key).Ok?
    requires IncrKeyMany(IncrKey(s, key).value.0, key, count - 1).Ok?
    ensures var rest := IncrKeyMany(IncrKey(s, key).value.0, key, count - 1);
      IncrKeyMany(s, key, count) == Ok((rest.value.0, [IncrKey(s, key).value.1] + rest.value.1))
  {
  }

  /** One INCR on a counter holding `base` (or missing, with base 0). */
  lemma IncrementFrom(s: Store, key: string, base: nat)
    requires s.Valid() && s.up
    requires key in s.data ==> s.data[key] == CounterValue(base)
    requires key !in s.data ==> base == 0
    requires base < MaxInt64
    ensures IncrKey(s, key).Ok? && IncrKey(s, key).value.1 == base + 1
    ensures var t := IncrKey(s, key).value.0;
      t.Valid() && t.up && key in t.data && t.data[key] == CounterValue(base + 1)
  {
  }

  lemma CountingUpFrom(xs: seq<int>, ys: seq<int>, base: nat, count: nat)
    requires count > 0 && |xs| == count - 1 && ys == [base + 1] + xs
    requires forall i :: 0 <= i < count - 1 ==> xs[i] == base + 1 + i + 1
    ensures forall i :: 0 <= i < count ==> ys[i] == base + i + 1
  {
    forall i | 0 <= i < count
      ensures ys[i] == base + i + 1
    {
      if i > 0 { assert ys[i] == xs[i - 1]; }
    }
  }

  /** Two increments at instants of one window count 1 then 2 on a fresh
      counter, and GetCounter then reads 2 anywhere in that window. */
  lemma SuccessiveIncrementsInWindow(s: Store, ruleId: string, window: Duration, t1: Time, t2: Time, t3: Time)
    requires s.Valid() && s.up && CounterKey(ruleId, window, t1) !in s.data
    requires window > 0
    requires WindowStart(t1, window) <= t2 < WindowStart(t1, window) + window
    requires WindowStart(t1, window) <= t3 < WindowStart(t1, window) + window
    ensures IncrementCounter(s, ruleId, window, t1).Ok?
    ensures IncrementCounter(s, ruleId, window, t1).value.1 == 1
    ensures var s1 := IncrementCounter(s, ruleId, window, t1).value.0;
      IncrementCounter(s1, ruleId, window, t2).Ok? &&
      IncrementCounter(s1, ruleId, window, t2).value.1 == 2 &&
      GetCounter(IncrementCounter(s1, ruleId, window, t2).value.0, ruleId, window, t3) == Ok(2)
  {
    SameWindowSameKey(ruleId, window, t1, t2);
    SameWindowSameKey(ruleId, window, t1, t3);
  }

  // ---------------------------------------------------------------------
  // Alert status, log statistics, alerts
  // ---------------------------------------------------------------------

  function SetAlertStatus(s: Store, ruleId: string, status: AlertStatus): (r: Result<Store, StoreError>)
    requires s.Valid()
    ensures r.Ok? <==> s.up
    ensures r.Ok? ==> r.value.Valid() && r.value.up && r.value.data == s.data[StatusKey(ruleId) := StatusValue(status)]
  {
    if !s.up then Err(Unavailable("set alert status")) else Ok(Put(s, StatusKey(ruleId), StatusValue(status)))
  }

  function GetAlertStatus(s: Store, ruleId: string): (r: Result<AlertStatus, StoreError>)
    ensures r.Ok? <==> s.up && StatusKey(ruleId) in s.data && s.data[StatusKey(ruleId)].StatusValue?
    ensures r.Ok? ==> s.data[StatusKey(ruleId)] == StatusValue(r.value)
    ensures s.up && StatusKey(ruleId) !in s.data ==> r == Err(NotFound("alert status", ruleId))
  {
    if !s.up then Err(Unavailable("get alert status"))
    else if StatusKey(ruleId) !in s.data then Err(NotFound("alert status", ruleId))
    else if s.data[StatusKey(ruleId)].StatusValue? then Ok(s.data[StatusKey(ruleId)].status)
    else Err(Undecodable("alert status"))
  }

  function SaveLogStats(s: Store, stats: LogStats): (r: Result<Store, StoreError>)
    requires s.Valid()
    ensures r.Ok? <==> s.up
    ensures r.Ok? ==> r.value.Valid() && r.value.data == s.data[LogStatsKey := StatsValue(stats)]
  {
    if !s.up then Err(Unavailable("save log stats")) else Ok(Put(s, LogStatsKey, StatsValue(stats)))
  }

  /** Missing statistics read as zero totals with empty (not nil) maps, stamped now. */
  function GetLogStats(s: Store, now: Time): (r: Result<LogStats, StoreError>)
    ensures r.Ok? <==> s.up && (LogStatsKey !in s.data || s.data[LogStatsKey].StatsValue?)
    ensures s.up && LogStatsKey !in s.data ==>
      r == Ok(LogStats(0, Some(map[]), Some(map[]), now))
    ensures s.up && LogStatsKey in s.data && s.data[LogStatsKey].StatsValue? ==>
      r == Ok(s.data[LogStatsKey].stats)
  {
    if !s.up then Err(Unavailable("get log stats"))
    else if LogStatsKey !in s.data then Ok(LogStats(0, Some(map[]), Some(map[]), now))
    else if s.data[LogStatsKey].StatsValue? then Ok(s.data[LogStatsKey].stats)
    else Err(Undecodable("log stats"))
  }

  function SaveAlert(s: Store, alert: Alert): (r: Result<Store, StoreError>)
    requires s.Valid()
    ensures r.Ok? <==> s.up
    ensures r.Ok? ==> r.value.Valid() && r.value.up && r.value.data == s.data[AlertKey(alert.id) := AlertValue(alert)]
  {
    if !s.up then Err(Unavailable("save alert")) else Ok(Put(s, AlertKey(alert.id), AlertValue(alert)))
  }

  function GetAlert(s: Store, alertId: string): (r: Result<Alert, StoreError>)
    ensures r.Ok? <==> s.up && AlertKey(alertId) in s.data && s.data[AlertKey(alertId)].AlertValue?
    ensures r.Ok? ==> s.data[AlertKey(alertId)] == AlertValue(r.value)
    ensures s.up && AlertKey(alertId) !in s.data ==> r == Err(NotFound("alert", alertId))
  {
    if !s.up then Err(Unavailable("get alert"))
    else if AlertKey(alertId) !in s.data then Err(NotFound("alert", alertId))
    else if s.data[AlertKey(alertId)].AlertValue? then Ok(s.data[AlertKey(alertId)].alert)
    else Err(Undecodable("alert"))
  }

  /** The alerts stored under the given keys, skipping values that do not decode. */
  function DecodeAlerts(data: map<string, Value>, keys: seq<string>): (alerts: seq<Alert>)
    requires forall i :: 0 <= i < |keys| ==> keys[i] in data
    ensures |alerts| <= |keys|
    ensures forall j :: 0 <= j < |keys| && data[keys[j]].AlertValue? ==> data[keys[j]].alert in alerts
    ensures forall i :: 0 <= i < |alerts| ==> exists j :: 0 <= j < |keys| && data[keys[j]] == AlertValue(alerts[i])
  {
    if |keys| == 0 then []
    else
      var rest := DecodeAlerts(data, keys[1..]);
      var v := data[keys[0]];
      if v.AlertValue? then
        var r := [v.alert] + rest;
        assert forall i :: 1 <= i < |r| ==> r[i] == rest[i - 1];
        r
      else rest
  }

  /** Failures of GetRecentAlerts: the store failed, or the slice expression
      alerts[:limit] panicked on a negative limit. */
  datatype RecentAlertsError = StoreFailed(error: StoreError) | SliceOutOfRange(limit: int)

  /** GetRecentAlerts as written: every decodable "alert:" value in key order,
      cut to `limit` when there are more. Despite the comment in the source no
      sorting happens, and a negative limit always panics because the length
      (at least 0) exceeds it. */
  function GetRecentAlerts(s: Store, limit: int): (r: Result<seq<Alert>, RecentAlertsError>)
    requires s.Valid()
    ensures !s.up ==> r.Err? && r.error.StoreFailed?
    ensures s.up && limit < 0 ==> r == Err(SliceOutOfRange(limit))
    ensures s.up && limit >= 0 ==> r.Ok?
    ensures r.Ok? ==>
      var all := DecodeAlerts(s.data, KeysWithPrefix(s.order, AlertPrefix));
      |r.value| == Min(|all|, limit) && r.value == all[..|r.value|]
  {
    if !s.up then Err(StoreFailed(Unavailable("get alert keys")))
    else
      var all := DecodeAlerts(s.data, KeysWithPrefix(s.order, AlertPrefix));
      if |all| > limit then
        if limit < 0 then Err(SliceOutOfRange(limit)) else Ok(all[..limit])
      else Ok(all)
  }

  function Min(a: int, b: int): int { if a < b then a else b }

  /** A negative limit is not a request anyone can satisfy: the call fails even
      on an empty store. */
  lemma NegativeLimitFailsOnEmptyStore(limit: int)
    requires limit < 0
    ensures GetRecentAlerts(EmptyStore, limit) == Err(SliceOutOfRange(limit))
  {
  }

  /** The intended reading of GetRecentAlerts's limit: a negative limit asks for
      nothing, and the result is always a prefix of the stored alerts. */
  function GetRecentAlertsClamped(s: Store, limit: int): (r: Result<seq<Alert>, StoreError>)
    requires s.Valid()
    ensures r.Ok? <==> s.up
    ensures r.Ok? ==>
      var all := DecodeAlerts(s.data, KeysWithPrefix(s.order, AlertPrefix));
      |r.value| == Min(|all|, if limit < 0 then 0 else limit) && r.value == all[..|r.value|]
  {
    if !s.up then Err(Unavailable("get alert keys"))
    else
      var all := DecodeAlerts(s.data, KeysWithPrefix(s.order, AlertPrefix));
      var n := if limit < 0 then 0 else limit;
      if |all| > n then Ok(all[..n]) else Ok(all)
  }

  /** The two agree on every non-negative limit. */
  lemma ClampedAgreesOnNonNegative(s: Store, limit: int)
    requires s.Valid() && s.up && limit >= 0
    ensures GetRecentAlerts(s, limit) == Ok(GetRecentAlertsClamped(s, limit).value)
  {
  }

  /** PING. */
  function GetHealthStatus(s: Store): (r: Result<bool, StoreError>)
    ensures r.Ok? <==> s.up
    ensures r.Ok? ==> r.value
  {
    if s.up then Ok(true) else Err(Unavailable("ping"))
  }

  // ---------------------------------------------------------------------
  // Client configuration
  // ---------------------------------------------------------------------

  datatype ClientOptions =
    | ClusterClient(addrs: seq<string>, password: string)
    | SingleClient(addr: string, password: string, db: int)

  function TrimAll(xs: seq<string>): (ys: seq<string>)
    ensures |ys| == |xs| && forall i :: 0 <= i < |xs| ==> ys[i] == TrimSpace(xs[i])
  {
    seq(|xs|, i requires 0 <= i < |xs| => TrimSpace(xs[i]))
  }

  /** Cluster mode when asked for or when the address lists several nodes; the
      list is split on ',' and each node address trimmed. */
  function NewRedisStoreWithConfig(addr: string, password: string, clusterMode: bool): (c: ClientOptions)
    ensures c.ClusterClient? <==> clusterMode || ',' in addr
    ensures c.ClusterClient? ==> (|c.addrs| == CountChar(addr, ',') + 1 && c.password == password
      && forall i :: 0 <= i < |c.addrs| ==> ',' !in c.addrs[i])
    ensures c.ClusterClient? ==> c.addrs == TrimAll(Split(addr, ','))
    ensures c.SingleClient? ==> c == SingleClient(addr, password, 0)
  {
    ContainsChar(addr, ',');
    if clusterMode || Contains(addr, [',']) then
      var parts := Split(addr, ',');
      var addrs := TrimAll(parts);
      assert forall i :: 0 <= i < |addrs| ==> ',' !in addrs[i] by {
        forall i | 0 <= i < |addrs|
          ensures ',' !in addrs[i]
        {
          TrimSpaceSubset(parts[i], ',');
        }
      }
      ClusterClient(addrs, password)
    else SingleClient(addr, password, 0)
  }

  /** Contains on a one-character needle is plain membership. */
  lemma {:induction false} ContainsChar(s: string, c: char)
    ensures Contains(s, [c]) <==> c in s
  {
    if |s| > 0 {
      ContainsChar(s[1..], c);
      assert c in s <==> s[0] == c || c in s[1..];
    }
  }
}
